=== FILE: README.md ===
# Immich Album Watcher — a Dafny model of its core

Immich Album Watcher is a Home Assistant integration. It polls an Immich photo server for albums
and keeps a snapshot of each one. When a snapshot changes it fires events on the Home Assistant bus.
A binary sensor shows "new assets" for five minutes after assets are added. A notification service
relays album media to Telegram.

The repository has two variants of the integration:

- **per-album** (`custom_components/immich_album_watcher`): one coordinator per album, persistent
  storage of asset ids across restarts, rename and sharing events, and the Telegram relay;
- **multi-album** (`immich_album_watcher`): one coordinator per hub watching several albums, with
  an ids-only comparison.

This project models the following, as pure functions over immutable data:

- **Snapshots** (`snapshot.dfy`): building `AlbumData` and `AssetInfo` from the server's payload.
  This covers defaults for missing keys, the last-entry-wins dict, insertion order, and the
  photo/video counts. It also covers the new-assets carry-forward and flag clearing.
- **Change detection** (`diff.dfy`): the per-album comparison (ids, name, shared flag) and the
  ids-only comparison of the multi-album variant and of the per-album restart path. It includes
  the classification cascade for `change_type`.
- **Event fan-out** (`events.dfy`): which events fire, in which order, with which data.
- **Shared links** (`shared_links.dfy`): parsing, filtering (accessible, protected, non-expired),
  the URL resolvers, and both link-fetch strategies (per-album filtering and multi-album
  grouping).
- **Storage** (`storage.dfy`): the in-memory and on-disk asset-id store, and what survives a
  restart.
- **The two coordinators** (`album_watch.dfy`, `hub_watch.dfy`): one poll as a step from state and
  server answers to the next state, the storage and the fired events. The model keeps every quirk:
  - a 404 keeps `_previous_state` in the per-album variant and forgets the album in the
    multi-album variant;
  - carry-forward overwrites a fresh change time;
  - an aborted multi-album poll keeps the events it already fired.
- **The new-assets sensor** (`new_assets.dfy`, plus `IsOn`/`TurnOff` in the coordinators): the
  five-minute window and its auto-reset.
- **Recent assets** (`recent.dfy`): the stable newest-first sort and Python's slice semantics.
- **The Telegram relay** (`telegram_send.dfy`, `telegram_relay.dfy`):
  - token and routing;
  - single photo/video/text sends;
  - chunking by `max_group_size`;
  - the per-chunk download scan (abort, skip, or divert to document);
  - media groups, documents, pauses and the final response.

Design choices:

- **Time** is an integer count of microseconds, the resolution of Python's `datetime`. The
  five-minute window is `300 * 1_000_000`.
- **Server answers are inputs.** A poll receives the users, shared-links and album answers. The
  relay receives each URL's download outcome with the item. The Telegram bot is a function from
  request to reply. The relay's result is its response plus the trace of bot calls and pauses it
  made.
- **Message ids.** `TraceIds` reads the ids back from a trace: a `sendMediaGroup` the bot
  accepted contributes every id of its reply, any other accepted call its first id (or none), and
  pauses and refused calls nothing. Every send states its `message_id` or `message_ids` against it.
- **Aliasing.** After a successful per-album poll, the coordinator's `data` and `_previous_state`
  are the same Python object, so clearing the flag clears both. The model has two fields and an
  invariant (`Aliased`) that every step preserves. The multi-album variant is handled the same
  way: `previous` is a shallow copy of `data`, so it shares the snapshots.
- **Where the code is followed.** These behaviours come from the code itself:
  - the per-album shared-link list is emptied before the request, so a failed request leaves no
    links;
  - the multi-album cache is only replaced on a 200;
  - `immich_album_watcher/const.py` lacks `NEW_ASSETS_RESET_DELAY` and `ASSET_TYPE_*`, so both
    variants use the constants of `custom_components/immich_album_watcher/const.py`.

## Model

| member | source | states |
|---|---|---|
| Snapshot.AssetFromApi | custom_components/immich_album_watcher/coordinator.py:123-158 | The asset keeps its id and owner id. Its type defaults to IMAGE. A missing file name or creation time reads as `""`. `isFavorite` defaults to false. Its people are exactly the payload's non-empty names, in order. The owner name is the cache's name for the owner id when the id is non-empty and cached, and `""` otherwise. Without `exifInfo` there is no description and no rating; with it, the rating is copied and a missing description reads as `""`. |
| Snapshot.TallyAssets | custom_components/immich_album_watcher/coordinator.py:189-199 | The loop's dict keys are exactly the payload's ids. The photo and video counts equal the number of entries tagged IMAGE and VIDEO, duplicates included. Together they never exceed the entry count. |
| Snapshot.TallyOrder | custom_components/immich_album_watcher/coordinator.py:192-193 | The dict's insertion order lists every key exactly once and nothing else. |
| Snapshot.TallyLastWins | custom_components/immich_album_watcher/coordinator.py:192-193 | For a repeated id, the dict keeps the record built from its last entry. |
| Snapshot.AlbumFromApi | custom_components/immich_album_watcher/coordinator.py:181-218 | `asset_ids` equals the dict's keys and the payload's ids. The counts are those of the payload. `assetCount` is the payload's when present and otherwise the number of distinct ids. The last entry wins. Name, owner and shared default to "Unnamed", "Unknown" and false; id, thumbnail and both dates are copied, a missing date reading as `""`. `people` is the union of every asset's non-empty names. The snapshot is well-formed and unflagged. |
| Snapshot.PayloadPeople | custom_components/immich_album_watcher/coordinator.py:189-197 | A name is in the album's people iff some asset of the payload lists it and it is non-empty. |
| Snapshot.CarryForward | custom_components/immich_album_watcher/coordinator.py:606-612 | A previous snapshot that is flagged and timed forces the flag on and imposes its older change time. In every other case the snapshot is unchanged. |
| Snapshot.ClearFlag | custom_components/immich_album_watcher/coordinator.py:800-804 | The flag and change time are cleared. Every other field is unchanged. |
| Api.UsersFromApi | custom_components/immich_album_watcher/coordinator.py:383-388 | The cache's keys are exactly the non-empty user ids. Each maps to the display name (name, else email, else "Unknown") of its last entry. |
| Api.RefreshUsers | custom_components/immich_album_watcher/coordinator.py:521-523 | Users are fetched only while the cache is empty. A failed fetch leaves the cache as it was. |
| SharedLinks.LinkFromApi | custom_components/immich_album_watcher/coordinator.py:84-105 | `has_password` holds iff the password is non-empty. The password is kept only then. The id, key and expiry are copied. |
| SharedLinks.AccessibleLinks | custom_components/immich_album_watcher/coordinator.py:426-428 | The result holds exactly the links without a password that have not expired, all taken from the input. |
| SharedLinks.ProtectedLinks | custom_components/immich_album_watcher/coordinator.py:430-432 | The result holds exactly the password-protected links that have not expired. |
| SharedLinks.NonExpiredLinks | immich_album_watcher/coordinator.py:390-393 | The result holds exactly the links that have not expired. |
| SharedLinks.PreferredLink | immich_album_watcher/coordinator.py:407-417 | The result is the first accessible link if there is one, otherwise the first non-expired link. It is absent iff every link has expired. |
| SharedLinks.PublicUrl | custom_components/immich_album_watcher/coordinator.py:434-439 | The result is the share URL of the first accessible link. It is absent iff no link is accessible. |
| SharedLinks.AnyUrl | custom_components/immich_album_watcher/coordinator.py:441-449 | The result is the share URL of the preferred link. It is absent iff every link has expired. |
| SharedLinks.FirstProtected | immich_album_watcher/coordinator.py:395-398 | The result is the first protected link. It is absent iff none is protected. |
| SharedLinks.ProtectedUrl | custom_components/immich_album_watcher/coordinator.py:451-456 | The result is the share URL of the first protected link, or absent when there is none. |
| SharedLinks.ProtectedPassword | custom_components/immich_album_watcher/coordinator.py:462-467 | The result is the first protected link's password, and only when that password is non-empty. |
| SharedLinks.ProtectedLinkId | custom_components/immich_album_watcher/coordinator.py:759-764 | The result is the id of the first protected link, or absent when there is none. |
| SharedLinks.UnprotectedLinkId | custom_components/immich_album_watcher/coordinator.py:814-819 | The result is the id of the first accessible link. It is absent iff no link is accessible. |
| SharedLinks.HasUnprotectedLink | custom_components/immich_album_watcher/coordinator.py:806-808 | The result is true iff some link is accessible. |
| SharedLinks.HasProtectedLink | custom_components/immich_album_watcher/coordinator.py:810-812 | The result is true iff some link is protected. |
| SharedLinks.PublicUrls | custom_components/immich_album_watcher/coordinator.py:469-471 | The i-th URL is the share URL of the i-th accessible link, so there is one per accessible link, in order. The first one is the public URL. |
| SharedLinks.ProtectedUrls | custom_components/immich_album_watcher/coordinator.py:458-460 | The i-th URL is the share URL of the i-th protected link, so there is one per protected link, in order. The first one is the protected URL. |
| SharedLinks.AssetPublicUrl | custom_components/immich_album_watcher/coordinator.py:486-494 | The result is the album's preferred share URL followed by `/photos/<id>`. It is absent exactly when the album URL is. |
| SharedLinks.AssetDownloadUrl | custom_components/immich_album_watcher/coordinator.py:496-504 | The result is the original-file URL keyed by the preferred link. It is absent iff every link has expired. |
| SharedLinks.AssetVideoUrl | custom_components/immich_album_watcher/coordinator.py:506-514 | The result is the playback URL keyed by the preferred link. It is absent iff every link has expired. |
| SharedLinks.LinksInfo | custom_components/immich_album_watcher/coordinator.py:473-484 | Entry i describes link i: its share URL, whether it has a password, its expiry, `is_expired` iff it has an expiry earlier than now, and `is_accessible` iff it has no password and has not expired. |
| SharedLinks.LinksInfoAgreesWithUrls | custom_components/immich_album_watcher/coordinator.py:458-484 | For every link list, the URLs of the info rows flagged accessible are exactly the public URLs, in order. The URLs of the rows that have a password and have not expired are exactly the protected URLs. |
| SharedLinks.AlbumLinks | custom_components/immich_album_watcher/coordinator.py:395-424 | A failed request leaves no links, because the list was emptied first. A 200 keeps the links of this album that have a key. |
| SharedLinks.LinksOf | custom_components/immich_album_watcher/coordinator.py:410-415 | Every result link is parsed from a payload link of the album, and every payload link of the album that has a key is in the result. The result is never longer than the payload. |
| SharedLinks.LinksOfAppend | custom_components/immich_album_watcher/coordinator.py:410-415 | Filtering a payload made of two parts gives the two parts' links, in order. |
| SharedLinks.GroupByAlbum | immich_album_watcher/coordinator.py:353-372 | The cache's keys are exactly the album ids of links that have a key and a non-empty album id. |
| SharedLinks.GroupedLinksAreAlbumLinks | immich_album_watcher/coordinator.py:354-372 | For every non-empty album id, the multi-album grouping yields the same links, in the same order, as the per-album filter. |
| SharedLinks.RefreshCache | immich_album_watcher/coordinator.py:345-383 | A failed request keeps the old cache. A 200 replaces it, and every album's links become that album's links from the response. |
| Diff.Classify | custom_components/immich_album_watcher/coordinator.py:639-652 | There is no change iff nothing differs. A specific kind is chosen iff its signal is the only one. The kind is "changed" iff two or more signals differ. |
| Diff.AddedAssets | custom_components/immich_album_watcher/coordinator.py:654-656 | The added records are exactly the new snapshot's records for the added ids it has. |
| Diff.DetectIdsChange | immich_album_watcher/coordinator.py:533-562 | There is no change iff the id sets are equal. Otherwise the counts, removed ids and added records are those of the set differences, with no name or sharing fields. |
| Diff.DetectChange | custom_components/immich_album_watcher/coordinator.py:628-670 | There is no change iff the ids, name and shared flag are all equal. The counts and sets are those of the differences. The old and new name (and shared flag) are present iff that field changed. |
| Diff.KindMatchesReport | custom_components/immich_album_watcher/coordinator.py:643-652 | A detected change's `change_type` is the classification of what it reports. It is "changed" iff two or more things differ. |
| Diff.ChangeReplays | custom_components/immich_album_watcher/coordinator.py:632-633 | Removing the removed ids from the old set and adding the added ones gives the new set. The added ids were not in the old set. |
| Diff.IdsChangeAgrees | immich_album_watcher/coordinator.py:537-547 | With name and sharing unchanged, the per-album comparison equals the ids-only comparison. |
| Diff.OnlyRemovalIsAssetsRemoved | custom_components/immich_album_watcher/coordinator.py:651-652 | Removing assets and nothing else is `assets_removed`, with the removed ids and nothing added. |
| Diff.OnlyRenameIsAlbumRenamed | custom_components/immich_album_watcher/coordinator.py:645-646 | Renaming and nothing else is `album_renamed`, carrying both names and no asset changes. |
| Events.AlbumAssetDetail | custom_components/immich_album_watcher/coordinator.py:674-698 | The per-album asset entry carries the asset's id, type, filename, creation time, owner, description and people, plus its favourite flag and rating. Its public and download URLs come from the links. It has a playback URL iff it is a video and a usable link exists. |
| Events.HubAssetDetail | immich_album_watcher/coordinator.py:567-583 | The multi-album asset entry carries the asset's id, type, filename, creation time, owner, description and people. It has only the public URL: no extras, no download URL, no playback URL. |
| Events.FanOutMembers | custom_components/immich_album_watcher/coordinator.py:726-757 | `album_changed` comes first. `assets_added` and `assets_removed` each fire iff their part of the change happened. `album_renamed` and `album_sharing_changed` fire iff the variant reports metadata (per-album only) and that part changed. `album_deleted` never fires here. |
| Events.FanOutOrdered | custom_components/immich_album_watcher/coordinator.py:735-750 | The fired events come in the fixed order changed, added, removed, renamed, sharing, with no repeats. |
| Events.AlbumChangePayload | custom_components/immich_album_watcher/coordinator.py:700-724 | The event data carries the hub, album, type, counts, added entries, removed ids, people and shared flag. Name and sharing fields appear only when changed. The album URL is the preferred one. |
| Events.HubChangePayload | immich_album_watcher/coordinator.py:585-599 | The multi-album event data has no hub name, no shared flag and no metadata-change fields. |
| Events.AlbumFireEvents | custom_components/immich_album_watcher/coordinator.py:672-757 | The per-album events, all with the same data. `album_changed` comes first. Each specific event fires iff its condition holds. The order is strictly increasing. |
| Events.HubFireEvents | immich_album_watcher/coordinator.py:564-616 | The multi-album events fire: `album_changed`, then `assets_added` iff something was added, then `assets_removed` iff something was removed. No other event fires. |
| Events.DeletionEvents | custom_components/immich_album_watcher/coordinator.py:535-545 | `album_deleted` fires, with the previous snapshot's name, iff there is a previous snapshot. |
| Events.RenameFiresTwoEvents | custom_components/immich_album_watcher/coordinator.py:742-748 | A pure rename fires exactly `album_changed` then `album_renamed`, with both names and type `album_renamed`. |
| Storage.Load | custom_components/immich_album_watcher/storage.py:28-32 | Memory becomes the disk contents, or an empty album map when nothing is stored. |
| Storage.Get | custom_components/immich_album_watcher/storage.py:45-54 | The result is an album's stored ids, or absent when the album has no entry or nothing is loaded. |
| Storage.Save | custom_components/immich_album_watcher/storage.py:34-43 | Afterwards the album reads back the saved ids, every other album is unchanged, and the disk equals memory. |
| Storage.Remove | custom_components/immich_album_watcher/storage.py:56-60 | The album no longer reads back and other albums are unchanged. Nothing happens when nothing is loaded. |
| Storage.RemoveAll | custom_components/immich_album_watcher/storage.py:62-65 | No album reads back, now or after a restart. |
| Storage.SavedIdsSurviveRestart | custom_components/immich_album_watcher/storage.py:34-43 | Saved ids are read back after a restart, and other albums are as they were. |
| Storage.RemovedStaysRemoved | custom_components/immich_album_watcher/storage.py:56-60 | A removed album stays removed after a restart. |
| Storage.RestartPreservesReadings | custom_components/immich_album_watcher/storage.py:28-32 | When disk and memory agree, a restart changes no reading. |
| NewAssets.Reading | custom_components/immich_album_watcher/binary_sensor.py:92-109 | The reading is unknown iff there is no snapshot. It is on iff flagged and either untimed or within 300 s of the change. |
| NewAssets.WindowBoundary | custom_components/immich_album_watcher/binary_sensor.py:101-107 | Exactly 300 s after the change the sensor is still on. One microsecond later it is off and the window has elapsed. |
| NewAssets.ClearedReadsOff | custom_components/immich_album_watcher/binary_sensor.py:148-151 | After clearing, the sensor reads off at any time. |
| Api.StripTrailingSlashes | custom_components/immich_album_watcher/coordinator.py:258 | The result is a prefix of the URL, it does not end in `/`, and only `/` characters were removed. Both coordinators keep their server URL this way. |
| Api.StripIsIdempotent | immich_album_watcher/config_flow.py:97 | Stripping a URL twice gives the same URL as stripping it once. So the stored, already-stripped URL reaches the coordinators unchanged. |
| AlbumWatch.Init | custom_components/immich_album_watcher/coordinator.py:240-268 | A new coordinator has no data, no previous snapshot, no persisted ids, empty caches and a stripped URL. |
| AlbumWatch.LoadPersisted | custom_components/immich_album_watcher/coordinator.py:299-314 | With storage, the persisted ids become the stored ones (possibly none). Without storage nothing changes. |
| Diff.Stamp | custom_components/immich_album_watcher/coordinator.py:556-560 | A change flags the snapshot iff something was added, and stamps it with the poll time. |
| AlbumWatch.Detect | custom_components/immich_album_watcher/coordinator.py:555-604 | Comparison is against the previous snapshot when there is one. Otherwise it is against the persisted ids, once, dropping them afterwards. Otherwise nothing fires. When a change is found, the events are the change's event list and the snapshot is stamped with the poll time, flagged iff assets were added. Events fire iff there is a difference. |
| AlbumWatch.Poll | custom_components/immich_album_watcher/coordinator.py:516-626 | Caches are refreshed first. A 404 empties `data` and keeps the previous snapshot and the persisted ids. It fires `album_deleted` when there was a previous snapshot. A failure keeps `data`. A 200 fires the detected change's events and makes the carried-forward detected snapshot both `data` and previous, and saves its ids. |
| AlbumWatch.ClearNewAssetsFlag | custom_components/immich_album_watcher/coordinator.py:800-804 | The snapshot's flag is cleared, and the previous snapshot (the same object) with it. Nothing else changes. |
| AlbumWatch.Available | custom_components/immich_album_watcher/binary_sensor.py:111-114 | The sensor is available iff the last poll succeeded and there is a snapshot. |
| AlbumWatch.IsOn | custom_components/immich_album_watcher/binary_sensor.py:92-109 | It returns the window reading. A reading past the window clears the flag. Every other reading changes nothing. |
| AlbumWatch.TurnOff | custom_components/immich_album_watcher/binary_sensor.py:148-151 | Turning off clears the flag and sets the change time to None on the snapshot, seen through both `data` and previous; nothing else changes. The sensor then reads off at every time. Without a snapshot nothing changes. |
| AlbumWatch.StepsPreserveInvariants | custom_components/immich_album_watcher/coordinator.py:614-615 | Polling, clearing, reading and loading keep `data` and previous aliased, and keep every flagged snapshot timed. |
| AlbumWatch.DowntimeComparedOnce | custom_components/immich_album_watcher/coordinator.py:601-602 | After a successful poll without a previous snapshot, the persisted ids are gone. A second poll never compares against them. |
| AlbumWatch.DowntimeChangesReported | custom_components/immich_album_watcher/coordinator.py:562-597 | The first poll after a restart fires iff the ids differ from the persisted ones. It reports exactly the added and removed ids, stamps the poll time, and drops the persisted ids. |
| AlbumWatch.CarryForwardKeepsOldChangeTime | custom_components/immich_album_watcher/coordinator.py:606-612 | While the previous snapshot is flagged, a poll keeps the old change time instead of the new one. |
| AlbumWatch.NotFoundKeepsPrevious | custom_components/immich_album_watcher/coordinator.py:535-546 | A 404 fires `album_deleted` with the previous name and keeps the previous snapshot, so a second 404 fires it again. |
| AlbumWatch.FirstPollIsQuiet | custom_components/immich_album_watcher/coordinator.py:603-604 | A first poll with nothing to compare against fires nothing, and the sensor reads off. |
| AlbumWatch.AddedAssetsOpenWindow | custom_components/immich_album_watcher/coordinator.py:555-561 | After a poll that sees a new asset (no earlier flag), the sensor reads on up to 300 s later. The first reading after that is off and clears the flag. |
| AlbumWatch.AddedAssetsFlagged | custom_components/immich_album_watcher/coordinator.py:556-560 | A poll that sees an asset the previous snapshot lacked flags the snapshot with the poll time. |
| AlbumWatch.FlaggedWindow | custom_components/immich_album_watcher/binary_sensor.py:101-109 | A snapshot flagged at `t` reads on until `t` + 300 s. After that it reads off and the flag is cleared. |
| HubWatch.Init | immich_album_watcher/coordinator.py:212-235 | A new hub keeps the album ids, and its server URL is the given URL stripped of trailing `/`. It has no data, no previous snapshots and empty caches. |
| HubWatch.ProcessAlbum | immich_album_watcher/coordinator.py:498-523 | An album with no previous snapshot fires nothing and is unflagged. An album with one fires iff its ids changed. A change's events are those of the change with the album's links, and the stored snapshot is the stamped one carried forward. Without an earlier flag, the album is flagged iff some asset id is new. |
| HubWatch.RunCycle | immich_album_watcher/coordinator.py:484-526 | The loop aborts iff some album answers with another status or a transport error. Otherwise it keeps exactly the albums that answered 200. The snapshots kept and the events fired are stated by HubWatch.CycleAlbums and HubWatch.CycleEvents. |
| HubWatch.CycleEvents | immich_album_watcher/coordinator.py:484-526 | Whether the loop completes or aborts, its events are those of the albums that answered 200 before the first failing answer, each album's events in request order. |
| HubWatch.CycleAlbums | immich_album_watcher/coordinator.py:498-522 | A completed loop maps each album to the snapshot processed from its last 200 answer; a later request for the same id overwrites an earlier one. |
| HubWatch.Poll | immich_album_watcher/coordinator.py:469-531 | Caches are refreshed first and the fired events are the loop's. An abort fails the poll and changes neither `data` nor previous. A completed loop's albums become both `data` and previous. |
| HubWatch.ClearNewAssetsFlag | immich_album_watcher/coordinator.py:669-673 | Only that album's snapshot is cleared, in `data` and in previous alike. A missing album changes nothing. |
| HubWatch.AlbumSnapshot | immich_album_watcher/binary_sensor.py:71-76 | The result is the album's snapshot, or absent when there is no data or the album is missing. |
| HubWatch.IsOn | immich_album_watcher/binary_sensor.py:85-102 | It returns the album's window reading. A reading past the window clears only that album. |
| HubWatch.Available | immich_album_watcher/binary_sensor.py:104-107 | The sensor is available iff the last poll succeeded and the album has a snapshot. |
| HubWatch.StepsPreserveAliasing | immich_album_watcher/coordinator.py:528-529 | Polling, clearing and reading keep previous equal to `data`. |
| HubWatch.ClearIsPerAlbum | immich_album_watcher/coordinator.py:669-673 | Clearing one album changes no other album's snapshot or reading. |
| HubWatch.NotFoundForgetsAlbum | immich_album_watcher/coordinator.py:490-492 | A 404 drops the album from previous. When it returns, it is compared against nothing: no events, no flag. |
| HubWatch.EventsOnlyGrow | immich_album_watcher/coordinator.py:484-526 | The events of a prefix of the album list are a prefix of the events of the whole loop. |
| HubWatch.AbortKeepsEarlierEvents | immich_album_watcher/coordinator.py:493-496 | When a changed first album is followed by a failing one, its events are already fired. The poll still fails and keeps previous. |
| Recent.SortNewestFirst | custom_components/immich_album_watcher/coordinator.py:322-326 | The sort is a permutation of its input. |
| Recent.SortIsSorted | custom_components/immich_album_watcher/coordinator.py:322-326 | The sorted list is newest first by `created_at` string order. |
| Recent.SortIsStable | custom_components/immich_album_watcher/coordinator.py:322-326 | Assets with equal `created_at` keep their dict order, as Python's stable `sorted(reverse=True)` does. |
| Recent.SliceLength | custom_components/immich_album_watcher/coordinator.py:326 | `[:count]` keeps `min(count, n)` items, or all but the last `-count` when `count` is negative. |
| Recent.RecentAssets | custom_components/immich_album_watcher/coordinator.py:321-326 | The result has the slice's length, comes from the album without duplication, and is newest first. |
| Recent.RecentIsNewest | custom_components/immich_album_watcher/coordinator.py:321-326 | The result is a prefix of the sorted list. Nothing left out is newer than anything returned. |
| Recent.AlbumRecentEntries | custom_components/immich_album_watcher/coordinator.py:316-346 | There is one entry per recent asset, newest first. Each carries the asset's id, type, file name, description, people, favourite flag and rating, and its thumbnail URL. A video gets a playback URL iff a usable link exists. Without a snapshot the result is empty. |
| Recent.HubRecentEntries | immich_album_watcher/coordinator.py:264-290 | There is one entry per recent asset, newest first. Each carries the asset's id, type, file name, description and people, and its thumbnail URL, with no extras or video URL. A missing album gives an empty result. |
| TelegramSend.CaptionField | custom_components/immich_album_watcher/sensor.py:551-552 | The caption is attached iff it is non-empty. |
| TelegramSend.ReplyField | custom_components/immich_album_watcher/sensor.py:554-555 | The reply id is attached iff it is present and non-zero. |
| TelegramSend.PhotoLimitExceeded | custom_components/immich_album_watcher/sensor.py:439-480 | A photo is within limits iff it is at most 10 MB and, when its dimensions are known, width + height ≤ 10000. Size is checked first. |
| TelegramSend.ReadReply | custom_components/immich_album_watcher/sensor.py:564-581 | An accepted reply is success. A refusal carries the code and the description (default "Unknown Telegram error"). A transport error is a send error. |
| TelegramSend.SendText | custom_components/immich_album_watcher/sensor.py:337-383 | A single `sendMessage` is made, with the caption or the default text, and the reply id when truthy. The response is the bot's reply to it: sent with its message id, or the Telegram error, or a send error. |
| TelegramSend.DownloadFailure | custom_components/immich_album_watcher/sensor.py:505-511 | A download fails iff it returned no body. A non-200 status or a transport error is reported as such. |
| TelegramSend.SendPhotoItem | custom_components/immich_album_watcher/sensor.py:483-584 | Missing URL, failed download and over-limit data fail without a call. Otherwise: a photo within Telegram's limits is sent as `sendPhoto`. A photo over the limits is sent as `sendDocument`, with the same caption and reply, when documents are allowed. Otherwise it fails as skipped without a call. A `sendPhoto` is only ever made for a photo within the limits. The response is the bot's reply to the one call, and a sent message's id is the id of that call. |
| TelegramSend.LargePhotoNeverSentAsPhoto | custom_components/immich_album_watcher/sensor.py:527-543 | A photo over Telegram's limits never reaches `sendPhoto`. It reaches the bot iff it is sendable and documents are allowed. Otherwise a sendable one fails as skipped. |
| TelegramSend.SendVideoItem | custom_components/immich_album_watcher/sensor.py:586-667 | Missing URL, failed download and over-limit data fail without a call. Otherwise exactly one `sendVideo` call is made, with caption and reply. A sent message's id is the id of that call. |
| TelegramSend.SmallPhotoGoesAsPhoto | custom_components/immich_album_watcher/sensor.py:527-558 | A photo within every limit is sent with `sendPhoto`, never as a document. |
| TelegramRelay.Token | custom_components/immich_album_watcher/sensor.py:302-308 | The call's token wins. The configured one is used otherwise. There is no token iff both are empty. |
| TelegramRelay.Chunks | custom_components/immich_album_watcher/sensor.py:752 | Every chunk holds 1 to `size` items, and all but the last hold exactly `size`. There are no chunks iff there are no items. |
| TelegramRelay.ChunksFlatten | custom_components/immich_album_watcher/sensor.py:752 | Concatenating the chunks gives back the list. |
| TelegramRelay.ChunksCount | custom_components/immich_album_watcher/sensor.py:752 | The number of chunks is `ceil(len / size)`. |
| TelegramRelay.ChunkAt | custom_components/immich_album_watcher/sensor.py:752 | Chunk `k` is the slice from `k * size` to `(k + 1) * size`, capped at the list's end. |
| TelegramRelay.ScanItem | custom_components/immich_album_watcher/sensor.py:802-857 | An item aborts the relay iff it has no URL, a type other than photo or video, or a failed download, and the abort reports AbortFailure. Otherwise it is kept, diverted as a document (carrying the caption only as the first chunk's first item), or skipped. |
| TelegramRelay.ScanChunk | custom_components/immich_album_watcher/sensor.py:802-862 | The scan aborts iff some item aborts. Otherwise every item is kept, diverted or skipped. |
| TelegramRelay.AbortFailure | custom_components/immich_album_watcher/sensor.py:806-825 | The first abort reports a missing URL, then an invalid type (naming it), then the download failure, in that priority. |
| TelegramRelay.ScanStopsAtFirstAbort | custom_components/immich_album_watcher/sensor.py:802-862 | An aborted scan reports the first aborting item, and every item before it passed. |
| TelegramRelay.ScanKeptSound | custom_components/immich_album_watcher/sensor.py:838-857 | Every item in the media group passes every check, keeps its type, and comes in chunk order. |
| TelegramRelay.ScanKeptComplete | custom_components/immich_album_watcher/sensor.py:855-857 | Every item that passes every check is in the media group. |
| TelegramRelay.ScanDivertedSound | custom_components/immich_album_watcher/sensor.py:839-848 | Every document is an oversized photo of the chunk. |
| TelegramRelay.ScanDivertedComplete | custom_components/immich_album_watcher/sensor.py:839-848 | Every oversized photo becomes a document when documents are allowed. |
| TelegramRelay.ScanDivertedCaption | custom_components/immich_album_watcher/sensor.py:844-846 | Only the first document, and only when it is the first chunk's item 0, carries the caption. |
| TelegramRelay.ScanDiverted | custom_components/immich_album_watcher/sensor.py:839-848 | Documents are exactly the oversized photos, and only the first chunk's first item can carry the caption. |
| TelegramRelay.Members | custom_components/immich_album_watcher/sensor.py:880-892 | The media JSON lists every kept item in order, with its kind. The caption appears only on the first. |
| TelegramRelay.SendDocuments | custom_components/immich_album_watcher/sensor.py:948-959 | There is one `sendDocument` per diverted photo, in order and without a reply. A refused document is passed over. The ids collected are exactly those of the accepted documents, in order. |
| TelegramRelay.SingleChunk | custom_components/immich_album_watcher/sensor.py:766-786 | Chunk 0's call carries the service call's caption and reply; later chunks carry neither. It sends its own item only, as a video exactly when the item is not a photo. The response is the bot's reply to the call, and a sent id is that call's id. |
| TelegramRelay.SingleChunkSends | custom_components/immich_album_watcher/sensor.py:766-786 | A photo goes through the photo send and any other type through the video send, with the first chunk's caption and reply. No call is made exactly when that send fails before calling, and an item that cannot reach the bot is never sent. |
| TelegramRelay.GroupChunk | custom_components/immich_album_watcher/sensor.py:795-959 | A multi-item chunk stops the relay only with a failure. When it goes on, its ids are exactly those of its accepted calls. |
| TelegramRelay.GroupRequest | custom_components/immich_album_watcher/sensor.py:870-897 | The media group names each kept item at its list position. On the first chunk it replies to the caller's id when truthy; later chunks reply to nothing. |
| TelegramRelay.GroupSend | custom_components/immich_album_watcher/sensor.py:870-959 | The group is sent first when something was kept. It succeeds iff the bot accepts it; a refusal stops the relay at this chunk with the Telegram error, or a send error on a transport failure, and `failed_at_chunk` this chunk. The documents follow only if the group succeeded, and the ids are the group's ids followed by the accepted documents' ids. With nothing kept, only documents are sent. The ids are always those of the accepted calls. |
| TelegramRelay.ChunkCalls | custom_components/immich_album_watcher/sensor.py:772-778 | After its pause a chunk makes only bot calls. Only the first chunk's calls reply to a message. |
| TelegramRelay.GroupChunkItems | custom_components/immich_album_watcher/sensor.py:802-857 | A media-group chunk sends only its own items, and only those that downloaded within the data limit. |
| TelegramRelay.ScanAllOver | custom_components/immich_album_watcher/sensor.py:829-836 | A chunk whose items are all over the data limit keeps and diverts nothing. |
| TelegramRelay.GroupChunkAllSkipped | custom_components/immich_album_watcher/sensor.py:864-868 | Such a chunk sends nothing and does not stop the relay. |
| TelegramRelay.ChunkRun | custom_components/immich_album_watcher/sensor.py:758-793 | Any stop is a failure. |
| TelegramRelay.ChunkRunSingle | custom_components/immich_album_watcher/sensor.py:783-790 | A one-item chunk stops the relay iff its send fails, a skip included, and the stop reports that failure at this chunk. |
| TelegramRelay.ChunkRunIds | custom_components/immich_album_watcher/sensor.py:783-792 | A one-item chunk that goes on adds its send's id. Any chunk that goes on adds exactly the ids of its accepted calls. |
| TelegramRelay.ChunkAllSkipped | custom_components/immich_album_watcher/sensor.py:758-868 | A skipped multi-item chunk contributes only its pause. |
| TelegramRelay.ChunkSendsOwnItems | custom_components/immich_album_watcher/sensor.py:766-862 | A chunk sends only its own items, and only ones with a URL and a download within the data limit. |
| TelegramRelay.GroupProgress | custom_components/immich_album_watcher/sensor.py:758-946 | A stopped relay has always failed, and any chunk its failure names is one already processed. Where it stops is stated by TelegramRelay.ProgressGoing and TelegramRelay.ProgressStopsAt. |
| TelegramRelay.ProgressGoing | custom_components/immich_album_watcher/sensor.py:758-946 | After the first `k` chunks the relay is still going exactly when none of them stopped it. |
| TelegramRelay.ProgressStopsAt | custom_components/immich_album_watcher/sensor.py:787-793 | When chunk `j` is the first to stop, the relay is going before it and ends with that chunk's failure; its trace is the earlier chunks' calls followed by that chunk's, and no later call is made. |
| TelegramRelay.ProgressIds | custom_components/immich_album_watcher/sensor.py:753-963 | While the relay goes on, the ids it has collected are exactly the ids of the accepted calls in its trace, in call order: a media group contributes all its ids, a single send or document its one id. |
| TelegramRelay.GroupRelay | custom_components/immich_album_watcher/sensor.py:961-965 | Success reports every chunk as sent, skipped chunks included. Its `message_ids` are exactly the ids of the accepted calls in its trace, in call order. Where it stops is stated by TelegramRelay.RelayStopsAtFirstFailure and TelegramRelay.RelayFailsAtFirstStop. |
| TelegramRelay.RelayStopsAtFirstFailure | custom_components/immich_album_watcher/sensor.py:758-965 | The relay reports success exactly when no chunk stops it. |
| TelegramRelay.RelayFailsAtFirstStop | custom_components/immich_album_watcher/sensor.py:899-917 | When chunk `j` is the first to stop, the relay answers with that chunk's failure, having made the calls of the chunks before it and of that chunk, and no later call. |
| TelegramRelay.RelayWith | custom_components/immich_album_watcher/sensor.py:282-335 | With no token, nothing is called. No items means a text message. One photo (or untyped item) goes as a single photo, and one video as a single video. Anything else goes as media groups. |
| TelegramRelay.ProgressSendsOnlySendable | custom_components/immich_album_watcher/sensor.py:758-959 | The first `k` chunks of the list together send only items of the list that can reach the bot. |
| TelegramRelay.RelaySendsOnlySendable | custom_components/immich_album_watcher/sensor.py:282-335 | Whatever the bot answers, the relay never hands it an item without a URL, with a failed download, or over `max_asset_data_size`. |
| TelegramRelay.SkippedLastItemFailsRelay | custom_components/immich_album_watcher/sensor.py:788-790 | A one-item last chunk over the data limit fails the whole relay at that chunk, after the earlier chunks were sent. |
| TelegramRelay.LastSingleChunkFails | custom_components/immich_album_watcher/sensor.py:783-790 | A going relay whose last chunk is one item over the data limit stops with that failure at the last chunk, its trace extended only by the pause. |
| TelegramRelay.SkippedLastGroupStillSucceeds | custom_components/immich_album_watcher/sensor.py:864-868 | A multi-item last chunk, all over the data limit, is passed over. When the relay is still going on reaching it, the relay succeeds, counts that chunk as sent, and adds only its pause. |
| TelegramRelay.OneChunkRelay | custom_components/immich_album_watcher/sensor.py:752-767 | Between two and `max_group_size` items make one chunk with no pause. The relay's calls are exactly that chunk's calls. When the chunk does not stop the relay, the relay succeeds with one chunk sent. |
| TelegramRelay.UnknownTypeSentAsVideo | custom_components/immich_album_watcher/sensor.py:782-786 | A single item of unknown type goes to the group path, and from there out as a video. |
| TelegramRelay.UnknownTypeInGroupFails | custom_components/immich_album_watcher/sensor.py:812-816 | The same item leading a multi-item chunk fails the relay before any call. |
| TelegramRelay.NullTypeSentAsVideo | custom_components/immich_album_watcher/sensor.py:319-332 | A lone item whose `type` is JSON `null` fails both single-item tests, goes to the media-group path and is sent as a video. |
| TelegramRelay.NullTypeInGroupFails | custom_components/immich_album_watcher/sensor.py:810-816 | Leading a multi-item chunk, such an item fails the relay with "Invalid type 'None'" before any call. |
| TelegramRelay.GroupSendCaptions | custom_components/immich_album_watcher/sensor.py:888-891 | A delivered group chunk carries the caption on the group iff the caption rule allows it, plus once on the first document when that photo had it. |
| TelegramRelay.CaptionSentOnce | custom_components/immich_album_watcher/sensor.py:888-891 | Under the intended rule, a delivered first media-group chunk carries a non-empty caption in exactly one request. |
| TelegramRelay.CaptionLostAsWritten | custom_components/immich_album_watcher/sensor.py:888-891 | As written, item 0 kept plus a later diverted photo means no request carries the caption. |
| TelegramRelay.CaptionKeptIntended | custom_components/immich_album_watcher/sensor.py:888-891 | Under the intended rule the same chunk's media group carries the caption on its first member, exactly once. |
| TelegramRelay.CaptionLostExample | custom_components/immich_album_watcher/sensor.py:845-891 | For a small photo plus a photo over 10 MB, with caption "hi" and an accepting bot: "hi" is never sent as written, and sent once under the intended rule. |

## Left out

- HTTP, JSON decoding, sessions and headers: the server's and the bot's answers are inputs. Error
  strings are reduced to their kind.
- Logging, `_log_telegram_error`, and the people fetch (`async_fetch_people`): they change no
  modelled state.
- Shared-link creation, deletion and password changes (`async_create_shared_link`,
  `async_delete_shared_link`, `async_set_shared_link_password`): they are server calls followed by
  a link refresh, which is modelled.
- Image decoding with PIL: a photo's dimensions are an input, absent when PIL cannot read them.
- `parse_mode`, `disable_web_page_preview`, `chat_id`, file names and multipart form layout: they
  do not change which requests are sent or what they carry.
- The Telegram file cache is not part of this model.
- Entity glue, scheduling and `update_interval`, the sensor entities other than the new-assets
  binary sensor, and the button, camera and text platforms.
- A JSON `null` asset `type` in the Immich payload (which Python compares as `None`) is not
  distinguished from a missing key. This concerns the asset parser only. The Telegram relay's
  `urls` items tell a missing `type` (read as "photo"), a `null` (Python's `None`, which is
  neither "photo" nor "video") and a string apart.
- The `added_assets` and `removed_asset_ids` lists are built by iterating a Python set, so their
  order is unspecified. The model keys them as a map and a set.
- Timestamps are plain integers. One poll uses one clock reading for every `datetime.now()` it
  makes.
- TelegramRelay.RelayWith: `max_group_size` is required to be at least 1. The service schema
  restricts it to 2..10, and `range` with step 0 would raise.
- TelegramRelay.GroupChunk: its own contract only says that a stop is a failure and that the ids
  are those of the accepted calls. The group request, the documents and the captions are stated
  by TelegramRelay.GroupSend, TelegramRelay.GroupChunkItems and the caption lemmas.
- TelegramRelay.ChunkRun: its own contract only says that a stop is a failure. The one-item case
  and the ids are stated by TelegramRelay.ChunkRunSingle and TelegramRelay.ChunkRunIds, kept apart
  so that the proofs that unfold the relay chunk by chunk stay small.
- TelegramRelay.GroupProgress: the ids it collects and where it stops are stated by
  TelegramRelay.ProgressIds, TelegramRelay.ProgressGoing and TelegramRelay.ProgressStopsAt, for the
  same reason.
- TelegramRelay.SingleChunk: which send decides a one-item chunk, and when no call is made, are
  stated by TelegramRelay.SingleChunkSends, for the same reason.
- HubWatch.RunCycle: the kept snapshots and the fired events are stated by HubWatch.CycleAlbums
  and HubWatch.CycleEvents, which unfold the loop album by album.
- The Telegram bot is a deterministic function of the request. A bot that answers the same
  request differently at different times is not modelled.

## Findings

| source | as written | input that shows it | evidently intended | confidence | as-written member | corrected member |
|---|---|---|---|---|---|---|
| custom_components/immich_album_watcher/sensor.py:888-891 | The media group's first item gets the caption only when the chunk diverted no oversized photo at all (`not oversized_photos`). A diverted photo gets the caption only when it is the chunk's item 0 (line 845). | First chunk `[small photo, photo over 10 MB]`, caption "hi", `send_large_photos_as_documents` on. Item 0 goes into the group and item 1 becomes a document without a caption, so "hi" is never sent. | Drop the group's caption only when a diverted photo already carries it, as the comment on line 888 says. | not executed; high | TelegramRelay.CaptionLostAsWritten | TelegramRelay.CaptionKeptIntended |

=== FILE: album_watch.dfy ===
/**
 * The per-album coordinator (`ImmichAlbumWatcherCoordinator` in `custom_components`): one poll
 * of one album, the downtime comparison against persisted ids, the new-assets flag and the
 * binary sensor reading it. A poll is a pure step from the coordinator's state and the server's
 * answers to the next state, the storage's next state and the events put on the bus.
 */
module AlbumWatch {
  import opened Wrappers
  import opened Snapshot
  import opened Api
  import opened SharedLinks
  import opened Diff
  import opened Events
  import opened Storage
  import opened NewAssets

  /**
   * The coordinator's state. `data` is the Home Assistant coordinator's `data`; `previous` is
   * `_previous_state`. After a successful poll both name the same Python object, which
   * `Aliased` captures and every step below preserves.
   */
  datatype Coordinator = Coordinator(
    hubName: string,
    albumId: string,
    baseUrl: string,
    hasStorage: bool,
    users: map<string, string>,
    links: seq<SharedLink>,
    data: Option<AlbumData>,
    lastUpdateSuccess: bool,
    previous: Option<AlbumData>,
    persisted: Option<set<AssetId>>)

  /** The constructor: nothing fetched, nothing remembered. */
  function Init(hubName: string, albumId: string, url: string, hasStorage: bool): (c: Coordinator)
    ensures c.data.None? && c.previous.None? && c.persisted.None?
    ensures c.users == map[] && c.links == []
    ensures c.baseUrl == StripTrailingSlashes(url)
    ensures Aliased(c) && FlagHasTime(c)
  {
    Coordinator(hubName, albumId, StripTrailingSlashes(url), hasStorage, map[], [], None, true, None, None)
  }

  /** `data` and `previous` are one object whenever `data` is set. */
  predicate Aliased(c: Coordinator) {
    c.data.Some? ==> c.previous == c.data
  }

  /** A snapshot flagged as having new assets always carries its change time. */
  predicate TimedFlag(a: AlbumData) {
    a.hasNewAssets ==> a.lastChangeTime.Some?
  }

  predicate FlagHasTime(c: Coordinator) {
    && (c.data.Some? ==> TimedFlag(c.data.value))
    && (c.previous.Some? ==> TimedFlag(c.previous.value))
  }

  /** `async_load_persisted_state`: the stored ids of this album, when the coordinator has storage. */
  function LoadPersisted(c: Coordinator, store: AlbumStore): (r: Coordinator)
    ensures c.hasStorage ==> r == c.(persisted := Get(store, c.albumId))
    ensures !c.hasStorage ==> r == c
  {
    if c.hasStorage then c.(persisted := Get(store, c.albumId)) else c
  }

  /** What the server answers during one poll, and the clock reading the poll uses. */
  datatype PollInput = PollInput(
    users: Fetch<seq<UserEntry>>,
    links: Fetch<seq<LinkPayload>>,
    album: AlbumFetch,
    now: Timestamp)

  datatype PollResult = PollResult(coordinator: Coordinator, store: AlbumStore, events: seq<Event>)

  /** How a freshly built snapshot is flagged and which events it fires, before carry-forward. */
  datatype Detection = Detection(album: AlbumData, events: seq<Event>, persisted: Option<set<AssetId>>)

  /**
   * The detection step of `_async_update_data`: against the previous snapshot when there is
   * one; otherwise, once, against the persisted ids (an ids-only comparison, after which the
   * persisted ids are dropped); otherwise nothing is reported.
   */
  function Detect(c: Coordinator, album: AlbumData, ctx: LinkContext): (d: Detection)
    requires !album.hasNewAssets && album.lastChangeTime.None?
    ensures c.previous.Some? ==> d.persisted == c.persisted
    ensures c.previous.None? ==> d.persisted.None?
    ensures c.previous.Some? ==>
              (d.events == [] <==> DetectChange(c.previous.value, album).None?)
    ensures c.previous.None? && c.persisted.Some? ==>
              (d.events == [] <==> c.persisted.value == album.assetIds)
    ensures c.previous.None? && c.persisted.None? ==> d.events == []
    ensures c.previous.Some? && DetectChange(c.previous.value, album).Some? ==>
              var change := DetectChange(c.previous.value, album).value;
              && d.events == AlbumFireEvents(c.hubName, change, album, ctx)
              && d.album == Stamp(album, change, ctx.now)
              && (d.album.hasNewAssets <==> change.addedCount > 0)
    ensures c.previous.None? && c.persisted.Some? && DetectIdsChange(c.persisted.value, album).Some? ==>
              var change := DetectIdsChange(c.persisted.value, album).value;
              && d.events == AlbumFireEvents(c.hubName, change, album, ctx)
              && d.album == Stamp(album, change, ctx.now)
              && (d.album.hasNewAssets <==> change.addedCount > 0)
    ensures d.events == [] ==> d.album == album
    ensures d.events != [] ==> d.album.lastChangeTime == Some(ctx.now)
    ensures d.album.hasNewAssets ==> d.album.lastChangeTime == Some(ctx.now)
    ensures d.album.(hasNewAssets := album.hasNewAssets, lastChangeTime := album.lastChangeTime) == album
  {
    match c.previous
    case Some(prev) =>
      (match DetectChange(prev, album)
       case Some(change) => Detection(Stamp(album, change, ctx.now), AlbumFireEvents(c.hubName, change, album, ctx), c.persisted)
       case None => Detection(album, [], c.persisted))
    case None =>
      match c.persisted
      case Some(ids) =>
        (match DetectIdsChange(ids, album)
         case Some(change) => Detection(Stamp(album, change, ctx.now), AlbumFireEvents(c.hubName, change, album, ctx), None)
         case None => Detection(album, [], None))
      case None => Detection(album, [], None)
  }

  /**
   * `_async_update_data` plus the coordinator's bookkeeping around it. The users cache and the
   * link list are refreshed first, whatever the album request then returns.
   *  - 404: `data` becomes empty, `previous` and the persisted ids are kept, and `album_deleted`
   *    fires when there is a previous snapshot;
   *  - another status or a transport error: the poll fails and `data` keeps its old value;
   *  - 200: the new snapshot is flagged, carried forward from the previous one, becomes both
   *    `data` and `previous`, and its ids are saved when the coordinator has storage.
   */
  function Poll(c: Coordinator, store: AlbumStore, input: PollInput): (r: PollResult)
    ensures r.coordinator.users == RefreshUsers(c.users, input.users)
    ensures r.coordinator.links == AlbumLinks(c.albumId, input.links)
    ensures r.coordinator.hubName == c.hubName && r.coordinator.albumId == c.albumId
    ensures r.coordinator.baseUrl == c.baseUrl && r.coordinator.hasStorage == c.hasStorage
    ensures input.album.NotFound? ==>
              && r.coordinator.data.None? && r.coordinator.lastUpdateSuccess
              && r.coordinator.previous == c.previous && r.coordinator.persisted == c.persisted
              && r.store == store
              && r.events == DeletionEvents(c.hubName, c.albumId, c.previous)
    ensures (input.album.BadStatus? || input.album.TransportFailure?) ==>
              && r.coordinator.data == c.data && !r.coordinator.lastUpdateSuccess
              && r.coordinator.previous == c.previous && r.coordinator.persisted == c.persisted
              && r.store == store && r.events == []
    ensures input.album.Found? ==>
              && r.coordinator.lastUpdateSuccess
              && r.coordinator.data.Some? && r.coordinator.previous == r.coordinator.data
              && r.coordinator.persisted.None? == (c.persisted.None? || c.previous.None?)
              && r.coordinator.data.value.assetIds == PayloadIds(input.album.payload.assets)
              && r.coordinator.data.value.id == input.album.payload.id
              && (c.hasStorage ==> Get(r.store, c.albumId) == Some(r.coordinator.data.value.assetIds))
              && (!c.hasStorage ==> r.store == store)
    ensures input.album.Found? ==>
              && r.events == PolledDetection(c, input).events
              && r.coordinator.data == Some(CarryForward(c.previous, PolledDetection(c, input).album))
  {
    var users := RefreshUsers(c.users, input.users);
    var links := AlbumLinks(c.albumId, input.links);
    var c1 := c.(users := users, links := links);
    match input.album
    case NotFound =>
      PollResult(c1.(data := None, lastUpdateSuccess := true), store, DeletionEvents(c.hubName, c.albumId, c.previous))
    case BadStatus(_) => PollResult(c1.(lastUpdateSuccess := false), store, [])
    case TransportFailure => PollResult(c1.(lastUpdateSuccess := false), store, [])
    case Found(payload) =>
      var album := AlbumFromApi(payload, users);
      var d := Detect(c1, album, LinkContext(c.baseUrl, links, input.now));
      var final := CarryForward(c.previous, d.album);
      var store' := if c.hasStorage then Save(store, c.albumId, final.assetIds, input.now) else store;
      PollResult(c1.(data := Some(final), lastUpdateSuccess := true, previous := Some(final), persisted := d.persisted),
                 store', d.events)
  }

  /**
   * `clear_new_assets_flag`: clears the flag and change time of the current snapshot. Because
   * `previous` is the same object, it is cleared too.
   */
  function ClearNewAssetsFlag(c: Coordinator): (r: Coordinator)
    ensures c.data.None? ==> r == c
    ensures c.data.Some? ==> r.data == Some(ClearFlag(c.data.value)) && r.previous == r.data
    ensures r.(data := c.data, previous := c.previous) == c
  {
    match c.data
    case Some(a) => c.(data := Some(ClearFlag(a)), previous := Some(ClearFlag(a)))
    case None => c
  }

  /** `available`: the last poll succeeded and there is a snapshot. */
  function Available(c: Coordinator): (r: bool)
    ensures r <==> c.lastUpdateSuccess && c.data.Some?
  {
    c.lastUpdateSuccess && c.data.Some?
  }

  /** `is_on` of the new-assets sensor; a reading past the window clears the flag as a side effect. */
  function IsOn(c: Coordinator, now: Timestamp): (r: (Option<bool>, Coordinator))
    ensures r.0 == Reading(c.data, now)
    ensures c.data.Some? && WindowElapsed(c.data.value, now) ==> r.1 == ClearNewAssetsFlag(c)
    ensures !(c.data.Some? && WindowElapsed(c.data.value, now)) ==> r.1 == c
  {
    if c.data.Some? && WindowElapsed(c.data.value, now) then (Some(false), ClearNewAssetsFlag(c))
    else (Reading(c.data, now), c)
  }

  /** `async_turn_off`: clears the flag; the sensor then reads off whenever there is a snapshot. */
  function TurnOff(c: Coordinator): (r: Coordinator)
    ensures c.data.Some? ==> forall now :: Reading(r.data, now) == Some(false)
    ensures c.data.Some? ==> r.data == Some(ClearFlag(c.data.value)) && r.previous == r.data
    ensures c.data.Some? ==> !r.data.value.hasNewAssets && r.data.value.lastChangeTime.None?
    ensures c.data.None? ==> r == c
    ensures r.(data := c.data, previous := c.previous) == c
  {
    ClearNewAssetsFlag(c)
  }

  /** Every step keeps `data` and `previous` aliased and keeps flagged snapshots timed. */
  lemma StepsPreserveInvariants(c: Coordinator, store: AlbumStore, input: PollInput, now: Timestamp)
    requires Aliased(c) && FlagHasTime(c)
    ensures Aliased(Poll(c, store, input).coordinator) && FlagHasTime(Poll(c, store, input).coordinator)
    ensures Aliased(ClearNewAssetsFlag(c)) && FlagHasTime(ClearNewAssetsFlag(c))
    ensures Aliased(IsOn(c, now).1) && FlagHasTime(IsOn(c, now).1)
    ensures Aliased(LoadPersisted(c, store)) && FlagHasTime(LoadPersisted(c, store))
  {
    PollKeepsInvariants(c, store, input);
  }

  lemma PollKeepsInvariants(c: Coordinator, store: AlbumStore, input: PollInput)
    requires Aliased(c) && FlagHasTime(c)
    ensures Aliased(Poll(c, store, input).coordinator) && FlagHasTime(Poll(c, store, input).coordinator)
  {
    if input.album.Found? {
      var users := RefreshUsers(c.users, input.users);
      var links := AlbumLinks(c.albumId, input.links);
      var c1 := c.(users := users, links := links);
      var album := AlbumFromApi(input.album.payload, users);
      var d := Detect(c1, album, LinkContext(c.baseUrl, links, input.now));
      assert TimedFlag(d.album);
      assert TimedFlag(CarryForward(c.previous, d.album));
    }
  }

  /**
   * The persisted ids are compared at most once: after any successful poll they are gone, so a
   * second successful poll compares against the previous snapshot only.
   */
  lemma DowntimeComparedOnce(c: Coordinator, store: AlbumStore, first: PollInput, second: PollInput)
    requires first.album.Found?
    ensures c.previous.None? ==> Poll(c, store, first).coordinator.persisted.None?
    ensures var r1 := Poll(c, store, first);
            && r1.coordinator.previous.Some?
            && Poll(r1.coordinator, r1.store, second).coordinator.persisted == r1.coordinator.persisted
  {
  }

  /**
   * After a restart with persisted ids, the first successful poll reports exactly the assets
   * added and removed while the integration was down, as `album_changed` first.
   */
  lemma DowntimeChangesReported(c: Coordinator, store: AlbumStore, input: PollInput)
    requires c.previous.None? && c.persisted.Some? && input.album.Found?
    ensures var r := Poll(c, store, input);
            var snap := AlbumFromApi(input.album.payload, RefreshUsers(c.users, input.users));
            && (r.events == [] <==> c.persisted.value == snap.assetIds)
            && (r.events != [] ==>
                  && r.events[0].eventType == AlbumChangedEvent
                  && r.events[0].payload.ChangePayload?
                  && r.events[0].payload.removedAssets == c.persisted.value - snap.assetIds
                  && r.events[0].payload.addedAssets.Keys == snap.assetIds - c.persisted.value
                  && r.coordinator.data.value.lastChangeTime == Some(input.now))
            && r.coordinator.persisted.None?
  {
    var users := RefreshUsers(c.users, input.users);
    var snap := AlbumFromApi(input.album.payload, users);
    var added := snap.assetIds - c.persisted.value;
    assert added * snap.assets.Keys == added;
  }

  /**
   * The carry-forward quirk: while the previous snapshot is still flagged, a new change in the
   * next poll keeps the OLD change time, so the window is not extended by the new change.
   */
  lemma CarryForwardKeepsOldChangeTime(c: Coordinator, store: AlbumStore, input: PollInput, t0: Timestamp)
    requires c.previous.Some? && c.previous.value.hasNewAssets && c.previous.value.lastChangeTime == Some(t0)
    requires input.album.Found? && t0 != input.now
    ensures var r := Poll(c, store, input);
            && r.coordinator.data.value.hasNewAssets
            && r.coordinator.data.value.lastChangeTime == Some(t0)
            && r.coordinator.data.value.lastChangeTime != Some(input.now)
  {
  }

  /**
   * A 404 keeps the previous snapshot: when the album comes back, the next successful poll
   * compares against the snapshot from before the 404, and every 404 in between fires
   * `album_deleted` again.
   */
  lemma NotFoundKeepsPrevious(c: Coordinator, store: AlbumStore, gone: PollInput, back: PollInput)
    requires c.previous.Some? && gone.album.NotFound? && back.album.Found?
    ensures var r1 := Poll(c, store, gone);
            && r1.events == [Event(AlbumDeletedEvent, DeletionPayload(c.hubName, c.albumId, c.previous.value.name))]
            && r1.coordinator.previous == c.previous
            && Poll(r1.coordinator, r1.store, gone).events == r1.events
  {
  }

  /** A first poll with nothing to compare against fires nothing and leaves the flag down. */
  lemma FirstPollIsQuiet(c: Coordinator, store: AlbumStore, input: PollInput, now: Timestamp)
    requires c.previous.None? && c.persisted.None? && input.album.Found?
    ensures var r := Poll(c, store, input);
            && r.events == []
            && !r.coordinator.data.value.hasNewAssets
            && IsOn(r.coordinator, now).0 == Some(false)
  {
  }

  /**
   * Adding assets turns the sensor on for the window: right after a poll that sees new assets
   * (with no earlier flag to carry), the sensor reads on until the delay has passed and is
   * cleared by the first reading after it.
   */
  lemma AddedAssetsOpenWindow(c: Coordinator, store: AlbumStore, input: PollInput, later: Timestamp)
    requires c.previous.Some? && !c.previous.value.hasNewAssets
    requires input.album.Found?
    requires !(c.previous.value.assetIds >= PayloadIds(input.album.payload.assets))
    ensures var r := Poll(c, store, input);
            && r.coordinator.data.value.hasNewAssets
            && r.coordinator.data.value.lastChangeTime == Some(input.now)
            && (later <= input.now + ResetDelay ==> IsOn(r.coordinator, later).0 == Some(true))
            && (later > input.now + ResetDelay ==>
                  IsOn(r.coordinator, later).0 == Some(false) &&
                  !IsOn(r.coordinator, later).1.data.value.hasNewAssets)
  {
    AddedAssetsFlagged(c, store, input);
    FlaggedWindow(Poll(c, store, input).coordinator, input.now, later);
  }

  /** A poll that sees an asset the previous snapshot lacked flags the new snapshot with the poll time. */
  lemma AddedAssetsFlagged(c: Coordinator, store: AlbumStore, input: PollInput)
    requires c.previous.Some? && !c.previous.value.hasNewAssets
    requires input.album.Found?
    requires !(c.previous.value.assetIds >= PayloadIds(input.album.payload.assets))
    ensures Poll(c, store, input).coordinator.data.Some?
    ensures Poll(c, store, input).coordinator.data.value.hasNewAssets
    ensures Poll(c, store, input).coordinator.data.value.lastChangeTime == Some(input.now)
  {
    var snap := PolledSnapshot(c, input);
    var x :| x in snap.assetIds && x !in c.previous.value.assetIds;
    assert x in snap.assetIds - c.previous.value.assetIds;
    var change := DetectChange(c.previous.value, snap);
    assert change.Some? && change.value.addedCount > 0;
    var d := PolledDetection(c, input);
    assert d.album == Stamp(snap, change.value, input.now);
    PollFound(c, store, input);
  }

  /** A snapshot flagged at time `t` reads on up to `t + ResetDelay`; the first reading after that reads off and clears the flag. */
  lemma FlaggedWindow(c: Coordinator, t: Timestamp, later: Timestamp)
    requires c.data.Some? && c.data.value.hasNewAssets && c.data.value.lastChangeTime == Some(t)
    ensures later <= t + ResetDelay ==> IsOn(c, later).0 == Some(true)
    ensures later > t + ResetDelay ==> IsOn(c, later).0 == Some(false) && !IsOn(c, later).1.data.value.hasNewAssets
  {
  }

  // Proof helpers for the lemmas above: the snapshot and detection a successful poll works with.

  /** The snapshot a successful poll builds, before any flagging. */
  function PolledSnapshot(c: Coordinator, input: PollInput): (a: AlbumData)
    requires input.album.Found?
    ensures a.assetIds == PayloadIds(input.album.payload.assets)
    ensures !a.hasNewAssets && a.lastChangeTime.None?
  {
    AlbumFromApi(input.album.payload, RefreshUsers(c.users, input.users))
  }

  /** The detection step of a successful poll, on the refreshed users and links. */
  function PolledDetection(c: Coordinator, input: PollInput): Detection
    requires input.album.Found?
  {
    var links := AlbumLinks(c.albumId, input.links);
    Detect(c.(users := RefreshUsers(c.users, input.users), links := links), PolledSnapshot(c, input),
           LinkContext(c.baseUrl, links, input.now))
  }

  /** A successful poll stores the detected snapshot after carry-forward, and fires the detected events. */
  lemma PollFound(c: Coordinator, store: AlbumStore, input: PollInput)
    requires input.album.Found?
    ensures Poll(c, store, input).coordinator.data == Some(CarryForward(c.previous, PolledDetection(c, input).album))
    ensures Poll(c, store, input).events == PolledDetection(c, input).events
  {
  }
}

=== FILE: api.dfy ===
/**
 * Outcomes of the server requests a poll makes, as the model receives them: the HTTP layer
 * itself (sessions, headers, JSON decoding) is outside the model.
 */
module Api {
  import opened Wrappers
  import Snapshot

  /**
   * `url.rstrip("/")`: both coordinators keep the server URL this way, so that the paths they
   * append never start with a doubled `/`.
   */
  function StripTrailingSlashes(url: string): (r: string)
    ensures |r| <= |url| && r == url[..|r|]
    ensures |r| == 0 || r[|r| - 1] != '/'
    ensures forall i :: |r| <= i < |url| ==> url[i] == '/'
    decreases |url|
  {
    if |url| > 0 && url[|url| - 1] == '/' then StripTrailingSlashes(url[..|url| - 1]) else url
  }

  /** A URL that was already stripped, as the configuration flow stores it, is kept as it is. */
  lemma StripIsIdempotent(url: string)
    ensures StripTrailingSlashes(StripTrailingSlashes(url)) == StripTrailingSlashes(url)
  {
    var r := StripTrailingSlashes(url);
    assert |r| == 0 || r[|r| - 1] != '/';
  }

  /**
   * A list request (`/api/users`, `/api/shared-links`): either a 200 response with its decoded
   * body, or anything else (another status or a transport error), which the callers only log.
   */
  datatype Fetch<T> = Fetched(body: T) | FetchFailed

  /** The album request: 200 with a payload, 404, another status, or a transport error. */
  datatype AlbumFetch =
    | Found(payload: Snapshot.AlbumPayload)
    | NotFound
    | BadStatus(status: int)
    | TransportFailure

  /** One entry of `/api/users`: `id` is `""` when missing; `name`/`email` are `None` when their key is missing. */
  datatype UserEntry = UserEntry(id: string, name: Option<string>, email: Option<string>)

  /** The name a user is shown under: `name`, else `email`, else "Unknown". */
  function DisplayName(u: UserEntry): string {
    match u.name
    case Some(n) => n
    case None => u.email.GetOr("Unknown")
  }

  /** No later entry repeats entry `i`'s id. */
  predicate IsLastEntry(entries: seq<UserEntry>, i: nat)
    requires i < |entries|
  {
    forall j :: i < j < |entries| ==> entries[j].id != entries[i].id
  }

  /**
   * `_async_fetch_users`' dict comprehension: users without an id are dropped and a repeated id
   * keeps the display name of its last entry.
   */
  function UsersFromApi(entries: seq<UserEntry>): (users: map<string, string>)
    ensures users.Keys == set i | 0 <= i < |entries| && entries[i].id != "" :: entries[i].id
    ensures forall i :: 0 <= i < |entries| && entries[i].id != "" && IsLastEntry(entries, i) ==>
              users[entries[i].id] == DisplayName(entries[i])
    decreases |entries|
  {
    if |entries| == 0 then map[]
    else
      var prefix := entries[..|entries| - 1];
      var last := entries[|entries| - 1];
      var users := UsersFromApi(prefix);
      assert forall i :: 0 <= i < |prefix| ==> prefix[i] == entries[i];
      if last.id != "" then users[last.id := DisplayName(last)] else users
  }

  /**
   * The users-cache refresh at the start of a poll: only attempted while the cache is empty;
   * a failed request leaves the cache as it was.
   */
  function RefreshUsers(cache: map<string, string>, response: Fetch<seq<UserEntry>>): (r: map<string, string>)
    ensures |cache| > 0 ==> r == cache
    ensures |cache| == 0 && response.Fetched? ==> r == UsersFromApi(response.body)
    ensures response.FetchFailed? ==> r == cache
  {
    if |cache| > 0 then cache
    else match response
      case Fetched(entries) => UsersFromApi(entries)
      case FetchFailed => cache
  }
}

=== FILE: diff.dfy ===
/**
 * Change detection between two snapshots of one album (`_detect_change` in both coordinators
 * and the per-album variant's downtime comparison against persisted ids).
 */
module Diff {
  import opened Wrappers
  import opened Snapshot

  /** `change_type` of an `AlbumChange`. */
  datatype ChangeKind = AssetsAdded | AssetsRemoved | AlbumRenamed | AlbumSharingChanged | Changed {
    function Name(): string {
      match this
      case AssetsAdded => "assets_added"
      case AssetsRemoved => "assets_removed"
      case AlbumRenamed => "album_renamed"
      case AlbumSharingChanged => "album_sharing_changed"
      case Changed => "changed"
    }
  }

  /** The four independent ways two snapshots can differ. */
  datatype Signals = Signals(added: bool, removed: bool, renamed: bool, sharing: bool) {
    function Count(): nat {
      (if added then 1 else 0) + (if removed then 1 else 0) +
      (if renamed then 1 else 0) + (if sharing then 1 else 0)
    }
  }

  /** The specific kind naming a lone signal. */
  function SoleKind(s: Signals): ChangeKind
    requires s.Count() == 1
  {
    if s.added then AssetsAdded
    else if s.removed then AssetsRemoved
    else if s.renamed then AlbumRenamed
    else AlbumSharingChanged
  }

  /**
   * The classification cascade: nothing differs means no change; each specific kind is chosen
   * only when its signal is the only one; any mix is "changed".
   */
  function Classify(s: Signals): (k: Option<ChangeKind>)
    ensures k.None? <==> s.Count() == 0
    ensures k == Some(Changed) <==> s.Count() >= 2
    ensures s.Count() == 1 ==> k == Some(SoleKind(s))
  {
    if !s.added && !s.removed && !s.renamed && !s.sharing then None
    else if s.renamed && !s.added && !s.removed && !s.sharing then Some(AlbumRenamed)
    else if s.sharing && !s.added && !s.removed && !s.renamed then Some(AlbumSharingChanged)
    else if s.added && !s.removed && !s.renamed && !s.sharing then Some(AssetsAdded)
    else if s.removed && !s.added && !s.renamed && !s.sharing then Some(AssetsRemoved)
    else Some(Changed)
  }

  /**
   * `AlbumChange`. `addedAssets` is keyed by asset id and `removedIds` is a set: the source
   * builds both lists by iterating a Python set, so their order carries no meaning.
   */
  datatype AlbumChange = AlbumChange(
    albumId: string,
    albumName: string,
    kind: ChangeKind,
    addedCount: nat,
    removedCount: nat,
    addedAssets: map<AssetId, AssetInfo>,
    removedIds: set<AssetId>,
    oldName: Option<string>,
    newName: Option<string>,
    oldShared: Option<bool>,
    newShared: Option<bool>)

  /** The added assets' records, as far as the new snapshot has them. */
  function AddedAssets(added: set<AssetId>, album: AlbumData): (m: map<AssetId, AssetInfo>)
    ensures m.Keys == added * album.assets.Keys
    ensures forall id :: id in m ==> m[id] == album.assets[id]
  {
    map id | id in added && id in album.assets :: album.assets[id]
  }

  /**
   * The multi-album `_detect_change`, also used by the per-album variant for the first poll
   * after a restart (the old ids come from storage there): only the asset ids are compared.
   */
  function DetectIdsChange(oldIds: set<AssetId>, album: AlbumData): (r: Option<AlbumChange>)
    ensures r.None? <==> oldIds == album.assetIds
    ensures r.Some? ==>
              && r.value.albumId == album.id
              && r.value.albumName == album.name
              && r.value.addedCount == |album.assetIds - oldIds|
              && r.value.removedCount == |oldIds - album.assetIds|
              && r.value.removedIds == oldIds - album.assetIds
              && r.value.addedAssets == AddedAssets(album.assetIds - oldIds, album)
              && r.value.oldName.None? && r.value.newName.None?
              && r.value.oldShared.None? && r.value.newShared.None?
              && r.value.kind in {AssetsAdded, AssetsRemoved, Changed}
  {
    var added := album.assetIds - oldIds;
    var removed := oldIds - album.assetIds;
    var kind := Classify(Signals(added != {}, removed != {}, false, false));
    if kind.None? then
      assert oldIds == album.assetIds by {
        assert forall x :: x in oldIds ==> x in album.assetIds by { assert removed == {}; }
        assert forall x :: x in album.assetIds ==> x in oldIds by { assert added == {}; }
      }
      None
    else
      Some(AlbumChange(album.id, album.name, kind.value, |added|, |removed|,
                       AddedAssets(added, album), removed, None, None, None, None))
  }

  /** The per-album `_detect_change`: asset ids, the name and the shared flag are compared. */
  function DetectChange(prev: AlbumData, album: AlbumData): (r: Option<AlbumChange>)
    ensures r.None? <==> prev.assetIds == album.assetIds && prev.name == album.name && prev.shared == album.shared
    ensures r.Some? ==>
              && r.value.albumId == album.id
              && r.value.albumName == album.name
              && r.value.addedCount == |album.assetIds - prev.assetIds|
              && r.value.removedCount == |prev.assetIds - album.assetIds|
              && r.value.removedIds == prev.assetIds - album.assetIds
              && r.value.addedAssets == AddedAssets(album.assetIds - prev.assetIds, album)
              && (r.value.oldName.Some? <==> prev.name != album.name)
              && (r.value.oldName.Some? ==> r.value.oldName.value == prev.name && r.value.newName == Some(album.name))
              && (r.value.oldName.None? ==> r.value.newName.None?)
              && (r.value.oldShared.Some? <==> prev.shared != album.shared)
              && (r.value.oldShared.Some? ==> r.value.oldShared.value == prev.shared && r.value.newShared == Some(album.shared))
              && (r.value.oldShared.None? ==> r.value.newShared.None?)
  {
    var added := album.assetIds - prev.assetIds;
    var removed := prev.assetIds - album.assetIds;
    var renamed := prev.name != album.name;
    var sharing := prev.shared != album.shared;
    var kind := Classify(Signals(added != {}, removed != {}, renamed, sharing));
    if kind.None? then
      assert prev.assetIds == album.assetIds by {
        assert forall x :: x in prev.assetIds ==> x in album.assetIds by { assert removed == {}; }
        assert forall x :: x in album.assetIds ==> x in prev.assetIds by { assert added == {}; }
      }
      None
    else
      Some(AlbumChange(
        album.id, album.name, kind.value, |added|, |removed|, AddedAssets(added, album), removed,
        if renamed then Some(prev.name) else None,
        if renamed then Some(album.name) else None,
        if sharing then Some(prev.shared) else None,
        if sharing then Some(album.shared) else None))
  }

  /** The signals a detected change reports, read back from the change record itself. */
  function SignalsOf(c: AlbumChange): Signals {
    Signals(c.addedCount > 0, c.removedCount > 0, c.oldName.Some?, c.oldShared.Some?)
  }

  /**
   * A detected change's kind is the classification of what it reports: a specific kind exactly
   * when that is the only difference, "changed" exactly when two or more things differ.
   */
  lemma KindMatchesReport(prev: AlbumData, album: AlbumData)
    requires DetectChange(prev, album).Some?
    ensures var c := DetectChange(prev, album).value;
            && SignalsOf(c).Count() >= 1
            && Classify(SignalsOf(c)) == Some(c.kind)
            && (c.kind == Changed <==> SignalsOf(c).Count() >= 2)
  {
    var added := album.assetIds - prev.assetIds;
    var removed := prev.assetIds - album.assetIds;
    assert |added| > 0 <==> added != {};
    assert |removed| > 0 <==> removed != {};
  }

  /**
   * Replaying a detected change on the prev id set yields the new one: nothing the change omits
   * differs, and the added records are exactly the new snapshot's records for new ids.
   */
  lemma ChangeReplays(prev: AlbumData, album: AlbumData)
    requires Valid(album)
    ensures DetectChange(prev, album).None? ==> prev.assetIds == album.assetIds
    ensures DetectChange(prev, album).Some? ==>
              var c := DetectChange(prev, album).value;
              && (prev.assetIds - c.removedIds) + c.addedAssets.Keys == album.assetIds
              && c.addedAssets.Keys !! prev.assetIds
              && c.removedIds <= prev.assetIds
              && c.addedCount == |c.addedAssets|
  {
    if DetectChange(prev, album).Some? {
      var c := DetectChange(prev, album).value;
      assert c.addedAssets.Keys == album.assetIds - prev.assetIds;
    }
  }

  /**
   * With the name and the shared flag unchanged, the per-album comparison reports what the
   * ids-only comparison reports.
   */
  lemma IdsChangeAgrees(prev: AlbumData, album: AlbumData)
    requires prev.name == album.name && prev.shared == album.shared
    ensures DetectChange(prev, album) == DetectIdsChange(prev.assetIds, album)
  {
  }

  /** Removing assets and nothing else is reported as `assets_removed`, with the removed ids. */
  lemma OnlyRemovalIsAssetsRemoved(prev: AlbumData, album: AlbumData)
    requires album.assetIds < prev.assetIds && prev.name == album.name && prev.shared == album.shared
    ensures DetectChange(prev, album).Some?
    ensures DetectChange(prev, album).value.kind == AssetsRemoved
    ensures DetectChange(prev, album).value.addedCount == 0
    ensures DetectChange(prev, album).value.removedIds == prev.assetIds - album.assetIds
  {
    assert album.assetIds - prev.assetIds == {};
    var x :| x in prev.assetIds && x !in album.assetIds;
    assert x in prev.assetIds - album.assetIds;
  }

  /** Renaming an album and nothing else is reported as `album_renamed`, carrying both names. */
  lemma OnlyRenameIsAlbumRenamed(prev: AlbumData, album: AlbumData)
    requires prev.assetIds == album.assetIds && prev.name != album.name && prev.shared == album.shared
    ensures DetectChange(prev, album).Some?
    ensures DetectChange(prev, album).value.kind == AlbumRenamed
    ensures DetectChange(prev, album).value.oldName == Some(prev.name)
    ensures DetectChange(prev, album).value.newName == Some(album.name)
    ensures DetectChange(prev, album).value.addedCount == 0 && DetectChange(prev, album).value.removedCount == 0
  {
    assert album.assetIds - prev.assetIds == {};
    assert prev.assetIds - album.assetIds == {};
  }

  /** A reported change flags the snapshot (new assets iff something was added) and stamps it with the poll time. */
  function Stamp(album: AlbumData, change: AlbumChange, now: Timestamp): (r: AlbumData)
    ensures r.hasNewAssets <==> change.addedCount > 0
    ensures r.lastChangeTime == Some(now)
    ensures r.(hasNewAssets := album.hasNewAssets, lastChangeTime := album.lastChangeTime) == album
  {
    album.(hasNewAssets := change.addedCount > 0, lastChangeTime := Some(now))
  }
}

=== FILE: events.dfy ===
/**
 * The Home Assistant events a detected change fans out to (`_fire_events` in both coordinators)
 * and the per-album variant's deletion event. Firing is modelled as returning the events in the
 * order they are put on the bus.
 */
module Events {
  import opened Wrappers
  import opened Snapshot
  import opened SharedLinks
  import opened Diff

  const Domain: string := "immich_album_watcher"

  datatype EventType =
    | AlbumChangedEvent
    | AssetsAddedEvent
    | AssetsRemovedEvent
    | AlbumRenamedEvent
    | AlbumSharingChangedEvent
    | AlbumDeletedEvent
  {
    /** The bus event name, `{DOMAIN}_<suffix>`. */
    function Name(): string {
      Domain + match this
        case AlbumChangedEvent => "_album_changed"
        case AssetsAddedEvent => "_assets_added"
        case AssetsRemovedEvent => "_assets_removed"
        case AlbumRenamedEvent => "_album_renamed"
        case AlbumSharingChangedEvent => "_album_sharing_changed"
        case AlbumDeletedEvent => "_album_deleted"
    }

    /** Position in the firing order of one change. */
    function Rank(): nat {
      match this
      case AlbumChangedEvent => 0
      case AssetsAddedEvent => 1
      case AssetsRemovedEvent => 2
      case AlbumRenamedEvent => 3
      case AlbumSharingChangedEvent => 4
      case AlbumDeletedEvent => 5
    }
  }

  /** The per-album variant's extra asset fields. */
  datatype Extras = Extras(isFavorite: bool, rating: Option<int>)

  /** One entry of `added_assets`; an absent optional field is a key the dict does not have. */
  datatype AssetDetail = AssetDetail(
    id: AssetId,
    assetType: string,
    filename: string,
    createdAt: string,
    owner: string,
    ownerId: string,
    description: string,
    people: seq<string>,
    extras: Option<Extras>,
    url: Option<string>,
    downloadUrl: Option<string>,
    playbackUrl: Option<string>)

  /** An event's data dict; `None` fields are keys the dict does not have. */
  datatype Payload =
    | ChangePayload(
        hubName: Option<string>,
        albumId: string,
        albumName: string,
        changeType: string,
        addedCount: nat,
        removedCount: nat,
        addedAssets: map<AssetId, AssetDetail>,
        removedAssets: set<AssetId>,
        people: set<string>,
        shared: Option<bool>,
        oldName: Option<string>,
        newName: Option<string>,
        oldShared: Option<bool>,
        newShared: Option<bool>,
        albumUrl: Option<string>)
    | DeletionPayload(hub: string, deletedId: string, deletedName: string)

  datatype Event = Event(eventType: EventType, payload: Payload)

  /** Where a coordinator finds an album's links and the server's base URL. */
  datatype LinkContext = LinkContext(baseUrl: string, links: seq<SharedLink>, now: Timestamp)

  /** The per-album variant's asset entry: every field, the favourite flag and rating, and all three URLs. */
  function AlbumAssetDetail(a: AssetInfo, ctx: LinkContext): (d: AssetDetail)
    ensures d.id == a.id && d.assetType == a.assetType && d.owner == a.ownerName && d.ownerId == a.ownerId
    ensures d.filename == a.filename && d.createdAt == a.createdAt
    ensures d.description == a.description && d.people == a.people
    ensures d.extras == Some(Extras(a.isFavorite, a.rating))
    ensures d.url == AssetPublicUrl(ctx.baseUrl, ctx.links, ctx.now, a.id)
    ensures d.downloadUrl == AssetDownloadUrl(ctx.baseUrl, ctx.links, ctx.now, a.id)
    ensures d.playbackUrl.Some? <==> a.assetType == AssetTypeVideo && PreferredLink(ctx.links, ctx.now).Some?
    ensures d.playbackUrl.Some? ==> d.playbackUrl == AssetVideoUrl(ctx.baseUrl, ctx.links, ctx.now, a.id)
  {
    AssetDetail(
      a.id, a.assetType, a.filename, a.createdAt, a.ownerName, a.ownerId, a.description, a.people,
      Some(Extras(a.isFavorite, a.rating)),
      AssetPublicUrl(ctx.baseUrl, ctx.links, ctx.now, a.id),
      AssetDownloadUrl(ctx.baseUrl, ctx.links, ctx.now, a.id),
      if a.assetType == AssetTypeVideo then AssetVideoUrl(ctx.baseUrl, ctx.links, ctx.now, a.id) else None)
  }

  /** The multi-album variant's asset entry: no favourite flag or rating, and only the viewer URL. */
  function HubAssetDetail(a: AssetInfo, ctx: LinkContext): (d: AssetDetail)
    ensures d.id == a.id && d.assetType == a.assetType && d.owner == a.ownerName && d.ownerId == a.ownerId
    ensures d.filename == a.filename && d.createdAt == a.createdAt
    ensures d.description == a.description && d.people == a.people
    ensures d.extras.None? && d.downloadUrl.None? && d.playbackUrl.None?
    ensures d.url == AssetPublicUrl(ctx.baseUrl, ctx.links, ctx.now, a.id)
  {
    AssetDetail(
      a.id, a.assetType, a.filename, a.createdAt, a.ownerName, a.ownerId, a.description, a.people,
      None, AssetPublicUrl(ctx.baseUrl, ctx.links, ctx.now, a.id), None, None)
  }

  /**
   * Which events one change fires, in order: `album_changed` always, then `assets_added`,
   * `assets_removed`, and (per-album variant only) `album_renamed` and `album_sharing_changed`.
   */
  function FanOut(c: AlbumChange, withMetadata: bool): seq<EventType> {
    [AlbumChangedEvent]
    + (if c.addedCount > 0 then [AssetsAddedEvent] else [])
    + (if c.removedCount > 0 then [AssetsRemovedEvent] else [])
    + (if withMetadata && c.oldName.Some? then [AlbumRenamedEvent] else [])
    + (if withMetadata && c.oldShared.Some? then [AlbumSharingChangedEvent] else [])
  }

  /** `album_changed` always comes first; each other event fires exactly when its part of the change happened. */
  lemma FanOutMembers(c: AlbumChange, withMetadata: bool)
    ensures var ts := FanOut(c, withMetadata);
      && |ts| >= 1 && ts[0] == AlbumChangedEvent
      && (AssetsAddedEvent in ts <==> c.addedCount > 0)
      && (AssetsRemovedEvent in ts <==> c.removedCount > 0)
      && (AlbumRenamedEvent in ts <==> withMetadata && c.oldName.Some?)
      && (AlbumSharingChangedEvent in ts <==> withMetadata && c.oldShared.Some?)
      && AlbumDeletedEvent !in ts
  {
  }

  /** The events fire in rank order, each at most once. */
  lemma FanOutOrdered(c: AlbumChange, withMetadata: bool)
    ensures var ts := FanOut(c, withMetadata);
      forall i, j :: 0 <= i < j < |ts| ==> ts[i].Rank() < ts[j].Rank()
  {
  }

  /** Every event type of `ts`, all carrying the one data dict. */
  function Broadcast(ts: seq<EventType>, p: Payload): (es: seq<Event>)
    ensures |es| == |ts|
    ensures forall i :: 0 <= i < |es| ==> es[i] == Event(ts[i], p)
    ensures forall t :: t in ts <==> exists i :: 0 <= i < |es| && es[i].eventType == t
  {
    var es := seq(|ts|, i requires 0 <= i < |ts| => Event(ts[i], p));
    forall t | t in ts ensures exists i :: 0 <= i < |es| && es[i].eventType == t {
      var i :| 0 <= i < |ts| && ts[i] == t;
      assert es[i].eventType == t;
    }
    es
  }

  /** The per-album variant's data dict. */
  function AlbumChangePayload(hubName: string, c: AlbumChange, album: AlbumData, ctx: LinkContext): (p: Payload)
    ensures p.ChangePayload?
    ensures p.hubName == Some(hubName) && p.albumId == c.albumId && p.albumName == c.albumName
    ensures p.changeType == c.kind.Name()
    ensures p.addedCount == c.addedCount && p.removedCount == c.removedCount
    ensures p.addedAssets.Keys == c.addedAssets.Keys
    ensures forall id :: id in p.addedAssets ==> p.addedAssets[id] == AlbumAssetDetail(c.addedAssets[id], ctx)
    ensures p.removedAssets == c.removedIds
    ensures p.people == album.people && p.shared == Some(album.shared)
    ensures p.oldName == c.oldName && (c.oldName.Some? ==> p.newName == c.newName) && (c.oldName.None? ==> p.newName.None?)
    ensures p.oldShared == c.oldShared && (c.oldShared.Some? ==> p.newShared == c.newShared) && (c.oldShared.None? ==> p.newShared.None?)
    ensures p.albumUrl == AnyUrl(ctx.baseUrl, ctx.links, ctx.now)
  {
    ChangePayload(
      Some(hubName), c.albumId, c.albumName, c.kind.Name(), c.addedCount, c.removedCount,
      map id | id in c.addedAssets :: AlbumAssetDetail(c.addedAssets[id], ctx),
      c.removedIds, album.people, Some(album.shared),
      c.oldName, if c.oldName.Some? then c.newName else None,
      c.oldShared, if c.oldShared.Some? then c.newShared else None,
      AnyUrl(ctx.baseUrl, ctx.links, ctx.now))
  }

  /** The multi-album variant's data dict: no hub name, shared flag or metadata-change keys. */
  function HubChangePayload(c: AlbumChange, album: AlbumData, ctx: LinkContext): (p: Payload)
    ensures p.ChangePayload?
    ensures p.hubName.None? && p.shared.None?
    ensures p.oldName.None? && p.newName.None? && p.oldShared.None? && p.newShared.None?
    ensures p.albumId == c.albumId && p.albumName == c.albumName && p.changeType == c.kind.Name()
    ensures p.addedCount == c.addedCount && p.removedCount == c.removedCount
    ensures p.addedAssets.Keys == c.addedAssets.Keys
    ensures forall id :: id in p.addedAssets ==> p.addedAssets[id] == HubAssetDetail(c.addedAssets[id], ctx)
    ensures p.removedAssets == c.removedIds && p.people == album.people
    ensures p.albumUrl == AnyUrl(ctx.baseUrl, ctx.links, ctx.now)
  {
    ChangePayload(
      None, c.albumId, c.albumName, c.kind.Name(), c.addedCount, c.removedCount,
      map id | id in c.addedAssets :: HubAssetDetail(c.addedAssets[id], ctx),
      c.removedIds, album.people, None, None, None, None, None,
      AnyUrl(ctx.baseUrl, ctx.links, ctx.now))
  }

  /** The per-album `_fire_events`. */
  function AlbumFireEvents(hubName: string, c: AlbumChange, album: AlbumData, ctx: LinkContext): (es: seq<Event>)
    ensures |es| >= 1 && es[0].eventType == AlbumChangedEvent
    ensures forall i :: 0 <= i < |es| ==> es[i].payload == AlbumChangePayload(hubName, c, album, ctx)
    ensures (exists i :: 0 <= i < |es| && es[i].eventType == AssetsAddedEvent) <==> c.addedCount > 0
    ensures (exists i :: 0 <= i < |es| && es[i].eventType == AssetsRemovedEvent) <==> c.removedCount > 0
    ensures (exists i :: 0 <= i < |es| && es[i].eventType == AlbumRenamedEvent) <==> c.oldName.Some?
    ensures (exists i :: 0 <= i < |es| && es[i].eventType == AlbumSharingChangedEvent) <==> c.oldShared.Some?
    ensures forall i, j :: 0 <= i < j < |es| ==> es[i].eventType.Rank() < es[j].eventType.Rank()
  {
    FanOutMembers(c, true);
    FanOutOrdered(c, true);
    Broadcast(FanOut(c, true), AlbumChangePayload(hubName, c, album, ctx))
  }

  /** The multi-album `_fire_events`: only the change and the two asset events exist there. */
  function HubFireEvents(c: AlbumChange, album: AlbumData, ctx: LinkContext): (es: seq<Event>)
    ensures |es| >= 1 && es[0].eventType == AlbumChangedEvent
    ensures forall i :: 0 <= i < |es| ==> es[i].payload == HubChangePayload(c, album, ctx)
    ensures (exists i :: 0 <= i < |es| && es[i].eventType == AssetsAddedEvent) <==> c.addedCount > 0
    ensures (exists i :: 0 <= i < |es| && es[i].eventType == AssetsRemovedEvent) <==> c.removedCount > 0
    ensures forall i :: 0 <= i < |es| ==> es[i].eventType in {AlbumChangedEvent, AssetsAddedEvent, AssetsRemovedEvent}
    ensures forall i, j :: 0 <= i < j < |es| ==> es[i].eventType.Rank() < es[j].eventType.Rank()
  {
    FanOutMembers(c, false);
    FanOutOrdered(c, false);
    Broadcast(FanOut(c, false), HubChangePayload(c, album, ctx))
  }

  /** The 404 branch's event: fired only when a previous snapshot exists, naming that snapshot. */
  function DeletionEvents(hubName: string, albumId: string, previous: Option<AlbumData>): (es: seq<Event>)
    ensures previous.None? ==> es == []
    ensures previous.Some? ==> |es| == 1 && es[0].eventType == AlbumDeletedEvent
    ensures previous.Some? ==> es[0].payload == DeletionPayload(hubName, albumId, previous.value.name)
  {
    match previous
    case Some(prev) => [Event(AlbumDeletedEvent, DeletionPayload(hubName, albumId, prev.name))]
    case None => []
  }

  /**
   * A pure rename of an album fires exactly `album_changed` then `album_renamed`, carrying the
   * old and the new name.
   */
  lemma RenameFiresTwoEvents(hubName: string, prev: AlbumData, album: AlbumData, ctx: LinkContext)
    requires prev.assetIds == album.assetIds && prev.name != album.name && prev.shared == album.shared
    ensures var es := AlbumFireEvents(hubName, DetectChange(prev, album).value, album, ctx);
            && |es| == 2
            && es[0].eventType == AlbumChangedEvent && es[1].eventType == AlbumRenamedEvent
            && es[1].payload.oldName == Some(prev.name) && es[1].payload.newName == Some(album.name)
            && es[1].payload.changeType == "album_renamed"
  {
    OnlyRenameIsAlbumRenamed(prev, album);
  }
}

=== FILE: hub_watch.dfy ===
/**
 * The multi-album coordinator (`ImmichAlbumWatcherCoordinator` in `immich_album_watcher`): one
 * poll requests every configured album in turn. A 404 skips the album; any other failure aborts
 * the whole poll, keeping the old data, although events already fired for earlier albums stay
 * fired. A completed poll replaces the previous snapshots wholesale.
 */
module HubWatch {
  import opened Wrappers
  import opened Snapshot
  import opened Api
  import opened SharedLinks
  import opened Diff
  import opened Events
  import opened NewAssets

  datatype Hub = Hub(
    albumIds: seq<string>,
    baseUrl: string,
    users: map<string, string>,
    linkCache: map<string, seq<SharedLink>>,
    data: Option<map<string, AlbumData>>,
    lastUpdateSuccess: bool,
    previous: map<string, AlbumData>)

  /** The constructor: the URL loses its trailing slashes; nothing fetched, no previous snapshots. */
  function Init(albumIds: seq<string>, url: string): (h: Hub)
    ensures h.albumIds == albumIds && h.baseUrl == StripTrailingSlashes(url)
    ensures h.data.None? && h.previous == map[] && h.linkCache == map[] && h.users == map[]
    ensures Aliased(h)
  {
    Hub(albumIds, StripTrailingSlashes(url), map[], map[], None, true, map[])
  }

  /**
   * `data` and `previous` hold the same snapshot objects: `previous` is a shallow copy of the
   * dict `data` was returned as, so mutating a snapshot through one is visible through the other.
   */
  predicate Aliased(h: Hub) {
    h.data.Some? ==> h.previous == h.data.value
  }

  /** An album answer that aborts the poll. */
  predicate Fails(f: AlbumFetch) {
    f.BadStatus? || f.TransportFailure?
  }

  /** What stays fixed during one cycle: the previous snapshots, caches and clock. */
  datatype CycleEnv = CycleEnv(
    previous: map<string, AlbumData>,
    users: map<string, string>,
    linkCache: map<string, seq<SharedLink>>,
    baseUrl: string,
    now: Timestamp)

  datatype Cycle =
    | Completed(albums: map<string, AlbumData>, events: seq<Event>)
    | Aborted(events: seq<Event>)

  datatype Processed = Processed(album: AlbumData, events: seq<Event>)

  /**
   * One album answered 200: compared by ids against its previous snapshot when it has one
   * (firing that change's events, with the links of the album id the server reports), then
   * carried forward from that snapshot.
   */
  function ProcessAlbum(env: CycleEnv, albumId: string, payload: AlbumPayload): (p: Processed)
    ensures p.album.assetIds == PayloadIds(payload.assets)
    ensures albumId !in env.previous ==> p.events == [] && !p.album.hasNewAssets && p.album.lastChangeTime.None?
    ensures albumId in env.previous ==>
              (p.events == [] <==> env.previous[albumId].assetIds == PayloadIds(payload.assets))
    ensures albumId in env.previous ==>
              var album := AlbumFromApi(payload, env.users);
              var change := DetectIdsChange(env.previous[albumId].assetIds, album);
              && (change.Some? ==>
                    && p.events == HubFireEvents(change.value, album,
                                                 LinkContext(env.baseUrl, LinksFor(env.linkCache, change.value.albumId), env.now))
                    && p.album == CarryForward(Some(env.previous[albumId]), Stamp(album, change.value, env.now)))
              && (change.None? ==> p.album == CarryForward(Some(env.previous[albumId]), album))
    ensures albumId in env.previous && !(env.previous[albumId].hasNewAssets && env.previous[albumId].lastChangeTime.Some?) ==>
              (p.album.hasNewAssets <==> exists x :: x in PayloadIds(payload.assets) && x !in env.previous[albumId].assetIds)
  {
    var album := AlbumFromApi(payload, env.users);
    if albumId in env.previous then
      var prev := env.previous[albumId];
      match DetectIdsChange(prev.assetIds, album)
      case Some(change) =>
        var ctx := LinkContext(env.baseUrl, LinksFor(env.linkCache, change.albumId), env.now);
        Processed(CarryForward(Some(prev), Stamp(album, change, env.now)), HubFireEvents(change, album, ctx))
      case None => Processed(CarryForward(Some(prev), album), [])
    else Processed(album, [])
  }

  /** The albums a completed cycle keeps: those whose request answered 200. */
  function FoundIds(ids: seq<string>, server: nat -> AlbumFetch): set<string> {
    set i | 0 <= i < |ids| && server(i).Found? :: ids[i]
  }

  /**
   * The loop over the configured albums; `server(i)` is the answer to the `i`-th request.
   * The poll aborts exactly when some answer fails; otherwise it keeps every album that
   * answered 200.
   */
  function RunCycle(env: CycleEnv, ids: seq<string>, server: nat -> AlbumFetch): (r: Cycle)
    ensures r.Aborted? <==> exists i :: 0 <= i < |ids| && Fails(server(i))
    ensures r.Completed? ==> r.albums.Keys == FoundIds(ids, server)
    decreases |ids|
  {
    if |ids| == 0 then Completed(map[], [])
    else
      var n := |ids| - 1;
      var prefix := ids[..n];
      CycleSnoc(ids, server);
      CycleStep(env, RunCycle(env, prefix, server), ids[n], server(n))
  }

  /** One more album request: an aborted cycle stays aborted; otherwise the answer skips, aborts or is processed. */
  function CycleStep(env: CycleEnv, prev: Cycle, albumId: string, f: AlbumFetch): Cycle {
    match prev
    case Aborted(events) => prev
    case Completed(albums, events) =>
      match f
      case NotFound => prev
      case BadStatus(_) => Aborted(events)
      case TransportFailure => Aborted(events)
      case Found(payload) =>
        var p := ProcessAlbum(env, albumId, payload);
        Completed(albums[albumId := p.album], events + p.events)
  }

  /** How the facts `RunCycle` states grow by one album. */
  lemma CycleSnoc(ids: seq<string>, server: nat -> AlbumFetch)
    requires |ids| > 0
    ensures FoundIds(ids, server) ==
            FoundIds(ids[..|ids| - 1], server) + (if server(|ids| - 1).Found? then {ids[|ids| - 1]} else {})
    ensures (exists i :: 0 <= i < |ids| && Fails(server(i))) <==>
            (exists i :: 0 <= i < |ids| - 1 && Fails(server(i))) || Fails(server(|ids| - 1))
  {
    var prefix := ids[..|ids| - 1];
    assert forall i :: 0 <= i < |prefix| ==> prefix[i] == ids[i];
  }

  datatype HubPollInput = HubPollInput(
    users: Fetch<seq<UserEntry>>,
    links: Fetch<seq<LinkPayload>>,
    server: nat -> AlbumFetch,
    now: Timestamp)

  datatype HubPollResult = HubPollResult(hub: Hub, events: seq<Event>)

  /** The cycle a poll runs, over the refreshed caches. */
  function PollCycle(h: Hub, input: HubPollInput): Cycle {
    var env := CycleEnv(h.previous, RefreshUsers(h.users, input.users), RefreshCache(h.linkCache, input.links),
                        h.baseUrl, input.now);
    RunCycle(env, h.albumIds, input.server)
  }

  /**
   * `_async_update_data` plus the coordinator's bookkeeping: caches refreshed first; a completed
   * cycle becomes both `data` and `previous`; an aborted one fails the poll and changes neither.
   */
  function Poll(h: Hub, input: HubPollInput): (r: HubPollResult)
    ensures r.hub.users == RefreshUsers(h.users, input.users)
    ensures r.hub.linkCache == RefreshCache(h.linkCache, input.links)
    ensures r.hub.albumIds == h.albumIds && r.hub.baseUrl == h.baseUrl
    ensures r.events == PollCycle(h, input).events
    ensures (exists i :: 0 <= i < |h.albumIds| && Fails(input.server(i))) ==>
              && !r.hub.lastUpdateSuccess && r.hub.data == h.data && r.hub.previous == h.previous
    ensures (forall i :: 0 <= i < |h.albumIds| ==> !Fails(input.server(i))) ==>
              && r.hub.lastUpdateSuccess && r.hub.data.Some?
              && r.hub.data.value.Keys == FoundIds(h.albumIds, input.server)
              && r.hub.previous == r.hub.data.value
    ensures PollCycle(h, input).Completed? ==> r.hub.data == Some(PollCycle(h, input).albums)
  {
    var h1 := h.(users := RefreshUsers(h.users, input.users), linkCache := RefreshCache(h.linkCache, input.links));
    match PollCycle(h, input)
    case Completed(albums, events) =>
      HubPollResult(h1.(data := Some(albums), lastUpdateSuccess := true, previous := albums), events)
    case Aborted(events) => HubPollResult(h1.(lastUpdateSuccess := false), events)
  }

  /** `clear_new_assets_flag(album_id)`: clears that album's snapshot, seen through `data` and `previous` alike. */
  function ClearNewAssetsFlag(h: Hub, albumId: string): (r: Hub)
    ensures !(h.data.Some? && albumId in h.data.value) ==> r == h
    ensures h.data.Some? && albumId in h.data.value ==>
              && r.data == Some(h.data.value[albumId := ClearFlag(h.data.value[albumId])])
              && r.previous == h.previous[albumId := ClearFlag(h.data.value[albumId])]
    ensures r.(data := h.data, previous := h.previous) == h
  {
    match h.data
    case Some(albums) =>
      if albumId in albums then
        var cleared := ClearFlag(albums[albumId]);
        h.(data := Some(albums[albumId := cleared]), previous := h.previous[albumId := cleared])
      else h
    case None => h
  }

  /** `_album_data` of an album's sensors. */
  function AlbumSnapshot(h: Hub, albumId: string): (r: Option<AlbumData>)
    ensures r.Some? <==> h.data.Some? && albumId in h.data.value
    ensures r.Some? ==> r.value == h.data.value[albumId]
  {
    if h.data.Some? && albumId in h.data.value then Some(h.data.value[albumId]) else None
  }

  /** `is_on` of one album's new-assets sensor; a reading past the window clears that album's flag. */
  function IsOn(h: Hub, albumId: string, now: Timestamp): (r: (Option<bool>, Hub))
    ensures r.0 == Reading(AlbumSnapshot(h, albumId), now)
    ensures AlbumSnapshot(h, albumId).Some? && WindowElapsed(AlbumSnapshot(h, albumId).value, now) ==>
              r.1 == ClearNewAssetsFlag(h, albumId)
    ensures !(AlbumSnapshot(h, albumId).Some? && WindowElapsed(AlbumSnapshot(h, albumId).value, now)) ==> r.1 == h
  {
    var a := AlbumSnapshot(h, albumId);
    if a.Some? && WindowElapsed(a.value, now) then (Some(false), ClearNewAssetsFlag(h, albumId))
    else (Reading(a, now), h)
  }

  /** `available` of an album's sensors. */
  function Available(h: Hub, albumId: string): (r: bool)
    ensures r <==> h.lastUpdateSuccess && h.data.Some? && albumId in h.data.value
  {
    h.lastUpdateSuccess && AlbumSnapshot(h, albumId).Some?
  }

  /** Polls, flag clearing and sensor readings keep `data` and `previous` aliased. */
  lemma StepsPreserveAliasing(h: Hub, input: HubPollInput, albumId: string, now: Timestamp)
    requires Aliased(h)
    ensures Aliased(Poll(h, input).hub)
    ensures Aliased(ClearNewAssetsFlag(h, albumId))
    ensures Aliased(IsOn(h, albumId, now).1)
  {
  }

  /**
   * Clearing one album's flag touches no other album: every other album's snapshot, and its
   * sensor reading, is what it was.
   */
  lemma ClearIsPerAlbum(h: Hub, albumId: string, other: string, now: Timestamp)
    requires other != albumId
    ensures AlbumSnapshot(ClearNewAssetsFlag(h, albumId), other) == AlbumSnapshot(h, other)
    ensures IsOn(ClearNewAssetsFlag(h, albumId), other, now).0 == IsOn(h, other, now).0
  {
  }

  /**
   * Unlike the per-album variant, a 404 forgets the album: once a completed poll has skipped
   * it, its next 200 is treated as a first sighting and fires no events, whatever changed.
   */
  lemma NotFoundForgetsAlbum(h: Hub, gone: HubPollInput, back: HubPollInput)
    requires |h.albumIds| == 1
    requires gone.server(0).NotFound? && back.server(0).Found?
    ensures var h1 := Poll(h, gone).hub;
            && h1.lastUpdateSuccess && h1.previous == map[]
            && Poll(h1, back).events == []
            && !Poll(h1, back).hub.data.value[h.albumIds[0]].hasNewAssets
  {
    var h1 := Poll(h, gone).hub;
    assert FoundIds(h.albumIds, gone.server) == {};
    assert !Fails(gone.server(0));
    assert !Fails(back.server(0));
    var env := CycleEnv(h1.previous, RefreshUsers(h1.users, back.users), RefreshCache(h1.linkCache, back.links),
                        h1.baseUrl, back.now);
    assert h1.albumIds[..0] == [];
    assert RunCycle(env, h1.albumIds, back.server) ==
           Completed(map[h.albumIds[0] := ProcessAlbum(env, h.albumIds[0], back.server(0).payload).album],
                     ProcessAlbum(env, h.albumIds[0], back.server(0).payload).events);
  }

  /**
   * Events are never retracted: the events fired while handling the first `k` albums are a
   * prefix of the events of the whole cycle, whether it completes or aborts.
   */
  lemma {:induction false} EventsOnlyGrow(env: CycleEnv, ids: seq<string>, server: nat -> AlbumFetch, k: nat)
    requires k <= |ids|
    ensures RunCycle(env, ids[..k], server).events <= RunCycle(env, ids, server).events
    decreases |ids|
  {
    if k < |ids| {
      var n := |ids| - 1;
      assert ids[..n][..k] == ids[..k];
      EventsOnlyGrow(env, ids[..n], server, k);
      CycleStepGrows(env, ids, server);
    } else {
      assert ids[..k] == ids;
    }
  }

  /** Handling one more album only appends events. */
  lemma CycleStepGrows(env: CycleEnv, ids: seq<string>, server: nat -> AlbumFetch)
    requires |ids| > 0
    ensures RunCycle(env, ids[..|ids| - 1], server).events <= RunCycle(env, ids, server).events
  {
    var r := RunCycle(env, ids[..|ids| - 1], server);
    if r.Completed? && server(|ids| - 1).Found? {
      var p := ProcessAlbum(env, ids[|ids| - 1], server(|ids| - 1).payload);
      assert RunCycle(env, ids, server).events == r.events + p.events;
    }
  }

  /** A one-album cycle whose album answers 200 keeps that album and fires what processing it fires. */
  lemma SingleAlbumCycle(env: CycleEnv, ids: seq<string>, server: nat -> AlbumFetch)
    requires |ids| == 1 && server(0).Found?
    ensures RunCycle(env, ids, server) ==
            Completed(map[ids[0] := ProcessAlbum(env, ids[0], server(0).payload).album],
                      ProcessAlbum(env, ids[0], server(0).payload).events)
  {
    var p := ProcessAlbum(env, ids[0], server(0).payload);
    assert ids[..0] == [];
    assert RunCycle(env, ids[..0], server) == Completed(map[], []);
    assert [] + p.events == p.events;
  }

  /**
   * An abort keeps the events already fired: when the first album changed and the second
   * fails, the first album's events are on the bus although the poll fails and its new
   * snapshot is discarded.
   */
  lemma AbortKeepsEarlierEvents(h: Hub, input: HubPollInput)
    requires |h.albumIds| == 2 && Fails(input.server(1)) && input.server(0).Found?
    requires h.albumIds[0] in h.previous
    requires h.previous[h.albumIds[0]].assetIds != PayloadIds(input.server(0).payload.assets)
    ensures Poll(h, input).events != []
    ensures !Poll(h, input).hub.lastUpdateSuccess && Poll(h, input).hub.previous == h.previous
  {
    var env := CycleEnv(h.previous, RefreshUsers(h.users, input.users), RefreshCache(h.linkCache, input.links),
                        h.baseUrl, input.now);
    var ids := h.albumIds;
    SingleAlbumCycle(env, ids[..1], input.server);
    EventsOnlyGrow(env, ids, input.server, 1);
    assert Fails(input.server(1));
  }

  /** No answer in positions `lo .. hi - 1` aborts the poll. */
  predicate NoFailureIn(server: nat -> AlbumFetch, lo: nat, hi: nat) {
    forall k :: lo <= k < hi ==> !Fails(server(k))
  }

  /** The events one answer fires: those of processing it when it is a 200, none otherwise. */
  function FetchEvents(env: CycleEnv, albumId: string, f: AlbumFetch): seq<Event> {
    if f.Found? then ProcessAlbum(env, albumId, f.payload).events else []
  }

  /** The events each requested album would fire, in request order. */
  function Fired(env: CycleEnv, ids: seq<string>, server: nat -> AlbumFetch): (r: seq<seq<Event>>)
    ensures |r| == |ids|
  {
    seq(|ids|, i requires 0 <= i < |ids| => FetchEvents(env, ids[i], server(i)))
  }

  /** The events of the albums from position `from` on, in request order, up to the first failing answer. */
  function EventsFrom(fired: seq<seq<Event>>, server: nat -> AlbumFetch, from: nat): seq<Event>
    requires from <= |fired|
    decreases |fired| - from
  {
    if from == |fired| || Fails(server(from)) then []
    else fired[from] + EventsFrom(fired, server, from + 1)
  }

  /** How `EventsFrom` grows when one more album is requested at the end. */
  lemma {:induction false} EventsFromSnoc(fired: seq<seq<Event>>, server: nat -> AlbumFetch, from: nat)
    requires from < |fired|
    ensures var n := |fired| - 1;
      EventsFrom(fired, server, from) ==
        EventsFrom(fired[..n], server, from)
        + (if NoFailureIn(server, from, n) && !Fails(server(n)) then fired[n] else [])
    decreases |fired| - from
  {
    var n := |fired| - 1;
    if from < n {
      assert fired[..n][from] == fired[from];
      if !Fails(server(from)) {
        EventsFromSnoc(fired, server, from + 1);
        assert NoFailureIn(server, from, n) <==> NoFailureIn(server, from + 1, n);
      } else {
        assert !NoFailureIn(server, from, n);
      }
    }
  }

  /**
   * The events of a cycle, completed or aborted, are those of the albums handled before the
   * first failing answer, each album's in turn.
   */
  lemma {:induction false} CycleEvents(env: CycleEnv, ids: seq<string>, server: nat -> AlbumFetch)
    ensures RunCycle(env, ids, server).events == EventsFrom(Fired(env, ids, server), server, 0)
    decreases |ids|
  {
    if |ids| > 0 {
      var n := |ids| - 1;
      var fired := Fired(env, ids, server);
      CycleEvents(env, ids[..n], server);
      assert fired[..n] == Fired(env, ids[..n], server);
      EventsFromSnoc(fired, server, 0);
      var prev := RunCycle(env, ids[..n], server);
      assert prev.Completed? <==> NoFailureIn(server, 0, n) by {
        assert |ids[..n]| == n;
      }
      StepEvents(env, prev, ids[n], server(n));
    }
  }

  /** The events one step adds. */
  lemma StepEvents(env: CycleEnv, prev: Cycle, albumId: string, f: AlbumFetch)
    ensures CycleStep(env, prev, albumId, f).events ==
            prev.events + (if prev.Completed? && !Fails(f) then FetchEvents(env, albumId, f) else [])
  {
  }

  /** Position `i` holds the last request for its album that answered 200. */
  predicate LastFoundAt(ids: seq<string>, server: nat -> AlbumFetch, i: nat) {
    i < |ids| && server(i).Found? && forall j :: i < j < |ids| && server(j).Found? ==> ids[j] != ids[i]
  }

  /**
   * A completed cycle keeps, for each album, the snapshot processed from its last 200 answer
   * (a later request for the same id overwrites an earlier one, as the dict assignment does).
   */
  lemma {:induction false} CycleAlbums(env: CycleEnv, ids: seq<string>, server: nat -> AlbumFetch, i: nat)
    requires LastFoundAt(ids, server, i)
    ensures var r := RunCycle(env, ids, server);
      r.Completed? ==> ids[i] in r.albums && r.albums[ids[i]] == ProcessAlbum(env, ids[i], server(i).payload).album
    decreases |ids|
  {
    var n := |ids| - 1;
    var prev := RunCycle(env, ids[..n], server);
    assert RunCycle(env, ids, server) == CycleStep(env, prev, ids[n], server(n));
    if prev.Completed? {
      if i < n {
        assert LastFoundAt(ids[..n], server, i) by {
          assert ids[..n][i] == ids[i];
        }
        CycleAlbums(env, ids[..n], server, i);
        StepKeeps(env, prev, ids[n], server(n), ids[i]);
      } else {
        StepAdds(env, prev, ids[n], server(n));
      }
    }
  }

  /** A 200 answer to a going cycle stores the processed snapshot under the requested id. */
  lemma StepAdds(env: CycleEnv, prev: Cycle, albumId: string, f: AlbumFetch)
    requires prev.Completed? && f.Found?
    ensures var r := CycleStep(env, prev, albumId, f);
      r.Completed? && albumId in r.albums && r.albums[albumId] == ProcessAlbum(env, albumId, f.payload).album
  {
  }

  /** A step that keeps the cycle going leaves every other album's snapshot as it was. */
  lemma StepKeeps(env: CycleEnv, prev: Cycle, albumId: string, f: AlbumFetch, other: string)
    requires prev.Completed? && other in prev.albums
    requires f.Found? ==> other != albumId
    ensures var r := CycleStep(env, prev, albumId, f);
      r.Completed? ==> other in r.albums && r.albums[other] == prev.albums[other]
  {
  }
}

=== FILE: new_assets.dfy ===
/**
 * The "new assets" binary sensor's window, shared by both variants: a snapshot flagged as
 * having new assets reads as on until more than `NEW_ASSETS_RESET_DELAY` seconds have passed
 * since its change time, and the first reading after that clears the flag.
 */
module NewAssets {
  import opened Wrappers
  import opened Snapshot

  const ResetDelaySeconds: int := 300
  const MicrosPerSecond: int := 1_000_000

  /** The window in the model's time unit (microseconds, the resolution of a Python `datetime`). */
  const ResetDelay: int := ResetDelaySeconds * MicrosPerSecond

  /** The reading is past the window: flagged, timed, and strictly more than the delay ago. */
  predicate WindowElapsed(album: AlbumData, now: Timestamp) {
    album.hasNewAssets && album.lastChangeTime.Some? && now - album.lastChangeTime.value > ResetDelay
  }

  /**
   * `is_on`'s value: unknown without a snapshot; off when unflagged or past the window; on
   * otherwise, including a flagged snapshot without a change time.
   */
  function Reading(album: Option<AlbumData>, now: Timestamp): (r: Option<bool>)
    ensures r.None? <==> album.None?
    ensures r == Some(true) <==>
              album.Some? && album.value.hasNewAssets &&
              (album.value.lastChangeTime.None? || now <= album.value.lastChangeTime.value + ResetDelay)
  {
    match album
    case None => None
    case Some(a) =>
      if !a.hasNewAssets then Some(false)
      else if a.lastChangeTime.Some? && now - a.lastChangeTime.value > ResetDelay then Some(false)
      else Some(true)
  }

  /** Exactly `NEW_ASSETS_RESET_DELAY` seconds after the change the sensor still reads on; one microsecond later it reads off. */
  lemma WindowBoundary(album: AlbumData, t: Timestamp)
    requires album.hasNewAssets && album.lastChangeTime == Some(t)
    ensures Reading(Some(album), t + 300 * 1_000_000) == Some(true)
    ensures !WindowElapsed(album, t + 300 * 1_000_000)
    ensures Reading(Some(album), t + 300 * 1_000_000 + 1) == Some(false)
    ensures WindowElapsed(album, t + 300 * 1_000_000 + 1)
  {
  }

  /** A cleared snapshot reads off at every instant and is never past the window again. */
  lemma ClearedReadsOff(album: AlbumData, now: Timestamp)
    ensures Reading(Some(ClearFlag(album)), now) == Some(false)
    ensures !WindowElapsed(ClearFlag(album), now)
  {
  }
}

=== FILE: recent.dfy ===
/**
 * `async_get_recent_assets` of both coordinators: the album's assets sorted newest first by
 * their `created_at` string (Python's stable `sorted(..., reverse=True)`), cut to `[:count]`.
 */
module Recent {
  import opened Wrappers
  import opened Snapshot
  import opened SharedLinks
  import opened Events

  /** Python's `<` on `str`: code point by code point, a proper prefix sorting first. */
  predicate StrLt(a: string, b: string)
    decreases |a|
  {
    |b| > 0 && (|a| == 0 || a[0] < b[0] || (a[0] == b[0] && StrLt(a[1..], b[1..])))
  }

  predicate StrLe(a: string, b: string) {
    a == b || StrLt(a, b)
  }

  lemma {:induction false} StrLtIrreflexive(a: string)
    ensures !StrLt(a, a)
    decreases |a|
  {
    if |a| > 0 {
      StrLtIrreflexive(a[1..]);
    }
  }

  lemma {:induction false} StrLtTransitive(a: string, b: string, c: string)
    requires StrLt(a, b) && StrLt(b, c)
    ensures StrLt(a, c)
    decreases |a|
  {
    if |a| > 0 && a[0] == b[0] && b[0] == c[0] {
      StrLtTransitive(a[1..], b[1..], c[1..]);
    }
  }

  /** Any two different strings are ordered one way. */
  lemma {:induction false} StrLtTotal(a: string, b: string)
    requires a != b
    ensures StrLt(a, b) || StrLt(b, a)
    decreases |a|
  {
    if |a| > 0 && |b| > 0 && a[0] == b[0] {
      StrLtTotal(a[1..], b[1..]);
    }
  }

  lemma StrLeTransitive(a: string, b: string, c: string)
    requires StrLe(a, b) && StrLe(b, c)
    ensures StrLe(a, c)
  {
    if a != b && b != c {
      StrLtTransitive(a, b, c);
    }
  }

  /** Newest first: no asset is older than one after it. */
  predicate SortedDesc(s: seq<AssetInfo>) {
    forall i, j :: 0 <= i < j < |s| ==> StrLe(s[j].createdAt, s[i].createdAt)
  }

  /** No asset of `s` is newer than `bound`. */
  predicate AllAtMost(s: seq<AssetInfo>, bound: string) {
    forall i :: 0 <= i < |s| ==> StrLe(s[i].createdAt, bound)
  }

  /**
   * Places `x` after every asset at least as new as it: inserting the input's assets in input
   * order keeps assets with equal dates in input order.
   */
  function Insert(x: AssetInfo, s: seq<AssetInfo>): (r: seq<AssetInfo>)
    ensures multiset(r) == multiset(s) + multiset{x}
    ensures |r| == |s| + 1
    decreases |s|
  {
    if |s| == 0 then [x]
    else if StrLe(x.createdAt, s[0].createdAt) then
      assert s == [s[0]] + s[1..];
      [s[0]] + Insert(x, s[1..])
    else [x] + s
  }

  /** Inserting an asset no newer than `bound` into assets no newer than `bound`. */
  lemma {:induction false} InsertBound(x: AssetInfo, s: seq<AssetInfo>, bound: string)
    requires AllAtMost(s, bound) && StrLe(x.createdAt, bound)
    ensures AllAtMost(Insert(x, s), bound)
    decreases |s|
  {
    if |s| > 0 && StrLe(x.createdAt, s[0].createdAt) {
      InsertBound(x, s[1..], bound);
      var r := Insert(x, s);
      assert r == [s[0]] + Insert(x, s[1..]);
      forall i | 0 <= i < |r| ensures StrLe(r[i].createdAt, bound) {
        if i > 0 {
          assert r[i] == Insert(x, s[1..])[i - 1];
        }
      }
    }
  }

  lemma {:induction false} InsertSorted(x: AssetInfo, s: seq<AssetInfo>)
    requires SortedDesc(s)
    ensures SortedDesc(Insert(x, s))
    decreases |s|
  {
    if |s| > 0 {
      if StrLe(x.createdAt, s[0].createdAt) {
        InsertSorted(x, s[1..]);
        assert AllAtMost(s[1..], s[0].createdAt);
        InsertBound(x, s[1..], s[0].createdAt);
      } else {
        StrLtTotal(x.createdAt, s[0].createdAt);
        forall j | 0 <= j < |s|
          ensures StrLe(s[j].createdAt, x.createdAt)
        {
          StrLeTransitive(s[j].createdAt, s[0].createdAt, x.createdAt);
        }
      }
    }
  }

  /** `sorted(values, key=created_at, reverse=True)`, by insertion in input order. */
  function SortNewestFirst(s: seq<AssetInfo>): (r: seq<AssetInfo>)
    ensures multiset(r) == multiset(s)
    ensures |r| == |s|
    decreases |s|
  {
    if |s| == 0 then []
    else
      assert s == s[..|s| - 1] + [s[|s| - 1]];
      Insert(s[|s| - 1], SortNewestFirst(s[..|s| - 1]))
  }

  lemma {:induction false} SortIsSorted(s: seq<AssetInfo>)
    ensures SortedDesc(SortNewestFirst(s))
    decreases |s|
  {
    if |s| > 0 {
      SortIsSorted(s[..|s| - 1]);
      InsertSorted(s[|s| - 1], SortNewestFirst(s[..|s| - 1]));
    }
  }

  /** The assets of `s` created at exactly `date`, in order. */
  function WithDate(s: seq<AssetInfo>, date: string): (r: seq<AssetInfo>)
    ensures |r| <= |s|
    decreases |s|
  {
    if |s| == 0 then []
    else (if s[0].createdAt == date then [s[0]] else []) + WithDate(s[1..], date)
  }

  lemma {:induction false} WithDateAppend(a: seq<AssetInfo>, b: seq<AssetInfo>, date: string)
    ensures WithDate(a + b, date) == WithDate(a, date) + WithDate(b, date)
    decreases |a|
  {
    if |a| > 0 {
      assert (a + b)[1..] == a[1..] + b;
      WithDateAppend(a[1..], b, date);
      assert WithDate(a + b, date) == (if a[0].createdAt == date then [a[0]] else []) + WithDate(a[1..] + b, date);
    } else {
      assert a + b == b;
    }
  }

  lemma {:induction false} WithDateNone(s: seq<AssetInfo>, date: string)
    requires forall i :: 0 <= i < |s| ==> StrLt(s[i].createdAt, date)
    ensures WithDate(s, date) == []
    decreases |s|
  {
    if |s| > 0 {
      StrLtIrreflexive(date);
      WithDateNone(s[1..], date);
    }
  }

  /** The same-date assets of one asset. */
  lemma WithDateOne(x: AssetInfo, date: string)
    ensures WithDate([x], date) == if x.createdAt == date then [x] else []
  {
    assert [x][1..] == [];
  }

  /** The same-date assets of a list with one more asset in front. */
  lemma WithDateCons(x: AssetInfo, s: seq<AssetInfo>, date: string)
    ensures WithDate([x] + s, date) == (if x.createdAt == date then [x] else []) + WithDate(s, date)
  {
    WithDateAppend([x], s, date);
    WithDateOne(x, date);
  }

  lemma SortedTail(s: seq<AssetInfo>)
    requires |s| > 0 && SortedDesc(s)
    ensures SortedDesc(s[1..])
  {
  }

  /** In a sorted list, nothing is newer than its first asset. */
  lemma SortedHeadNewest(s: seq<AssetInfo>, date: string)
    requires |s| > 0 && SortedDesc(s) && StrLt(s[0].createdAt, date)
    ensures forall i :: 0 <= i < |s| ==> StrLt(s[i].createdAt, date)
  {
    forall i | 0 <= i < |s|
      ensures StrLt(s[i].createdAt, date)
    {
      if s[i].createdAt != s[0].createdAt {
        StrLtTransitive(s[i].createdAt, s[0].createdAt, date);
      }
    }
  }

  /** Inserting into a sorted list puts `x` after every asset with its date. */
  lemma {:induction false} InsertStable(x: AssetInfo, s: seq<AssetInfo>, date: string)
    requires SortedDesc(s)
    ensures WithDate(Insert(x, s), date) == WithDate(s, date) + (if x.createdAt == date then [x] else [])
    decreases |s|
  {
    var mine := if x.createdAt == date then [x] else [];
    if |s| == 0 {
      WithDateOne(x, date);
    } else if StrLe(x.createdAt, s[0].createdAt) {
      var head := if s[0].createdAt == date then [s[0]] else [];
      SortedTail(s);
      InsertStable(x, s[1..], date);
      calc {
        WithDate(Insert(x, s), date);
        WithDate([s[0]] + Insert(x, s[1..]), date);
        { WithDateCons(s[0], Insert(x, s[1..]), date); }
        head + WithDate(Insert(x, s[1..]), date);
        head + (WithDate(s[1..], date) + mine);
        WithDate(s, date) + mine;
      }
    } else {
      WithDateCons(x, s, date);
      if x.createdAt == date {
        StrLtTotal(x.createdAt, s[0].createdAt);
        SortedHeadNewest(s, date);
        WithDateNone(s, date);
      }
    }
  }

  /** One more input asset is inserted into the sorted rest. */
  lemma SortLast(s: seq<AssetInfo>)
    requires |s| > 0
    ensures SortNewestFirst(s) == Insert(s[|s| - 1], SortNewestFirst(s[..|s| - 1]))
  {
  }

  lemma SplitLast(s: seq<AssetInfo>)
    requires |s| > 0
    ensures s[..|s| - 1] + [s[|s| - 1]] == s
  {
  }

  /** The same-date assets of a list with one more asset at the end. */
  lemma WithDateLast(init: seq<AssetInfo>, last: AssetInfo, date: string)
    ensures WithDate(init + [last], date) == WithDate(init, date) + (if last.createdAt == date then [last] else [])
  {
    WithDateAppend(init, [last], date);
    assert [last][1..] == [];
  }

  /**
   * The sort is stable: for every date, the assets created at that date appear in the sorted
   * list in the order they had in the input.
   */
  lemma {:induction false} SortIsStable(s: seq<AssetInfo>, date: string)
    ensures WithDate(SortNewestFirst(s), date) == WithDate(s, date)
    decreases |s|
  {
    if |s| > 0 {
      var init := s[..|s| - 1];
      var last := s[|s| - 1];
      var tail := if last.createdAt == date then [last] else [];
      SortIsStable(init, date);
      SortIsSorted(init);
      calc {
        WithDate(SortNewestFirst(s), date);
        { SortLast(s); }
        WithDate(Insert(last, SortNewestFirst(init)), date);
        { InsertStable(last, SortNewestFirst(init), date); }
        WithDate(SortNewestFirst(init), date) + tail;
        WithDate(init, date) + tail;
        { WithDateLast(init, last, date); }
        WithDate(init + [last], date);
        { SplitLast(s); }
        WithDate(s, date);
      }
    }
  }

  /** The length of `s[:count]` for a list of length `n` (a negative count drops from the end). */
  function SliceLength(n: nat, count: int): (k: nat)
    ensures k <= n
    ensures count >= 0 ==> k == if count < n then count else n
    ensures count < 0 ==> k == if n + count > 0 then n + count else 0
  {
    if count >= 0 then (if count < n then count else n)
    else if n + count > 0 then n + count else 0
  }

  /** A prefix of the sorted list: sorted, and made of the input's assets. */
  lemma SortedPrefix(s: seq<AssetInfo>, k: nat)
    requires k <= |s|
    ensures var p := SortNewestFirst(s)[..k];
      multiset(p) <= multiset(s) && SortedDesc(p) && forall i :: 0 <= i < k ==> p[i] in multiset(s)
  {
    var sorted := SortNewestFirst(s);
    SortIsSorted(s);
    assert sorted == sorted[..k] + sorted[k..];
    assert multiset(sorted) == multiset(sorted[..k]) + multiset(sorted[k..]);
  }

  lemma InAlbum(album: AlbumData, x: AssetInfo)
    requires x in multiset(AssetValues(album))
    ensures x in album.assets.Values
  {
    var j :| 0 <= j < |AssetValues(album)| && AssetValues(album)[j] == x;
  }

  /** The assets a recent-assets call returns: the newest `[:count]` of the album, newest first. */
  function RecentAssets(album: AlbumData, count: int): (r: seq<AssetInfo>)
    ensures |r| == SliceLength(|AssetValues(album)|, count)
    ensures multiset(r) <= multiset(AssetValues(album))
    ensures SortedDesc(r)
    ensures forall i :: 0 <= i < |r| ==> r[i] in album.assets.Values
  {
    var k := SliceLength(|AssetValues(album)|, count);
    SortedPrefix(AssetValues(album), k);
    var r := SortNewestFirst(AssetValues(album))[..k];
    forall i | 0 <= i < k ensures r[i] in album.assets.Values {
      InAlbum(album, r[i]);
    }
    r
  }

  /** What is left out is never newer than what is returned. */
  lemma RecentIsNewest(album: AlbumData, count: int)
    ensures var sorted := SortNewestFirst(AssetValues(album));
            var r := RecentAssets(album, count);
            && r == sorted[..|r|]
            && forall i, j :: 0 <= i < |r| <= j < |sorted| ==> StrLe(sorted[j].createdAt, r[i].createdAt)
  {
    SortIsSorted(AssetValues(album));
  }

  /** One entry of the per-album result. */
  datatype RecentEntry = RecentEntry(
    id: AssetId,
    assetType: string,
    filename: string,
    createdAt: string,
    description: string,
    people: seq<string>,
    extras: Option<Extras>,
    thumbnailUrl: string,
    videoUrl: Option<string>)

  function ThumbnailUrl(baseUrl: string, assetId: AssetId): string {
    baseUrl + "/api/assets/" + assetId + "/thumbnail"
  }

  /**
   * The per-album variant: empty without a snapshot; each entry carries the favourite flag and
   * rating, and a video also carries its playback URL when the album has a usable link.
   */
  function AlbumRecentEntries(data: Option<AlbumData>, count: int, ctx: LinkContext): (r: seq<RecentEntry>)
    ensures data.None? ==> r == []
    ensures data.Some? ==> |r| == |RecentAssets(data.value, count)|
    ensures data.Some? ==> forall i :: 0 <= i < |r| ==>
              var a := RecentAssets(data.value, count)[i];
              && r[i].id == a.id && r[i].createdAt == a.createdAt
              && r[i].assetType == a.assetType && r[i].filename == a.filename
              && r[i].description == a.description && r[i].people == a.people
              && r[i].extras == Some(Extras(a.isFavorite, a.rating))
              && r[i].thumbnailUrl == ThumbnailUrl(ctx.baseUrl, a.id)
              && (r[i].videoUrl.Some? <==> a.assetType == AssetTypeVideo && PreferredLink(ctx.links, ctx.now).Some?)
              && (r[i].videoUrl.Some? ==> r[i].videoUrl == AssetVideoUrl(ctx.baseUrl, ctx.links, ctx.now, a.id))
  {
    match data
    case None => []
    case Some(album) =>
      var assets := RecentAssets(album, count);
      seq(|assets|, i requires 0 <= i < |assets| =>
        var a := assets[i];
        RecentEntry(a.id, a.assetType, a.filename, a.createdAt, a.description, a.people,
                    Some(Extras(a.isFavorite, a.rating)), ThumbnailUrl(ctx.baseUrl, a.id),
                    if a.assetType == AssetTypeVideo then AssetVideoUrl(ctx.baseUrl, ctx.links, ctx.now, a.id) else None))
  }

  /** The multi-album variant: empty for an unknown album; no favourite flag, rating or video URL. */
  function HubRecentEntries(album: Option<AlbumData>, count: int, baseUrl: string): (r: seq<RecentEntry>)
    ensures album.None? ==> r == []
    ensures album.Some? ==> |r| == |RecentAssets(album.value, count)|
    ensures album.Some? ==> forall i :: 0 <= i < |r| ==>
              var a := RecentAssets(album.value, count)[i];
              && r[i].id == a.id && r[i].createdAt == a.createdAt
              && r[i].assetType == a.assetType && r[i].filename == a.filename
              && r[i].description == a.description && r[i].people == a.people
              && r[i].extras.None? && r[i].videoUrl.None?
              && r[i].thumbnailUrl == ThumbnailUrl(baseUrl, a.id)
  {
    match album
    case None => []
    case Some(al) =>
      var assets := RecentAssets(al, count);
      seq(|assets|, i requires 0 <= i < |assets| =>
        var a := assets[i];
        RecentEntry(a.id, a.assetType, a.filename, a.createdAt, a.description, a.people,
                    None, ThumbnailUrl(baseUrl, a.id), None))
  }
}

=== FILE: seqs.dfy ===
/**
 * Order-preserving filtering and "first match" search over sequences: the shape of every
 * list comprehension `[x for x in xs if p(x)]` and every `xs[0] if xs else None` in the
 * resolvers.
 */
module Seqs {
  import opened Wrappers

  /** The elements of `s` that satisfy `p`, in their original order. */
  function Filter<T>(s: seq<T>, p: T -> bool): (r: seq<T>)
    ensures |r| <= |s|
    ensures forall i :: 0 <= i < |r| ==> r[i] in s && p(r[i])
    ensures forall i :: 0 <= i < |s| && p(s[i]) ==> s[i] in r
    decreases |s|
  {
    if |s| == 0 then []
    else if p(s[0]) then [s[0]] + Filter(s[1..], p)
    else Filter(s[1..], p)
  }

  /** Filtering keeps the order: the kept elements of two stretches are those of the first, then those of the second. */
  lemma {:induction false} FilterAppend<T>(a: seq<T>, b: seq<T>, p: T -> bool)
    ensures Filter(a + b, p) == Filter(a, p) + Filter(b, p)
    decreases |a|
  {
    if |a| == 0 {
      assert a + b == b;
    } else {
      var head := if p(a[0]) then [a[0]] else [];
      assert (a + b)[0] == a[0] && (a + b)[1..] == a[1..] + b;
      calc {
        Filter(a + b, p);
        head + Filter(a[1..] + b, p);
        { FilterAppend(a[1..], b, p); }
        head + (Filter(a[1..], p) + Filter(b, p));
        (head + Filter(a[1..], p)) + Filter(b, p);
        Filter(a, p) + Filter(b, p);
      }
    }
  }

  /** Index of the first element of `s` satisfying `p`. */
  function FirstIndex<T>(s: seq<T>, p: T -> bool): (r: Option<nat>)
    ensures r.Some? ==> r.value < |s| && p(s[r.value]) && forall j :: 0 <= j < r.value ==> !p(s[j])
    ensures r.None? <==> forall j :: 0 <= j < |s| ==> !p(s[j])
    decreases |s|
  {
    if |s| == 0 then None
    else if p(s[0]) then Some(0)
    else match FirstIndex(s[1..], p)
      case None => None
      case Some(i) => Some(i + 1)
  }

  /** The head of a filtered list is the first matching element, and the list is empty exactly when nothing matches. */
  lemma {:induction false} FilterHead<T>(s: seq<T>, p: T -> bool)
    ensures |Filter(s, p)| > 0 <==> FirstIndex(s, p).Some?
    ensures |Filter(s, p)| > 0 ==> Filter(s, p)[0] == s[FirstIndex(s, p).value]
    decreases |s|
  {
    if |s| > 0 && !p(s[0]) {
      FilterHead(s[1..], p);
    }
  }
}

=== FILE: shared_links.dfy ===
/**
 * Shared links and the resolver that turns an album's links into URLs, a password and link ids
 * (`SharedLinkInfo` and the `_get_*_links` / `get_*_url` getters of both coordinators). Every
 * resolver is a pure function of the link list and the current time.
 */
module SharedLinks {
  import opened Wrappers
  import opened Seqs
  import opened Api
  import Snapshot

  type Timestamp = Snapshot.Timestamp

  /**
   * One entry of `/api/shared-links`. `key` and `password` are `""` when missing or null;
   * `albumId` is the id of the linked album, `None` when `album` is missing or empty or has no
   * id; `expiresAt` is `None` when the key is missing, empty or not ISO-8601.
   */
  datatype LinkPayload = LinkPayload(
    id: string,
    key: string,
    albumId: Option<string>,
    password: string,
    expiresAt: Option<Timestamp>,
    allowDownload: Option<bool>,
    showMetadata: Option<bool>)

  datatype SharedLink = SharedLink(
    id: string,
    key: string,
    hasPassword: bool,
    password: Option<string>,
    expiresAt: Option<Timestamp>,
    allowDownload: bool,
    showMetadata: bool)

  /** `SharedLinkInfo.from_api_response`. */
  function LinkFromApi(p: LinkPayload): (l: SharedLink)
    ensures l.hasPassword <==> p.password != ""
    ensures l.password.Some? <==> l.hasPassword
    ensures l.password.Some? ==> l.password.value == p.password
    ensures l.id == p.id && l.key == p.key && l.expiresAt == p.expiresAt
  {
    SharedLink(
      p.id,
      p.key,
      p.password != "",
      if p.password != "" then Some(p.password) else None,
      p.expiresAt,
      p.allowDownload.GetOr(true),
      p.showMetadata.GetOr(true))
  }

  /** `is_expired`: only a link with an expiry can expire, strictly after that instant. */
  predicate IsExpired(l: SharedLink, now: Timestamp) {
    l.expiresAt.Some? && now > l.expiresAt.value
  }

  /** `is_accessible`: no password and not expired. */
  predicate IsAccessible(l: SharedLink, now: Timestamp) {
    !l.hasPassword && !IsExpired(l, now)
  }

  predicate IsProtected(l: SharedLink, now: Timestamp) {
    l.hasPassword && !IsExpired(l, now)
  }

  function AccessibleP(now: Timestamp): SharedLink -> bool {
    l => IsAccessible(l, now)
  }

  function ProtectedP(now: Timestamp): SharedLink -> bool {
    l => IsProtected(l, now)
  }

  function NonExpiredP(now: Timestamp): SharedLink -> bool {
    l => !IsExpired(l, now)
  }

  /** `_get_accessible_links`. */
  function AccessibleLinks(links: seq<SharedLink>, now: Timestamp): (r: seq<SharedLink>)
    ensures forall i :: 0 <= i < |r| ==> r[i] in links && !r[i].hasPassword && !IsExpired(r[i], now)
    ensures forall i :: 0 <= i < |links| && IsAccessible(links[i], now) ==> links[i] in r
  {
    Filter(links, AccessibleP(now))
  }

  /** `_get_protected_links` / `_get_protected_only_links`. */
  function ProtectedLinks(links: seq<SharedLink>, now: Timestamp): (r: seq<SharedLink>)
    ensures forall i :: 0 <= i < |r| ==> r[i] in links && r[i].hasPassword && !IsExpired(r[i], now)
    ensures forall i :: 0 <= i < |links| && IsProtected(links[i], now) ==> links[i] in r
  {
    Filter(links, ProtectedP(now))
  }

  /** `_get_non_expired_links`. */
  function NonExpiredLinks(links: seq<SharedLink>, now: Timestamp): (r: seq<SharedLink>)
    ensures forall i :: 0 <= i < |r| ==> r[i] in links && !IsExpired(r[i], now)
    ensures forall i :: 0 <= i < |links| && !IsExpired(links[i], now) ==> links[i] in r
  {
    Filter(links, NonExpiredP(now))
  }

  /** `lst[0] if lst else None` over a filtered list. */
  function Head(s: seq<SharedLink>): Option<SharedLink> {
    if |s| > 0 then Some(s[0]) else None
  }

  /** Position `i` holds the first link of `links` that satisfies `p`. */
  predicate FirstAt(links: seq<SharedLink>, p: SharedLink -> bool, i: nat) {
    i < |links| && p(links[i]) && forall j :: 0 <= j < i ==> !p(links[j])
  }

  /** The head of `Filter(links, p)` is the first link satisfying `p`, and is absent only when none does. */
  lemma HeadIsFirst(links: seq<SharedLink>, p: SharedLink -> bool)
    ensures Head(Filter(links, p)).None? <==> forall j :: 0 <= j < |links| ==> !p(links[j])
    ensures Head(Filter(links, p)).Some? ==>
              exists i: nat :: FirstAt(links, p, i) && Head(Filter(links, p)).value == links[i]
  {
    FilterHead(links, p);
    var k := FirstIndex(links, p);
    if k.Some? {
      assert FirstAt(links, p, k.value);
    }
  }

  /** The link the "any URL" resolvers use: the first accessible one, else the first non-expired one. */
  function PreferredLink(links: seq<SharedLink>, now: Timestamp): (r: Option<SharedLink>)
    ensures r.None? <==> forall j :: 0 <= j < |links| ==> IsExpired(links[j], now)
    ensures r.Some? && (exists j :: 0 <= j < |links| && IsAccessible(links[j], now)) ==>
              exists i: nat :: FirstAt(links, AccessibleP(now), i) && r.value == links[i]
    ensures r.Some? && (forall j :: 0 <= j < |links| ==> !IsAccessible(links[j], now)) ==>
              exists i: nat :: FirstAt(links, NonExpiredP(now), i) && r.value == links[i]
  {
    HeadIsFirst(links, AccessibleP(now));
    HeadIsFirst(links, NonExpiredP(now));
    var accessible := AccessibleLinks(links, now);
    if |accessible| > 0 then Some(accessible[0]) else Head(NonExpiredLinks(links, now))
  }

  /** `{url}/share/{key}`. */
  function ShareUrl(baseUrl: string, key: string): string {
    baseUrl + "/share/" + key
  }

  /** `get_public_url` / `get_album_public_url`: the first accessible link's URL. */
  function PublicUrl(baseUrl: string, links: seq<SharedLink>, now: Timestamp): (r: Option<string>)
    ensures r.None? <==> forall j :: 0 <= j < |links| ==> !IsAccessible(links[j], now)
    ensures r.Some? ==> exists i: nat :: FirstAt(links, AccessibleP(now), i) && r.value == ShareUrl(baseUrl, links[i].key)
  {
    HeadIsFirst(links, AccessibleP(now));
    match Head(AccessibleLinks(links, now))
    case Some(l) => Some(ShareUrl(baseUrl, l.key))
    case None => None
  }

  /** `get_any_url` / `get_album_any_url`: the preferred link's URL; absent only when every link has expired. */
  function AnyUrl(baseUrl: string, links: seq<SharedLink>, now: Timestamp): (r: Option<string>)
    ensures r.None? <==> forall j :: 0 <= j < |links| ==> IsExpired(links[j], now)
    ensures r.Some? ==> r.value == ShareUrl(baseUrl, PreferredLink(links, now).value.key)
  {
    match PreferredLink(links, now)
    case Some(l) => Some(ShareUrl(baseUrl, l.key))
    case None => None
  }

  /** The first protected (password, not expired) link. */
  function FirstProtected(links: seq<SharedLink>, now: Timestamp): (r: Option<SharedLink>)
    ensures r.None? <==> forall j :: 0 <= j < |links| ==> !IsProtected(links[j], now)
    ensures r.Some? ==> exists i: nat :: FirstAt(links, ProtectedP(now), i) && r.value == links[i]
  {
    HeadIsFirst(links, ProtectedP(now));
    Head(ProtectedLinks(links, now))
  }

  /** `get_protected_url` / `get_album_protected_url`. */
  function ProtectedUrl(baseUrl: string, links: seq<SharedLink>, now: Timestamp): (r: Option<string>)
    ensures r.None? <==> FirstProtected(links, now).None?
    ensures r.Some? ==> r.value == ShareUrl(baseUrl, FirstProtected(links, now).value.key)
  {
    match FirstProtected(links, now)
    case Some(l) => Some(ShareUrl(baseUrl, l.key))
    case None => None
  }

  /** `get_protected_password` / `get_album_protected_password`: the password of that same first protected link. */
  function ProtectedPassword(links: seq<SharedLink>, now: Timestamp): (r: Option<string>)
    ensures r.Some? ==> FirstProtected(links, now).Some? && FirstProtected(links, now).value.password == r && r.value != ""
    ensures (FirstProtected(links, now).Some? && FirstProtected(links, now).value.password.Some? &&
             FirstProtected(links, now).value.password.value != "") ==> r.Some?
  {
    match FirstProtected(links, now)
    case Some(l) => if l.password.Some? && l.password.value != "" then l.password else None
    case None => None
  }

  /** `get_protected_link_id` / `get_album_protected_link_id`. */
  function ProtectedLinkId(links: seq<SharedLink>, now: Timestamp): (r: Option<string>)
    ensures r.None? <==> FirstProtected(links, now).None?
    ensures r.Some? ==> r.value == FirstProtected(links, now).value.id
  {
    match FirstProtected(links, now)
    case Some(l) => Some(l.id)
    case None => None
  }

  /** `get_unprotected_link_id`: the first accessible link's id. */
  function UnprotectedLinkId(links: seq<SharedLink>, now: Timestamp): (r: Option<string>)
    ensures r.None? <==> forall j :: 0 <= j < |links| ==> !IsAccessible(links[j], now)
    ensures r.Some? ==> exists i: nat :: FirstAt(links, AccessibleP(now), i) && r.value == links[i].id
  {
    HeadIsFirst(links, AccessibleP(now));
    match Head(AccessibleLinks(links, now))
    case Some(l) => Some(l.id)
    case None => None
  }

  /** `has_unprotected_link`. */
  function HasUnprotectedLink(links: seq<SharedLink>, now: Timestamp): (r: bool)
    ensures r <==> exists j :: 0 <= j < |links| && IsAccessible(links[j], now)
  {
    HeadIsFirst(links, AccessibleP(now));
    |AccessibleLinks(links, now)| > 0
  }

  /** `has_protected_link`. */
  function HasProtectedLink(links: seq<SharedLink>, now: Timestamp): (r: bool)
    ensures r <==> exists j :: 0 <= j < |links| && IsProtected(links[j], now)
  {
    HeadIsFirst(links, ProtectedP(now));
    |ProtectedLinks(links, now)| > 0
  }

  function ShareUrls(baseUrl: string, links: seq<SharedLink>): (r: seq<string>)
    ensures |r| == |links|
    ensures forall i :: 0 <= i < |r| ==> r[i] == ShareUrl(baseUrl, links[i].key)
  {
    seq(|links|, i requires 0 <= i < |links| => ShareUrl(baseUrl, links[i].key))
  }

  /** `get_public_urls` / `get_album_public_urls`: one URL per accessible link, in list order. */
  function PublicUrls(baseUrl: string, links: seq<SharedLink>, now: Timestamp): (r: seq<string>)
    ensures |r| == |AccessibleLinks(links, now)|
    ensures forall i :: 0 <= i < |r| ==> r[i] == ShareUrl(baseUrl, AccessibleLinks(links, now)[i].key)
    ensures |r| > 0 ==> Some(r[0]) == PublicUrl(baseUrl, links, now)
  {
    ShareUrls(baseUrl, AccessibleLinks(links, now))
  }

  /** `get_protected_urls` / `get_album_protected_urls`: one URL per protected link, in list order. */
  function ProtectedUrls(baseUrl: string, links: seq<SharedLink>, now: Timestamp): (r: seq<string>)
    ensures |r| == |ProtectedLinks(links, now)|
    ensures forall i :: 0 <= i < |r| ==> r[i] == ShareUrl(baseUrl, ProtectedLinks(links, now)[i].key)
    ensures |r| > 0 ==> Some(r[0]) == ProtectedUrl(baseUrl, links, now)
  {
    ShareUrls(baseUrl, ProtectedLinks(links, now))
  }

  /** `_get_asset_public_url`: the asset's page under the preferred link. */
  function AssetPublicUrl(baseUrl: string, links: seq<SharedLink>, now: Timestamp, assetId: string): (r: Option<string>)
    ensures r.None? <==> AnyUrl(baseUrl, links, now).None?
    ensures r.Some? ==> r.value == AnyUrl(baseUrl, links, now).value + "/photos/" + assetId
  {
    match PreferredLink(links, now)
    case Some(l) => Some(ShareUrl(baseUrl, l.key) + "/photos/" + assetId)
    case None => None
  }

  /** `_get_asset_download_url`: the original file, authorised by the preferred link's key. */
  function AssetDownloadUrl(baseUrl: string, links: seq<SharedLink>, now: Timestamp, assetId: string): (r: Option<string>)
    ensures r.None? <==> PreferredLink(links, now).None?
    ensures r.Some? ==> r.value == baseUrl + "/api/assets/" + assetId + "/original?key=" + PreferredLink(links, now).value.key
  {
    match PreferredLink(links, now)
    case Some(l) => Some(baseUrl + "/api/assets/" + assetId + "/original?key=" + l.key)
    case None => None
  }

  /** `_get_asset_video_url`: the transcoded playback stream, authorised by the preferred link's key. */
  function AssetVideoUrl(baseUrl: string, links: seq<SharedLink>, now: Timestamp, assetId: string): (r: Option<string>)
    ensures r.None? <==> PreferredLink(links, now).None?
    ensures r.Some? ==> r.value == baseUrl + "/api/assets/" + assetId + "/video/playback?key=" + PreferredLink(links, now).value.key
  {
    match PreferredLink(links, now)
    case Some(l) => Some(baseUrl + "/api/assets/" + assetId + "/video/playback?key=" + l.key)
    case None => None
  }

  /** One row of `get_shared_links_info`. */
  datatype LinkInfo = LinkInfo(
    url: string, hasPassword: bool, isExpired: bool, expiresAt: Option<Timestamp>, isAccessible: bool)

  /** `get_shared_links_info` / `get_album_shared_links_info`. */
  function LinksInfo(baseUrl: string, links: seq<SharedLink>, now: Timestamp): (r: seq<LinkInfo>)
    ensures |r| == |links|
    ensures forall i :: 0 <= i < |r| ==>
              r[i].url == ShareUrl(baseUrl, links[i].key) &&
              r[i].hasPassword == links[i].hasPassword &&
              r[i].expiresAt == links[i].expiresAt &&
              (r[i].isExpired <==> links[i].expiresAt.Some? && now > links[i].expiresAt.value)
    ensures forall i :: 0 <= i < |r| ==> r[i].isAccessible == (!r[i].hasPassword && !r[i].isExpired)
  {
    seq(|links|, i requires 0 <= i < |links| =>
      LinkInfo(ShareUrl(baseUrl, links[i].key), links[i].hasPassword, IsExpired(links[i], now),
               links[i].expiresAt, IsAccessible(links[i], now)))
  }

  /** The URLs of the rows of a `get_shared_links_info` table that `keep` selects, in table order. */
  function RowUrls(rows: seq<LinkInfo>, keep: LinkInfo -> bool): seq<string>
    decreases |rows|
  {
    if |rows| == 0 then []
    else (if keep(rows[0]) then [rows[0].url] else []) + RowUrls(rows[1..], keep)
  }

  /**
   * The info table agrees with the URL resolvers: its rows flagged accessible carry exactly the
   * public URLs, and its rows with a password that are not expired exactly the protected URLs,
   * both in list order.
   */
  lemma {:induction false} LinksInfoAgreesWithUrls(baseUrl: string, links: seq<SharedLink>, now: Timestamp)
    ensures RowUrls(LinksInfo(baseUrl, links, now), (row: LinkInfo) => row.isAccessible) == PublicUrls(baseUrl, links, now)
    ensures RowUrls(LinksInfo(baseUrl, links, now), (row: LinkInfo) => row.hasPassword && !row.isExpired)
            == ProtectedUrls(baseUrl, links, now)
    decreases |links|
  {
    if |links| > 0 {
      var rows := LinksInfo(baseUrl, links, now);
      assert rows[1..] == LinksInfo(baseUrl, links[1..], now);
      LinksInfoAgreesWithUrls(baseUrl, links[1..], now);
      ShareUrlsCons(baseUrl, links[0], links[1..], AccessibleP(now));
      ShareUrlsCons(baseUrl, links[0], links[1..], ProtectedP(now));
    }
  }

  /** One step of the resolvers' filter-then-format, taken at the head of the list. */
  lemma ShareUrlsCons(baseUrl: string, l: SharedLink, rest: seq<SharedLink>, p: SharedLink -> bool)
    ensures ShareUrls(baseUrl, Filter([l] + rest, p))
            == (if p(l) then [ShareUrl(baseUrl, l.key)] else []) + ShareUrls(baseUrl, Filter(rest, p))
  {
    var s := [l] + rest;
    var head := if p(l) then [l] else [];
    assert s[0] == l && s[1..] == rest;
    assert Filter(s, p) == head + Filter(rest, p);
    ShareUrlsAppend(baseUrl, head, Filter(rest, p));
  }

  /** Formatting keeps the order of two consecutive stretches of links. */
  lemma ShareUrlsAppend(baseUrl: string, a: seq<SharedLink>, b: seq<SharedLink>)
    ensures ShareUrls(baseUrl, a + b) == ShareUrls(baseUrl, a) + ShareUrls(baseUrl, b)
  {
    var r := ShareUrls(baseUrl, a) + ShareUrls(baseUrl, b);
    forall i | 0 <= i < |a + b|
      ensures ShareUrls(baseUrl, a + b)[i] == r[i]
    {
      if i < |a| {
        assert (a + b)[i] == a[i];
      } else {
        assert (a + b)[i] == b[i - |a|];
      }
    }
  }

  /**
   * The per-album variant's `_async_fetch_shared_links`: the list is emptied before the request
   * and refilled only from a 200 response, keeping links with a key whose album is this one.
   */
  predicate BelongsTo(p: LinkPayload, albumId: string) {
    p.key != "" && p.albumId == Some(albumId)
  }

  function AlbumLinks(albumId: string, response: Fetch<seq<LinkPayload>>): (r: seq<SharedLink>)
    ensures response.FetchFailed? ==> r == []
    ensures response.Fetched? ==> r == LinksOf(response.body, albumId)
  {
    match response
    case Fetched(ps) => LinksOf(ps, albumId)
    case FetchFailed => []
  }

  /** The links of one album among a response's entries, in response order. */
  function LinksOf(ps: seq<LinkPayload>, albumId: string): (r: seq<SharedLink>)
    ensures |r| <= |ps|
    ensures forall i :: 0 <= i < |ps| && BelongsTo(ps[i], albumId) ==> LinkFromApi(ps[i]) in r
    ensures forall k :: 0 <= k < |r| ==> exists i :: 0 <= i < |ps| && BelongsTo(ps[i], albumId) && r[k] == LinkFromApi(ps[i])
    decreases |ps|
  {
    if |ps| == 0 then []
    else
      var prefix := ps[..|ps| - 1];
      assert forall i :: 0 <= i < |prefix| ==> prefix[i] == ps[i];
      LinksOf(prefix, albumId) + (if BelongsTo(ps[|ps| - 1], albumId) then [LinkFromApi(ps[|ps| - 1])] else [])
  }

  /** Response order: the links of two consecutive stretches of the response are those of the first, then those of the second. */
  lemma {:induction false} LinksOfAppend(a: seq<LinkPayload>, b: seq<LinkPayload>, albumId: string)
    ensures LinksOf(a + b, albumId) == LinksOf(a, albumId) + LinksOf(b, albumId)
    decreases |b|
  {
    if |b| == 0 {
      assert a + b == a;
    } else {
      var b' := b[..|b| - 1];
      var last := if BelongsTo(b[|b| - 1], albumId) then [LinkFromApi(b[|b| - 1])] else [];
      assert (a + b)[..|a + b| - 1] == a + b' && (a + b)[|a + b| - 1] == b[|b| - 1];
      calc {
        LinksOf(a + b, albumId);
        LinksOf(a + b', albumId) + last;
        { LinksOfAppend(a, b', albumId); }
        (LinksOf(a, albumId) + LinksOf(b', albumId)) + last;
        LinksOf(a, albumId) + (LinksOf(b', albumId) + last);
        LinksOf(a, albumId) + LinksOf(b, albumId);
      }
    }
  }

  /** An entry the multi-album cache keeps: it has a key and a non-empty album id. */
  predicate Groupable(p: LinkPayload) {
    p.key != "" && p.albumId.Some? && p.albumId.value != ""
  }

  /**
   * The multi-album variant's grouping loop: a 200 response clears the cache and rebuilds it,
   * album id to that album's links in response order.
   */
  function GroupByAlbum(ps: seq<LinkPayload>): (cache: map<string, seq<SharedLink>>)
    ensures cache.Keys == set i | 0 <= i < |ps| && Groupable(ps[i]) :: ps[i].albumId.value
    decreases |ps|
  {
    if |ps| == 0 then map[]
    else
      var prefix := ps[..|ps| - 1];
      var p := ps[|ps| - 1];
      var cache := GroupByAlbum(prefix);
      assert forall i :: 0 <= i < |prefix| ==> prefix[i] == ps[i];
      if Groupable(p) then
        cache[p.albumId.value := LinksFor(cache, p.albumId.value) + [LinkFromApi(p)]]
      else cache
  }

  /** `self._shared_links_cache.get(album_id, [])`. */
  function LinksFor(cache: map<string, seq<SharedLink>>, albumId: string): (r: seq<SharedLink>)
    ensures albumId !in cache ==> r == []
  {
    if albumId in cache then cache[albumId] else []
  }

  /** Grouping puts into each album's list exactly that album's links, in response order. */
  lemma {:induction false} GroupedLinksAreAlbumLinks(ps: seq<LinkPayload>, albumId: string)
    requires albumId != ""
    ensures LinksFor(GroupByAlbum(ps), albumId) == LinksOf(ps, albumId)
    decreases |ps|
  {
    if |ps| > 0 {
      GroupedLinksAreAlbumLinks(ps[..|ps| - 1], albumId);
    }
  }

  /** The multi-album cache refresh: rebuilt from a 200 response, kept as it was otherwise. */
  function RefreshCache(cache: map<string, seq<SharedLink>>, response: Fetch<seq<LinkPayload>>)
    : (r: map<string, seq<SharedLink>>)
    ensures response.FetchFailed? ==> r == cache
    ensures response.Fetched? ==> forall a :: a != "" ==> LinksFor(r, a) == LinksOf(response.body, a)
  {
    match response
    case Fetched(ps) =>
      forall a | a != "" ensures LinksFor(GroupByAlbum(ps), a) == LinksOf(ps, a) {
        GroupedLinksAreAlbumLinks(ps, a);
      }
      GroupByAlbum(ps)
    case FetchFailed => cache
  }
}

=== FILE: snapshot.dfy ===
/**
 * Album snapshots: the immutable picture of one album that a poll builds from the server's
 * album payload (`AlbumData.from_api_response` / `AssetInfo.from_api_response`), plus the two
 * mutable "new assets" fields that the poll step and the binary sensor adjust afterwards.
 *
 * Both integration variants build snapshots with the same code; the multi-album variant's
 * asset record simply has no favourite flag and no rating, which nothing in its model reads.
 */
module Snapshot {
  import opened Wrappers
  import Seqs

  type AssetId = string

  /** Instants and durations, in microseconds (the resolution of Python's `datetime`). */
  type Timestamp = int

  const AssetTypeImage: string := "IMAGE"
  const AssetTypeVideo: string := "VIDEO"

  /** The `exifInfo` block of an asset; a missing key is `None`. */
  datatype Exif = Exif(description: Option<string>, rating: Option<int>)

  /**
   * One entry of the payload's `assets` list. Optional JSON keys are `Option`s; `ownerId` is
   * `""` when absent; `people` holds each person's `name`, `""` when the person has none.
   */
  datatype AssetPayload = AssetPayload(
    id: AssetId,
    assetType: Option<string>,
    originalFileName: Option<string>,
    fileCreatedAt: Option<string>,
    ownerId: string,
    people: seq<string>,
    exifInfo: Option<Exif>,
    isFavorite: Option<bool>)

  /** The album-by-id payload. `ownerName` is `owner.name`, `None` when either key is missing. */
  datatype AlbumPayload = AlbumPayload(
    id: string,
    albumName: Option<string>,
    assetCount: Option<int>,
    createdAt: Option<string>,
    updatedAt: Option<string>,
    shared: Option<bool>,
    ownerName: Option<string>,
    albumThumbnailAssetId: Option<string>,
    assets: seq<AssetPayload>)

  datatype AssetInfo = AssetInfo(
    id: AssetId,
    assetType: string,
    filename: string,
    createdAt: string,
    ownerId: string,
    ownerName: string,
    description: string,
    people: seq<string>,
    isFavorite: bool,
    rating: Option<int>)

  /**
   * One album at one poll. `assetOrder` is the insertion order of the Python `assets` dict
   * (first occurrence of each id in the payload), which fixes the order `assets.values()` yields.
   */
  datatype AlbumData = AlbumData(
    id: string,
    name: string,
    assetCount: int,
    photoCount: nat,
    videoCount: nat,
    createdAt: string,
    updatedAt: string,
    shared: bool,
    owner: string,
    thumbnailAssetId: Option<string>,
    assetIds: set<AssetId>,
    assets: map<AssetId, AssetInfo>,
    assetOrder: seq<AssetId>,
    people: set<string>,
    hasNewAssets: bool,
    lastChangeTime: Option<Timestamp>)

  predicate Distinct<T(==)>(s: seq<T>) {
    forall i, j :: 0 <= i < j < |s| ==> s[i] != s[j]
  }

  /** The ids of all entries of an asset list, duplicates collapsed. */
  function PayloadIds(ps: seq<AssetPayload>): set<AssetId> {
    set i | 0 <= i < |ps| :: ps[i].id
  }

  /** Entry `i` is the last entry of `ps` carrying its id, so its record is the one a dict keeps. */
  predicate IsLastOccurrence(ps: seq<AssetPayload>, i: nat)
    requires i < |ps|
  {
    forall j :: i < j < |ps| ==> ps[j].id != ps[i].id
  }

  /** The type tag an entry is counted under (`data.get("type", "IMAGE")`). */
  function EffectiveType(p: AssetPayload): string {
    p.assetType.GetOr(AssetTypeImage)
  }

  /** Number of payload entries whose effective type tag is `tag`, duplicates included. */
  function CountOfType(ps: seq<AssetPayload>, tag: string): (n: nat)
    ensures n <= |ps|
  {
    if |ps| == 0 then 0
    else CountOfType(ps[..|ps| - 1], tag) + (if EffectiveType(ps[|ps| - 1]) == tag then 1 else 0)
  }

  /** `[p.get("name", "") for p in people if p.get("name")]`: the non-empty names, in order. */
  function NonEmptyNames(names: seq<string>): (r: seq<string>)
    ensures forall i :: 0 <= i < |r| ==> r[i] != "" && r[i] in names
    ensures forall i :: 0 <= i < |names| && names[i] != "" ==> names[i] in r
  {
    Seqs.Filter(names, (n: string) => n != "")
  }

  /** `AssetInfo.from_api_response`: defaults for missing keys, owner resolved through the users cache. */
  function AssetFromApi(p: AssetPayload, users: map<string, string>): (a: AssetInfo)
    ensures a.id == p.id && a.ownerId == p.ownerId
    ensures a.assetType == EffectiveType(p)
    ensures p.originalFileName.Some? ==> a.filename == p.originalFileName.value
    ensures p.originalFileName.None? ==> a.filename == ""
    ensures p.fileCreatedAt.Some? ==> a.createdAt == p.fileCreatedAt.value
    ensures p.fileCreatedAt.None? ==> a.createdAt == ""
    ensures a.isFavorite == p.isFavorite.GetOr(false)
    ensures a.people == NonEmptyNames(p.people)
    ensures forall i :: 0 <= i < |a.people| ==> a.people[i] != "" && a.people[i] in p.people
    ensures forall i :: 0 <= i < |p.people| && p.people[i] != "" ==> p.people[i] in a.people
    ensures a.ownerName != "" ==> p.ownerId in users && a.ownerName == users[p.ownerId]
    ensures p.ownerId != "" && p.ownerId in users ==> a.ownerName == users[p.ownerId]
    ensures p.ownerId == "" || p.ownerId !in users ==> a.ownerName == ""
    ensures p.exifInfo.None? ==> a.description == "" && a.rating.None?
    ensures p.exifInfo.Some? ==> a.rating == p.exifInfo.value.rating
    ensures p.exifInfo.Some? && p.exifInfo.value.description.Some? ==> a.description == p.exifInfo.value.description.value
    ensures p.exifInfo.Some? && p.exifInfo.value.description.None? ==> a.description == ""
  {
    var ownerName :=
      if |users| > 0 && p.ownerId != "" && p.ownerId in users then users[p.ownerId] else "";
    var description :=
      match p.exifInfo
      case None => ""
      case Some(e) => e.description.GetOr("");
    var rating :=
      match p.exifInfo
      case None => None
      case Some(e) => e.rating;
    AssetInfo(
      p.id,
      EffectiveType(p),
      p.originalFileName.GetOr(""),
      p.fileCreatedAt.GetOr(""),
      p.ownerId,
      ownerName,
      description,
      NonEmptyNames(p.people),
      p.isFavorite.GetOr(false),
      rating)
  }

  /** `n` is the non-empty name of a person on some entry of `ps`. */
  predicate NamedIn(ps: seq<AssetPayload>, n: string) {
    n != "" && exists i :: 0 <= i < |ps| && n in ps[i].people
  }

  /** Every non-empty person name on some entry of `ps`. */
  function PayloadPeople(ps: seq<AssetPayload>): (r: set<string>)
    ensures forall n :: n in r <==> NamedIn(ps, n)
  {
    set i, n | 0 <= i < |ps| && n in ps[i].people && n != "" :: n
  }

  /** What the loop over the payload's assets accumulates. */
  datatype Tally = Tally(
    assets: map<AssetId, AssetInfo>,
    order: seq<AssetId>,
    people: set<string>,
    photos: nat,
    videos: nat)

  /**
   * The `for asset_data in assets_data` loop of `AlbumData.from_api_response`, as a fold over
   * ever longer prefixes of the list.
   */
  function TallyAssets(ps: seq<AssetPayload>, users: map<string, string>): (t: Tally)
    ensures t.assets.Keys == PayloadIds(ps)
    ensures t.photos + t.videos <= |ps|
    ensures t.photos == CountOfType(ps, AssetTypeImage)
    ensures t.videos == CountOfType(ps, AssetTypeVideo)
    ensures t.people == PayloadPeople(ps)
    decreases |ps|
  {
    if |ps| == 0 then Tally(map[], [], {}, 0, 0)
    else
      var t := TallyAssets(ps[..|ps| - 1], users);
      AddAssetCounts(ps, t, AssetFromApi(ps[|ps| - 1], users));
      AddAssetPeople(ps, t, AssetFromApi(ps[|ps| - 1], users));
      AddAsset(t, AssetFromApi(ps[|ps| - 1], users))
  }

  /** One more asset: the dict entry, its first-seen order, its people and its type's count. */
  function AddAsset(t: Tally, a: AssetInfo): Tally {
    Tally(
      t.assets[a.id := a],
      if a.id in t.assets then t.order else t.order + [a.id],
      t.people + (set n | n in a.people),
      t.photos + (if a.assetType == AssetTypeImage then 1 else 0),
      t.videos + (if a.assetType == AssetTypeVideo then 1 else 0))
  }

  lemma AddAssetCounts(ps: seq<AssetPayload>, t: Tally, a: AssetInfo)
    requires |ps| > 0 && a.id == ps[|ps| - 1].id && a.assetType == EffectiveType(ps[|ps| - 1])
    requires t.assets.Keys == PayloadIds(ps[..|ps| - 1])
    requires t.photos == CountOfType(ps[..|ps| - 1], AssetTypeImage)
    requires t.videos == CountOfType(ps[..|ps| - 1], AssetTypeVideo)
    requires t.photos + t.videos <= |ps| - 1
    ensures AddAsset(t, a).assets.Keys == PayloadIds(ps)
    ensures AddAsset(t, a).photos + AddAsset(t, a).videos <= |ps|
    ensures AddAsset(t, a).photos == CountOfType(ps, AssetTypeImage)
    ensures AddAsset(t, a).videos == CountOfType(ps, AssetTypeVideo)
  {
    PayloadIdsSnoc(ps);
  }

  lemma AddAssetPeople(ps: seq<AssetPayload>, t: Tally, a: AssetInfo)
    requires |ps| > 0 && a.people == NonEmptyNames(ps[|ps| - 1].people)
    requires t.people == PayloadPeople(ps[..|ps| - 1])
    ensures AddAsset(t, a).people == PayloadPeople(ps)
  {
    var prefix := ps[..|ps| - 1];
    forall n ensures n in AddAsset(t, a).people <==> NamedIn(ps, n) {
      if NamedIn(ps, n) {
        var i :| 0 <= i < |ps| && n in ps[i].people;
        if i < |ps| - 1 {
          assert prefix[i] == ps[i];
        }
      }
      if NamedIn(prefix, n) {
        var i :| 0 <= i < |prefix| && n in prefix[i].people;
        assert ps[i] == prefix[i];
      }
    }
  }

  lemma PayloadIdsSnoc(ps: seq<AssetPayload>)
    requires |ps| > 0
    ensures PayloadIds(ps) == PayloadIds(ps[..|ps| - 1]) + {ps[|ps| - 1].id}
  {
    var prefix := ps[..|ps| - 1];
    forall k | k in PayloadIds(ps) ensures k in PayloadIds(prefix) + {ps[|ps| - 1].id} {
      var i :| 0 <= i < |ps| && ps[i].id == k;
      if i < |ps| - 1 { assert prefix[i] == ps[i]; }
    }
    forall k | k in PayloadIds(prefix) ensures k in PayloadIds(ps) {
      var i :| 0 <= i < |prefix| && prefix[i].id == k;
      assert ps[i] == prefix[i];
    }
  }

  /** Each id enters the dict order once, at its first occurrence, and the order lists exactly the dict's keys. */
  lemma {:induction false} TallyOrder(ps: seq<AssetPayload>, users: map<string, string>)
    ensures Distinct(TallyAssets(ps, users).order)
    ensures forall k :: k in TallyAssets(ps, users).order <==> k in TallyAssets(ps, users).assets
    decreases |ps|
  {
    if |ps| > 0 {
      TallyOrder(ps[..|ps| - 1], users);
    }
  }

  /** A repeated id keeps the record built from its last entry, as a dict assignment does. */
  lemma {:induction false} TallyLastWins(ps: seq<AssetPayload>, users: map<string, string>)
    ensures forall i :: 0 <= i < |ps| && IsLastOccurrence(ps, i) ==>
              TallyAssets(ps, users).assets[ps[i].id] == AssetFromApi(ps[i], users)
    decreases |ps|
  {
    if |ps| > 0 {
      var prefix := ps[..|ps| - 1];
      TallyLastWins(prefix, users);
      var t := TallyAssets(ps, users);
      forall i | 0 <= i < |ps| && IsLastOccurrence(ps, i)
        ensures t.assets[ps[i].id] == AssetFromApi(ps[i], users)
      {
        if i < |ps| - 1 {
          assert prefix[i] == ps[i];
          assert IsLastOccurrence(prefix, i);
        }
      }
    }
  }

  /** `AlbumData.from_api_response`. */
  function AlbumFromApi(payload: AlbumPayload, users: map<string, string>): (album: AlbumData)
    ensures album.assetIds == album.assets.Keys == PayloadIds(payload.assets)
    ensures album.photoCount + album.videoCount <= |payload.assets|
    ensures album.photoCount == CountOfType(payload.assets, AssetTypeImage)
    ensures album.videoCount == CountOfType(payload.assets, AssetTypeVideo)
    ensures payload.assetCount.None? ==> album.assetCount == |album.assetIds|
    ensures forall i :: 0 <= i < |payload.assets| && IsLastOccurrence(payload.assets, i) ==>
              album.assets[payload.assets[i].id] == AssetFromApi(payload.assets[i], users)
    ensures Valid(album)
    ensures !album.hasNewAssets && album.lastChangeTime.None?
    ensures album.id == payload.id && album.thumbnailAssetId == payload.albumThumbnailAssetId
    ensures album.name == payload.albumName.GetOr("Unnamed") && album.owner == payload.ownerName.GetOr("Unknown")
    ensures album.shared == payload.shared.GetOr(false)
    ensures album.createdAt == payload.createdAt.GetOr("") && album.updatedAt == payload.updatedAt.GetOr("")
    ensures payload.assetCount.Some? ==> album.assetCount == payload.assetCount.value
    ensures album.people == PayloadPeople(payload.assets)
  {
    var t := TallyAssets(payload.assets, users);
    TallyOrder(payload.assets, users);
    TallyLastWins(payload.assets, users);
    AlbumData(
      payload.id,
      payload.albumName.GetOr("Unnamed"),
      payload.assetCount.GetOr(|t.assets.Keys|),
      t.photos,
      t.videos,
      payload.createdAt.GetOr(""),
      payload.updatedAt.GetOr(""),
      payload.shared.GetOr(false),
      payload.ownerName.GetOr("Unknown"),
      payload.albumThumbnailAssetId,
      t.assets.Keys,
      t.assets,
      t.order,
      t.people,
      false,
      None)
  }

  /** The shape every snapshot built by `AlbumFromApi` has. */
  ghost predicate Valid(album: AlbumData) {
    && album.assetIds == album.assets.Keys
    && Distinct(album.assetOrder)
    && (forall k :: k in album.assetOrder <==> k in album.assets)
  }

  /** `album.assets.values()`, in dict order. */
  function AssetValues(album: AlbumData): (vs: seq<AssetInfo>)
    ensures Valid(album) ==> |vs| == |album.assetOrder|
    ensures forall i :: 0 <= i < |vs| ==> vs[i] in album.assets.Values
  {
    ValuesInOrder(album.assetOrder, album.assets)
  }

  function ValuesInOrder(keys: seq<AssetId>, m: map<AssetId, AssetInfo>): (vs: seq<AssetInfo>)
    ensures (forall i :: 0 <= i < |keys| ==> keys[i] in m) ==> |vs| == |keys|
    ensures forall i :: 0 <= i < |vs| ==> vs[i] in m.Values
    decreases |keys|
  {
    if |keys| == 0 then []
    else if keys[0] in m then [m[keys[0]]] + ValuesInOrder(keys[1..], m)
    else ValuesInOrder(keys[1..], m)
  }

  /**
   * The "preserve has_new_assets from the previous state" step of both poll loops: while the
   * previous snapshot still shows new assets with a change time, the new snapshot adopts that
   * (older) time and shows new assets too.
   */
  function CarryForward(previous: Option<AlbumData>, album: AlbumData): (r: AlbumData)
    ensures previous.Some? && previous.value.hasNewAssets && previous.value.lastChangeTime.Some? ==>
              r == album.(hasNewAssets := true, lastChangeTime := previous.value.lastChangeTime)
    ensures !(previous.Some? && previous.value.hasNewAssets && previous.value.lastChangeTime.Some?) ==>
              r == album
  {
    match previous
    case Some(prev) =>
      if prev.hasNewAssets && prev.lastChangeTime.Some? then
        album.(lastChangeTime := prev.lastChangeTime,
               hasNewAssets := if !album.hasNewAssets then prev.hasNewAssets else album.hasNewAssets)
      else album
    case None => album
  }

  /** `clear_new_assets_flag` on one snapshot. */
  function ClearFlag(album: AlbumData): (r: AlbumData)
    ensures !r.hasNewAssets && r.lastChangeTime.None?
    ensures r.(hasNewAssets := album.hasNewAssets, lastChangeTime := album.lastChangeTime) == album
  {
    album.(hasNewAssets := false, lastChangeTime := None)
  }
}

=== FILE: storage.dfy ===
/**
 * The per-album variant's persistence of each album's asset ids across restarts
 * (`ImmichAlbumStorage`). The store keeps an in-memory copy of the document and writes the whole
 * document back on every change; a restart loses the memory and keeps the disk.
 */
module Storage {
  import opened Wrappers
  import Snapshot

  type AssetId = Snapshot.AssetId
  type Timestamp = Snapshot.Timestamp

  /** One album's entry: its asset ids (stored as a list, read back as a set) and the save time. */
  datatype PersistedAlbum = PersistedAlbum(assetIds: set<AssetId>, lastUpdated: Timestamp)

  /** The document's `albums` dict. */
  type Albums = map<string, PersistedAlbum>

  /** `memory` is `_data` (`None` before loading and after removal); `disk` is what the store file holds. */
  datatype AlbumStore = AlbumStore(memory: Option<Albums>, disk: Option<Albums>)

  /** A freshly constructed store over whatever the disk holds. */
  function Fresh(disk: Option<Albums>): (s: AlbumStore)
    ensures s.memory.None? && s.disk == disk
  {
    AlbumStore(None, disk)
  }

  /** `async_load`: the stored document, or an empty one when nothing is stored. */
  function Load(s: AlbumStore): (r: AlbumStore)
    ensures r.disk == s.disk
    ensures r.memory.Some?
    ensures s.disk.Some? ==> r.memory == s.disk
    ensures s.disk.None? ==> r.memory == Some(map[])
  {
    AlbumStore(Some(s.disk.GetOr(map[])), s.disk)
  }

  /** `get_album_asset_ids`: absent before loading and for albums never saved; an empty id set is still present. */
  function Get(s: AlbumStore, albumId: string): (r: Option<set<AssetId>>)
    ensures r.Some? <==> s.memory.Some? && albumId in s.memory.value
    ensures r.Some? ==> r.value == s.memory.value[albumId].assetIds
  {
    match s.memory
    case Some(albums) => if albumId in albums then Some(albums[albumId].assetIds) else None
    case None => None
  }

  /**
   * `async_save_album_state`: records the album's ids (starting an empty document if none is
   * loaded) and writes the whole document to disk.
   */
  function Save(s: AlbumStore, albumId: string, assetIds: set<AssetId>, now: Timestamp): (r: AlbumStore)
    ensures Get(r, albumId) == Some(assetIds)
    ensures forall other :: other != albumId ==> Get(r, other) == Get(s, other)
    ensures r.disk == r.memory
    ensures r.memory.Some? && r.memory.value[albumId].lastUpdated == now
  {
    var albums := s.memory.GetOr(map[])[albumId := PersistedAlbum(assetIds, now)];
    AlbumStore(Some(albums), Some(albums))
  }

  /** `async_remove_album`: drops the album and writes the document, but only once a document is loaded. */
  function Remove(s: AlbumStore, albumId: string): (r: AlbumStore)
    ensures Get(r, albumId).None?
    ensures forall other :: other != albumId ==> Get(r, other) == Get(s, other)
    ensures s.memory.None? ==> r == s
    ensures s.memory.Some? ==> r.disk == r.memory
  {
    match s.memory
    case Some(albums) =>
      var rest := albums - {albumId};
      AlbumStore(Some(rest), Some(rest))
    case None => s
  }

  /** `async_remove`: deletes the stored document and forgets the loaded one. */
  function RemoveAll(s: AlbumStore): (r: AlbumStore)
    ensures forall albumId :: Get(r, albumId).None?
    ensures r.disk.None? && forall albumId :: Get(Restart(r), albumId).None?
  {
    AlbumStore(None, None)
  }

  /** What survives a restart: a new store over the same disk, loaded before first use. */
  function Restart(s: AlbumStore): (r: AlbumStore)
    ensures r.disk == s.disk && r.memory.Some?
  {
    Load(Fresh(s.disk))
  }

  /**
   * Saved ids survive a restart exactly: after saving, restarting and loading, the album reads
   * back the set that was saved (an empty set included), and every other album reads back what
   * it read before the save.
   */
  lemma SavedIdsSurviveRestart(s: AlbumStore, albumId: string, assetIds: set<AssetId>, now: Timestamp)
    ensures Get(Restart(Save(s, albumId, assetIds, now)), albumId) == Some(assetIds)
    ensures forall other :: other != albumId ==>
              Get(Restart(Save(s, albumId, assetIds, now)), other) == Get(s, other)
  {
  }

  /** A removed album stays absent across a restart, provided a document was loaded when it was removed. */
  lemma RemovedStaysRemoved(s: AlbumStore, albumId: string)
    requires s.memory.Some?
    ensures Get(Restart(Remove(s, albumId)), albumId).None?
  {
  }

  /** Once the document is loaded and every later change is written through, a restart changes no reading. */
  lemma RestartPreservesReadings(s: AlbumStore, albumId: string)
    requires s.memory.Some? && s.disk == s.memory
    ensures Get(Restart(s), albumId) == Get(s, albumId)
  {
  }
}

=== FILE: telegram_relay.dfy ===
/**
 * `_execute_telegram_notification` and `_send_telegram_media_group`: routing a request to a
 * text message, a single photo or video, or media groups of at most `max_group_size` items
 * sent chunk by chunk, with oversized photos diverted to documents.
 *
 * The caption rule of a media group is a parameter: `AsWritten` is the condition the source
 * tests (no oversized photo at all in the chunk), `Intended` the one its comment describes (no
 * oversized photo carrying the caption). `Relay` uses the intended rule; `RelayAsWritten`
 * keeps the source's, and `CaptionLostAsWritten` exhibits the difference.
 */
module TelegramRelay {
  import opened Wrappers
  import opened TelegramSend

  datatype CaptionRule = AsWritten | Intended

  /** The service call's arguments; `botToken` and `configuredToken` are `""` when unset. */
  datatype Settings = Settings(
    botToken: string,
    configuredToken: string,
    caption: string,
    replyTo: Option<int>,
    maxGroupSize: nat,
    chunkDelay: int,
    limits: Limits)

  /** `bot_token or options[telegram_bot_token]`. */
  function Token(s: Settings): (r: string)
    ensures r == "" <==> s.botToken == "" && s.configuredToken == ""
    ensures s.botToken != "" ==> r == s.botToken
  {
    if s.botToken != "" then s.botToken else s.configuredToken
  }

  // ---------------------------------------------------------------------------------------
  // Chunks

  /** `[urls[i:i + size] for i in range(0, len(urls), size)]`. */
  function Chunks<T>(s: seq<T>, size: nat): (r: seq<seq<T>>)
    requires size >= 1
    ensures forall k :: 0 <= k < |r| ==> 1 <= |r[k]| <= size
    ensures forall k :: 0 <= k < |r| - 1 ==> |r[k]| == size
    ensures |s| == 0 <==> |r| == 0
    ensures |s| <= size ==> |r| <= 1
    decreases |s|
  {
    if |s| == 0 then []
    else if |s| <= size then [s]
    else [s[..size]] + Chunks(s[size..], size)
  }

  function Flatten<T>(ss: seq<seq<T>>): seq<T> {
    if |ss| == 0 then [] else ss[0] + Flatten(ss[1..])
  }

  /** Chunking loses, duplicates and reorders nothing. */
  lemma {:induction false} ChunksFlatten<T>(s: seq<T>, size: nat)
    requires size >= 1
    ensures Flatten(Chunks(s, size)) == s
    decreases |s|
  {
    if 0 < |s| <= size {
      assert Flatten(Chunks(s, size)) == s + Flatten([]);
    } else if |s| > size {
      ChunksFlatten(s[size..], size);
      assert s == s[..size] + s[size..];
    }
  }

  /** Chunking makes as few chunks as it can: `ceil(len(urls) / size)`. */
  lemma {:induction false} ChunksCount<T>(s: seq<T>, size: nat)
    requires size >= 1
    ensures |s| > 0 ==> (|Chunks(s, size)| - 1) * size < |s| <= |Chunks(s, size)| * size
    decreases |s|
  {
    if |s| > size {
      ChunksCount(s[size..], size);
      var m := |Chunks(s[size..], size)|;
      assert |Chunks(s, size)| == m + 1;
      MulSucc(m, size);
    }
  }

  lemma MulSucc(m: nat, size: nat)
    ensures (m + 1) * size == m * size + size
  {
  }

  /** Chunk `k` holds the items `k * size` up to (not including) `(k + 1) * size`. */
  lemma {:induction false} ChunkAt<T>(s: seq<T>, size: nat, k: nat)
    requires size >= 1
    requires k < |Chunks(s, size)|
    ensures k * size < |s|
    ensures Chunks(s, size)[k] == s[k * size .. if (k + 1) * size < |s| then (k + 1) * size else |s|]
    decreases |s|
  {
    if |s| <= size {
      assert k == 0;
    } else if k > 0 {
      var rest := s[size..];
      ChunkAt(rest, size, k - 1);
      var a := (k - 1) * size;
      MulSucc(k - 1, size);
      MulSucc(k, size);
      var e := if k * size < |rest| then k * size else |rest|;
      assert Chunks(s, size)[k] == rest[a .. e];
      SliceOfRest(s, size, a, e);
    }
  }

  lemma SliceOfRest<T>(s: seq<T>, size: nat, a: nat, e: nat)
    requires size <= |s| && a <= e <= |s| - size
    ensures s[size..][a .. e] == s[a + size .. e + size]
  {
    var rest := s[size..];
    forall i | 0 <= i < e - a ensures rest[a .. e][i] == s[a + size .. e + size][i] {
      assert rest[a + i] == s[size + a + i];
    }
  }

  // ---------------------------------------------------------------------------------------
  // Scanning a multi-item chunk

  /** The item stops the whole relay: no URL, a type other than photo or video, or a failed download. */
  predicate Aborts(item: MediaItem) {
    item.url == "" || (KindOf(item) != "photo" && KindOf(item) != "video") || !item.download.Body?
  }

  predicate OverPhotoLimits(item: MediaItem)
    requires item.download.Body?
  {
    KindOf(item) == "photo" && PhotoLimitExceeded(item.download.size, item.download.dimensions).Some?
  }

  /** The item goes into the media group. */
  predicate Keeps(item: MediaItem, limits: Limits) {
    !Aborts(item) && !OverDataSize(item.download.size, limits.maxAssetDataSize) && !OverPhotoLimits(item)
  }

  /** The item is an oversized photo sent separately as a document. */
  predicate Diverts(item: MediaItem, limits: Limits) {
    !Aborts(item) && !OverDataSize(item.download.size, limits.maxAssetDataSize) && OverPhotoLimits(item)
    && limits.largePhotosAsDocuments
  }

  function KindFor(item: MediaItem): MediaKind {
    if KindOf(item) == "photo" then Photo else Video
  }

  /** A kept item (`media_files`) and a diverted photo (`oversized_photos`), by position in the chunk. */
  datatype Kept = Kept(pos: nat, kind: MediaKind)
  datatype Diverted = Diverted(pos: nat, caption: string)

  datatype Scan =
    | ScanAborted(failure: Failure)
    | Scanned(kept: seq<Kept>, diverted: seq<Diverted>, skipped: nat)

  /** The scan's verdict on one more item. */
  function ScanItem(item: MediaItem, pos: nat, firstOfFirstChunk: bool, caption: string, limits: Limits,
                    kept: seq<Kept>, diverted: seq<Diverted>, skipped: nat): (r: Scan)
    ensures r.ScanAborted? <==> Aborts(item)
    ensures r.ScanAborted? ==> r.failure == AbortFailure(item)
    ensures r.Scanned? ==> r.kept == if Keeps(item, limits) then kept + [Kept(pos, KindFor(item))] else kept
    ensures r.Scanned? ==> (r.diverted == if Diverts(item, limits)
                                          then diverted + [Diverted(pos, if firstOfFirstChunk && |kept| == 0 then caption else "")]
                                          else diverted)
    ensures r.Scanned? ==> r.skipped == if Keeps(item, limits) || Diverts(item, limits) then skipped else skipped + 1
  {
    if item.url == "" then ScanAborted(MissingUrl)
    else if KindOf(item) != "photo" && KindOf(item) != "video" then ScanAborted(InvalidType(KindOf(item)))
    else match item.download
      case HttpStatus(st) => ScanAborted(DownloadStatus(st))
      case ConnectionFailed => ScanAborted(DownloadError)
      case Body(size, _) =>
        if OverDataSize(size, limits.maxAssetDataSize) then Scanned(kept, diverted, skipped + 1)
        else if OverPhotoLimits(item) then
          if limits.largePhotosAsDocuments then
            Scanned(kept, diverted + [Diverted(pos, if firstOfFirstChunk && |kept| == 0 then caption else "")], skipped)
          else Scanned(kept, diverted, skipped + 1)
        else Scanned(kept + [Kept(pos, KindFor(item))], diverted, skipped)
  }

  /**
   * The download loop over the first `j` items of chunk `idx`: it stops at the first item that
   * aborts; otherwise every item is kept, diverted or skipped.
   */
  function ScanChunk(chunk: seq<MediaItem>, idx: nat, caption: string, limits: Limits, j: nat): (r: Scan)
    requires j <= |chunk|
    ensures r.ScanAborted? <==> exists i :: 0 <= i < j && Aborts(chunk[i])
    ensures r.Scanned? ==> |r.kept| + |r.diverted| + r.skipped == j
    decreases j
  {
    if j == 0 then Scanned([], [], 0)
    else
      var prev := ScanChunk(chunk, idx, caption, limits, j - 1);
      assert (exists i :: 0 <= i < j && Aborts(chunk[i])) <==>
             (exists i :: 0 <= i < j - 1 && Aborts(chunk[i])) || Aborts(chunk[j - 1]);
      match prev
      case ScanAborted(f) => prev
      case Scanned(kept, diverted, skipped) =>
        ScanItem(chunk[j - 1], j - 1, idx == 0 && j - 1 == 0, caption, limits, kept, diverted, skipped)
  }

  /** How the first abort is reported. */
  function AbortFailure(item: MediaItem): (r: Failure)
    requires Aborts(item)
    ensures r == MissingUrl <==> item.url == ""
    ensures r.InvalidType? <==> item.url != "" && KindOf(item) != "photo" && KindOf(item) != "video"
    ensures r.InvalidType? ==> r == InvalidType(KindOf(item))
    ensures item.url != "" && (KindOf(item) == "photo" || KindOf(item) == "video") ==> Some(r) == DownloadFailure(item.download)
  {
    if item.url == "" then MissingUrl
    else if KindOf(item) != "photo" && KindOf(item) != "video" then InvalidType(KindOf(item))
    else if item.download.HttpStatus? then DownloadStatus(item.download.status)
    else DownloadError
  }

  /** An aborted scan reports the first aborting item, after every earlier item passed. */
  lemma {:induction false} ScanStopsAtFirstAbort(chunk: seq<MediaItem>, idx: nat, caption: string, limits: Limits, j: nat)
    requires j <= |chunk|
    ensures var r := ScanChunk(chunk, idx, caption, limits, j);
      r.ScanAborted? ==> exists i :: 0 <= i < j && Aborts(chunk[i]) && r.failure == AbortFailure(chunk[i]) &&
                                     forall e :: 0 <= e < i ==> !Aborts(chunk[e])
    decreases j
  {
    if j > 0 {
      ScanStopsAtFirstAbort(chunk, idx, caption, limits, j - 1);
      var prev := ScanChunk(chunk, idx, caption, limits, j - 1);
      var r := ScanChunk(chunk, idx, caption, limits, j);
      if prev.ScanAborted? {
        assert r == prev;
        var i :| 0 <= i < j - 1 && Aborts(chunk[i]) && prev.failure == AbortFailure(chunk[i]) &&
                 forall e :: 0 <= e < i ==> !Aborts(chunk[e]);
        assert 0 <= i < j;
      } else if r.ScanAborted? {
        assert forall e :: 0 <= e < j - 1 ==> !Aborts(chunk[e]);
        assert Aborts(chunk[j - 1]) && r.failure == AbortFailure(chunk[j - 1]);
      }
    }
  }

  /** `kept` names items among the first `j` of the chunk that pass every check, with their types, in chunk order. */
  predicate KeptFrom(kept: seq<Kept>, chunk: seq<MediaItem>, limits: Limits, j: nat)
    requires j <= |chunk|
  {
    (forall k :: 0 <= k < |kept| ==> kept[k].pos < j && Keeps(chunk[kept[k].pos], limits)) &&
    (forall k :: 0 <= k < |kept| ==> kept[k].kind == KindFor(chunk[kept[k].pos])) &&
    (forall k, l :: 0 <= k < l < |kept| ==> kept[k].pos < kept[l].pos)
  }

  lemma ScanItemKept(chunk: seq<MediaItem>, j: nat, idx: nat, caption: string, limits: Limits,
                     kept: seq<Kept>, diverted: seq<Diverted>, skipped: nat)
    requires 0 < j <= |chunk| && KeptFrom(kept, chunk, limits, j - 1)
    ensures var r := ScanItem(chunk[j - 1], j - 1, idx == 0 && j - 1 == 0, caption, limits, kept, diverted, skipped);
      r.Scanned? ==> KeptFrom(r.kept, chunk, limits, j)
  {
    var r := ScanItem(chunk[j - 1], j - 1, idx == 0 && j - 1 == 0, caption, limits, kept, diverted, skipped);
    if r.Scanned? {
      if Keeps(chunk[j - 1], limits) {
        KeptFromAppend(kept, chunk, limits, j);
      } else {
        assert r.kept == kept;
      }
    }
  }

  lemma KeptFromAppend(kept: seq<Kept>, chunk: seq<MediaItem>, limits: Limits, j: nat)
    requires 0 < j <= |chunk| && KeptFrom(kept, chunk, limits, j - 1) && Keeps(chunk[j - 1], limits)
    ensures KeptFrom(kept + [Kept(j - 1, KindFor(chunk[j - 1]))], chunk, limits, j)
  {
    var r := kept + [Kept(j - 1, KindFor(chunk[j - 1]))];
    forall k | 0 <= k < |r| ensures r[k].pos < j && Keeps(chunk[r[k].pos], limits) && r[k].kind == KindFor(chunk[r[k].pos]) {
      if k < |kept| {
        assert r[k] == kept[k];
      }
    }
    forall k, l | 0 <= k < l < |r| ensures r[k].pos < r[l].pos {
      assert r[k] == kept[k];
      if l < |kept| {
        assert r[l] == kept[l];
      }
    }
  }

  /** Every item the media group gets passes every check, keeps its type, and comes in chunk order. */
  lemma {:induction false} ScanKeptSound(chunk: seq<MediaItem>, idx: nat, caption: string, limits: Limits, j: nat)
    requires j <= |chunk|
    ensures var r := ScanChunk(chunk, idx, caption, limits, j);
      r.Scanned? ==> KeptFrom(r.kept, chunk, limits, j)
    decreases j
  {
    if j > 0 {
      ScanKeptSound(chunk, idx, caption, limits, j - 1);
      var prev := ScanChunk(chunk, idx, caption, limits, j - 1);
      if prev.Scanned? {
        ScanItemKept(chunk, j, idx, caption, limits, prev.kept, prev.diverted, prev.skipped);
      }
    }
  }

  /** Every item that passes every check is in the media group. */
  lemma {:induction false} ScanKeptComplete(chunk: seq<MediaItem>, idx: nat, caption: string, limits: Limits, j: nat)
    requires j <= |chunk|
    ensures var r := ScanChunk(chunk, idx, caption, limits, j);
      r.Scanned? ==> forall i :: 0 <= i < j && Keeps(chunk[i], limits) ==> exists k :: 0 <= k < |r.kept| && r.kept[k].pos == i
    decreases j
  {
    if j > 0 {
      ScanKeptComplete(chunk, idx, caption, limits, j - 1);
      var prev := ScanChunk(chunk, idx, caption, limits, j - 1);
      var r := ScanChunk(chunk, idx, caption, limits, j);
      if prev.Scanned? && r.Scanned? {
        assert r.kept == if Keeps(chunk[j - 1], limits) then prev.kept + [Kept(j - 1, KindFor(chunk[j - 1]))] else prev.kept;
        forall i | 0 <= i < j && Keeps(chunk[i], limits)
          ensures exists k :: 0 <= k < |r.kept| && r.kept[k].pos == i
        {
          if i < j - 1 {
            var k :| 0 <= k < |prev.kept| && prev.kept[k].pos == i;
            assert r.kept[k] == prev.kept[k];
          } else {
            assert r.kept[|prev.kept|].pos == j - 1;
          }
        }
      }
    }
  }

  predicate DivertedFrom(diverted: seq<Diverted>, chunk: seq<MediaItem>, limits: Limits, j: nat)
    requires j <= |chunk|
  {
    forall k :: 0 <= k < |diverted| ==> diverted[k].pos < j && Diverts(chunk[diverted[k].pos], limits)
  }

  lemma ScanItemDiverted(chunk: seq<MediaItem>, j: nat, idx: nat, caption: string, limits: Limits,
                         kept: seq<Kept>, diverted: seq<Diverted>, skipped: nat)
    requires 0 < j <= |chunk| && DivertedFrom(diverted, chunk, limits, j - 1)
    ensures var r := ScanItem(chunk[j - 1], j - 1, idx == 0 && j - 1 == 0, caption, limits, kept, diverted, skipped);
      r.Scanned? ==> DivertedFrom(r.diverted, chunk, limits, j)
  {
    var r := ScanItem(chunk[j - 1], j - 1, idx == 0 && j - 1 == 0, caption, limits, kept, diverted, skipped);
    if r.Scanned? {
      forall k | 0 <= k < |r.diverted| ensures r.diverted[k].pos < j && Diverts(chunk[r.diverted[k].pos], limits) {
        if k < |diverted| {
          assert r.diverted[k] == diverted[k];
        }
      }
    }
  }

  /** Every document is an oversized photo of the chunk, in chunk order. */
  lemma {:induction false} ScanDivertedSound(chunk: seq<MediaItem>, idx: nat, caption: string, limits: Limits, j: nat)
    requires j <= |chunk|
    ensures var r := ScanChunk(chunk, idx, caption, limits, j);
      r.Scanned? ==> forall k :: 0 <= k < |r.diverted| ==> r.diverted[k].pos < j && Diverts(chunk[r.diverted[k].pos], limits)
    decreases j
  {
    if j > 0 {
      ScanDivertedSound(chunk, idx, caption, limits, j - 1);
      var prev := ScanChunk(chunk, idx, caption, limits, j - 1);
      if prev.Scanned? {
        ScanItemDiverted(chunk, j, idx, caption, limits, prev.kept, prev.diverted, prev.skipped);
      }
    }
  }

  /** Every oversized photo of the chunk becomes a document. */
  lemma {:induction false} ScanDivertedComplete(chunk: seq<MediaItem>, idx: nat, caption: string, limits: Limits, j: nat)
    requires j <= |chunk|
    ensures var r := ScanChunk(chunk, idx, caption, limits, j);
      r.Scanned? ==> forall i :: 0 <= i < j && Diverts(chunk[i], limits) ==> exists k :: 0 <= k < |r.diverted| && r.diverted[k].pos == i
    decreases j
  {
    if j > 0 {
      ScanDivertedComplete(chunk, idx, caption, limits, j - 1);
      var prev := ScanChunk(chunk, idx, caption, limits, j - 1);
      var r := ScanChunk(chunk, idx, caption, limits, j);
      if prev.Scanned? && r.Scanned? {
        assert r.diverted == if Diverts(chunk[j - 1], limits)
                             then prev.diverted + [Diverted(j - 1, if idx == 0 && j - 1 == 0 && |prev.kept| == 0 then caption else "")]
                             else prev.diverted;
        forall i | 0 <= i < j && Diverts(chunk[i], limits)
          ensures exists k :: 0 <= k < |r.diverted| && r.diverted[k].pos == i
        {
          if i < j - 1 {
            var k :| 0 <= k < |prev.diverted| && prev.diverted[k].pos == i;
            assert r.diverted[k] == prev.diverted[k];
          } else {
            assert r.diverted[|prev.diverted|].pos == j - 1;
          }
        }
      }
    }
  }

  /** Only the first document, and only when it is the first chunk's first item, has a caption. */
  predicate CaptionOnFirstOnly(diverted: seq<Diverted>, idx: nat, caption: string) {
    forall k :: 0 <= k < |diverted| && diverted[k].caption != "" ==>
      k == 0 && idx == 0 && diverted[k].pos == 0 && diverted[k].caption == caption
  }

  lemma ScanItemCaption(item: MediaItem, pos: nat, idx: nat, caption: string, limits: Limits,
                        kept: seq<Kept>, diverted: seq<Diverted>, skipped: nat)
    requires CaptionOnFirstOnly(diverted, idx, caption)
    requires idx == 0 && pos == 0 ==> |diverted| == 0
    ensures var r := ScanItem(item, pos, idx == 0 && pos == 0, caption, limits, kept, diverted, skipped);
      r.Scanned? ==> CaptionOnFirstOnly(r.diverted, idx, caption)
  {
    var r := ScanItem(item, pos, idx == 0 && pos == 0, caption, limits, kept, diverted, skipped);
    if r.Scanned? && Diverts(item, limits) {
      forall k | 0 <= k < |r.diverted| && r.diverted[k].caption != ""
        ensures k == 0 && idx == 0 && r.diverted[k].pos == 0 && r.diverted[k].caption == caption
      {
        if k < |diverted| {
          assert r.diverted[k] == diverted[k];
        }
      }
    }
  }

  /** Only the first chunk's first item, as the first document, can bring the caption. */
  lemma {:induction false} ScanDivertedCaption(chunk: seq<MediaItem>, idx: nat, caption: string, limits: Limits, j: nat)
    requires j <= |chunk|
    ensures var r := ScanChunk(chunk, idx, caption, limits, j);
      r.Scanned? ==> CaptionOnFirstOnly(r.diverted, idx, caption)
    decreases j
  {
    if j > 0 {
      ScanDivertedCaption(chunk, idx, caption, limits, j - 1);
      var prev := ScanChunk(chunk, idx, caption, limits, j - 1);
      if prev.Scanned? {
        ScanItemCaption(chunk[j - 1], j - 1, idx, caption, limits, prev.kept, prev.diverted, prev.skipped);
      }
    }
  }

  /** The documents get exactly the oversized photos, and only the first chunk's first item can bring the caption. */
  lemma ScanDiverted(chunk: seq<MediaItem>, idx: nat, caption: string, limits: Limits, j: nat)
    requires j <= |chunk|
    ensures var r := ScanChunk(chunk, idx, caption, limits, j);
      r.Scanned? ==>
        (forall k :: 0 <= k < |r.diverted| ==> r.diverted[k].pos < j && Diverts(chunk[r.diverted[k].pos], limits)) &&
        (forall i :: 0 <= i < j && Diverts(chunk[i], limits) ==> exists k :: 0 <= k < |r.diverted| && r.diverted[k].pos == i) &&
        (forall k :: 0 <= k < |r.diverted| && r.diverted[k].caption != "" ==>
           k == 0 && idx == 0 && r.diverted[k].pos == 0 && r.diverted[k].caption == caption)
  {
    ScanDivertedSound(chunk, idx, caption, limits, j);
    ScanDivertedComplete(chunk, idx, caption, limits, j);
    ScanDivertedCaption(chunk, idx, caption, limits, j);
  }

  // ---------------------------------------------------------------------------------------
  // Sending one chunk

  /** Whether the media group's first item gets the caption. */
  predicate GroupCaption(rule: CaptionRule, caption: string, idx: nat, diverted: seq<Diverted>) {
    idx == 0 && caption != "" &&
    match rule
    case AsWritten => |diverted| == 0
    case Intended => forall k :: 0 <= k < |diverted| ==> diverted[k].caption == ""
  }

  /** The `media` JSON: every kept item in order, the caption (if any) on the first. */
  function Members(kept: seq<Kept>, base: nat, captionFirst: Option<string>): (r: seq<Member>)
    ensures |r| == |kept|
    ensures forall k :: 0 <= k < |r| ==> r[k].item == base + kept[k].pos && r[k].kind == kept[k].kind
    ensures forall k :: 0 <= k < |r| ==> r[k].caption == (if k == 0 then captionFirst else None)
  {
    seq(|kept|, k requires 0 <= k < |kept| => Member(base + kept[k].pos, kept[k].kind, if k == 0 then captionFirst else None))
  }

  datatype Sends = Sends(messageIds: seq<Option<int>>, trace: seq<Step>)

  /** The diverted photos, each sent as a document without a reply; a refused document is passed over. */
  function SendDocuments(diverted: seq<Diverted>, base: nat, bot: Request -> Reply): (r: Sends)
    ensures |r.trace| == |diverted|
    ensures forall k :: 0 <= k < |diverted| ==>
              r.trace[k] == Call(SendDocument(base + diverted[k].pos, CaptionField(diverted[k].caption), None))
    ensures |r.messageIds| <= |diverted|
    ensures (forall k :: 0 <= k < |diverted| ==> r.trace[k].Call? && bot(r.trace[k].request).Accepted?) ==> |r.messageIds| == |diverted|
    ensures r.messageIds == TraceIds(r.trace, bot)
    decreases |diverted|
  {
    if |diverted| == 0 then Sends([], [])
    else
      var req := SendDocument(base + diverted[0].pos, CaptionField(diverted[0].caption), None);
      var rest := SendDocuments(diverted[1..], base, bot);
      var ids := ReplyIds(req, bot(req));
      var trace := [Call(req)] + rest.trace;
      assert trace[0] == Call(req) && trace[1..] == rest.trace;
      assert TraceIds(trace, bot) == ids + TraceIds(rest.trace, bot);
      Sends(ids + rest.messageIds, trace)
  }

  /** What one chunk did: the message ids it adds, its steps, and the response that ends the relay, if any. */
  datatype ChunkResult = ChunkResult(messageIds: seq<Option<int>>, trace: seq<Step>, stop: Option<Response>)

  function Pauses(s: Settings, idx: nat): seq<Step> {
    if idx > 0 && s.chunkDelay > 0 then [Pause(s.chunkDelay)] else []
  }

  /** Every call in `trace` carries only items of the chunk starting at `base`, each one that can reach the bot. */
  ghost predicate OnlySendable(trace: seq<Step>, chunk: seq<MediaItem>, base: nat, limits: Limits) {
    forall k, g: nat :: 0 <= k < |trace| && trace[k].Call? && Mentions(trace[k].request, g) ==>
      base <= g < base + |chunk| && Sendable(chunk[g - base], limits)
  }

  /** Every item downloads as a photo or video and is over `max_asset_data_size`. */
  predicate AllOverDataSize(chunk: seq<MediaItem>, limits: Limits) {
    forall i :: 0 <= i < |chunk| ==> !Aborts(chunk[i]) && OverDataSize(chunk[i].download.size, limits.maxAssetDataSize)
  }

  /**
   * A chunk of one item: the single photo send when its type is (or defaults to) photo, the
   * single video send for any other type; the caption and reply only on the first chunk.
   */
  function SingleChunk(s: Settings, item: MediaItem, idx: nat, bot: Request -> Reply): (r: Run)
    requires s.maxGroupSize >= 1
    ensures !r.response.GroupSent?
    ensures |r.trace| <= 1
    ensures r.trace != [] ==> r.trace[0].Call? && SingleMedia(r.trace[0].request)
    ensures r.trace != [] ==> r.trace[0].request.item == idx * s.maxGroupSize && Sendable(item, s.limits)
    ensures r.trace != [] && idx > 0 ==> r.trace[0].request.replyTo.None? && r.trace[0].request.caption.None?
    ensures r.trace != [] && idx == 0 ==>
              r.trace[0].request.caption == CaptionField(s.caption) && r.trace[0].request.replyTo == ReplyField(s.replyTo)
    ensures r.trace != [] ==> r.response == ReadReply(bot(r.trace[0].request))
    ensures r.response.Sent? ==> [r.response.messageId] == TraceIds(r.trace, bot)
    ensures r.trace != [] ==> (r.trace[0].request.SendVideo? <==> KindOf(item) != "photo")
  {
    var caption := if idx == 0 then s.caption else "";
    var replyTo := if idx == 0 then s.replyTo else None;
    if KindOf(item) == "photo" then SendPhotoItem(item, idx * s.maxGroupSize, caption, replyTo, s.limits, bot)
    else SendVideoItem(item, idx * s.maxGroupSize, caption, replyTo, s.limits, bot)
  }

  /**
   * Which send decides a one-item chunk: a photo goes through the photo path and anything else
   * through the video path, with the caption and reply only on the first chunk. So no call is
   * made exactly when that path fails before calling, and an item that cannot reach the bot
   * is never sent.
   */
  lemma SingleChunkSends(s: Settings, item: MediaItem, idx: nat, bot: Request -> Reply)
    requires s.maxGroupSize >= 1
    ensures var r := SingleChunk(s, item, idx, bot);
      var caption := if idx == 0 then s.caption else "";
      var replyTo := if idx == 0 then s.replyTo else None;
      && (KindOf(item) == "photo" ==> r == SendPhotoItem(item, idx * s.maxGroupSize, caption, replyTo, s.limits, bot))
      && (KindOf(item) != "photo" ==> r == SendVideoItem(item, idx * s.maxGroupSize, caption, replyTo, s.limits, bot))
      && (r.trace == [] <==> r.response.Failed? && !r.response.failure.Rejected? && !r.response.failure.SendError?)
      && (!Sendable(item, s.limits) ==> r.trace == [] && r.response.Failed?)
  {
  }

  /** A chunk of several items: the scan, then the media group of kept items, then the diverted documents. */
  function GroupChunk(rule: CaptionRule, s: Settings, chunk: seq<MediaItem>, idx: nat, bot: Request -> Reply): (r: ChunkResult)
    requires s.maxGroupSize >= 1
    ensures r.stop.Some? ==> r.stop.value.Failed?
    ensures r.stop.None? ==> r.messageIds == TraceIds(r.trace, bot)
  {
    match ScanChunk(chunk, idx, s.caption, s.limits, |chunk|)
    case ScanAborted(f) => ChunkResult([], [], Some(Failed(f, None)))
    case Scanned(kept, diverted, _) => GroupSend(rule, s, idx, idx * s.maxGroupSize, kept, diverted, bot)
  }

  /** The `sendMediaGroup` request for the kept items of the chunk starting at `base`: the reply only on the first chunk. */
  function GroupRequest(rule: CaptionRule, s: Settings, idx: nat, base: nat, kept: seq<Kept>, diverted: seq<Diverted>): (r: Request)
    ensures r.SendMediaGroup? && |r.members| == |kept|
    ensures r.replyTo.Some? <==> idx == 0 && ReplyField(s.replyTo).Some?
    ensures idx == 0 ==> r.replyTo == ReplyField(s.replyTo)
    ensures forall k :: 0 <= k < |kept| ==> r.members[k].item == base + kept[k].pos
  {
    SendMediaGroup(
      Members(kept, base, if GroupCaption(rule, s.caption, idx, diverted) then Some(s.caption) else None),
      if idx == 0 then ReplyField(s.replyTo) else None)
  }

  /**
   * After the scan: the media group when something was kept (a refused group ends the relay),
   * then the diverted photos as documents. Nothing is sent when nothing was kept or diverted.
   */
  function GroupSend(rule: CaptionRule, s: Settings, idx: nat, base: nat, kept: seq<Kept>, diverted: seq<Diverted>,
                     bot: Request -> Reply): (r: ChunkResult)
    ensures r.stop.Some? ==> r.stop.value.Failed? && r.stop.value.failedAtChunk == Some(idx + 1)
    ensures |kept| == 0 ==> r == ChunkResult(SendDocuments(diverted, base, bot).messageIds, SendDocuments(diverted, base, bot).trace, None)
    ensures |kept| > 0 ==> |r.trace| > 0 && r.trace[0] == Call(GroupRequest(rule, s, idx, base, kept, diverted))
    ensures |kept| > 0 ==> r.trace[1..] == (if r.stop.None? then SendDocuments(diverted, base, bot).trace else [])
    ensures |kept| > 0 ==> (r.stop.None? <==> bot(GroupRequest(rule, s, idx, base, kept, diverted)).Accepted?)
    ensures |kept| > 0 && r.stop.None? ==>
              r.messageIds == bot(GroupRequest(rule, s, idx, base, kept, diverted)).messageIds + SendDocuments(diverted, base, bot).messageIds
    ensures r.stop.None? ==> r.messageIds == TraceIds(r.trace, bot)
    ensures |kept| > 0 && r.stop.Some? ==>
              r.stop.value == Failed(ReadReply(bot(GroupRequest(rule, s, idx, base, kept, diverted))).failure, Some(idx + 1))
  {
    var docs := SendDocuments(diverted, base, bot);
    if |kept| == 0 then ChunkResult(docs.messageIds, docs.trace, None)
    else
      var req := GroupRequest(rule, s, idx, base, kept, diverted);
      match bot(req)
      case Accepted(ids) =>
        assert ([Call(req)] + docs.trace)[1..] == docs.trace;
        ChunkResult(ids + docs.messageIds, [Call(req)] + docs.trace, None)
      case Refused(code, desc) =>
        ChunkResult([], [Call(req)], Some(Failed(Rejected(code, desc.GetOr(UnknownError)), Some(idx + 1))))
      case ConnectionError => ChunkResult([], [Call(req)], Some(Failed(SendError, Some(idx + 1))))
  }

  /** The group and document sends make only calls, and past the first chunk none of them replies to a message. */
  lemma GroupSendCalls(rule: CaptionRule, s: Settings, idx: nat, base: nat, kept: seq<Kept>, diverted: seq<Diverted>,
                       bot: Request -> Reply)
    ensures var c := GroupSend(rule, s, idx, base, kept, diverted, bot);
      forall k :: 0 <= k < |c.trace| ==> c.trace[k].Call? && (idx > 0 ==> c.trace[k].request.replyTo.None?)
  {
    var c := GroupSend(rule, s, idx, base, kept, diverted, bot);
    var docs := SendDocuments(diverted, base, bot);
    forall k | 0 <= k < |c.trace|
      ensures c.trace[k].Call? && (idx > 0 ==> c.trace[k].request.replyTo.None?)
    {
      if |kept| > 0 && k > 0 {
        assert c.trace[k] == c.trace[1..][k - 1];
      }
    }
  }

  /** A media-group chunk makes only calls, and past the first chunk none of them replies to a message. */
  lemma GroupChunkCalls(rule: CaptionRule, s: Settings, chunk: seq<MediaItem>, idx: nat, bot: Request -> Reply)
    requires s.maxGroupSize >= 1
    ensures var c := GroupChunk(rule, s, chunk, idx, bot);
      forall k :: 0 <= k < |c.trace| ==> c.trace[k].Call? && (idx > 0 ==> c.trace[k].request.replyTo.None?)
  {
    var scan := ScanChunk(chunk, idx, s.caption, s.limits, |chunk|);
    if scan.Scanned? {
      GroupSendCalls(rule, s, idx, idx * s.maxGroupSize, scan.kept, scan.diverted, bot);
    }
  }

  /** The group and document sends carry only kept and diverted items, and so only items that can reach the bot. */
  lemma GroupSendItems(rule: CaptionRule, s: Settings, idx: nat, base: nat, kept: seq<Kept>, diverted: seq<Diverted>,
                       bot: Request -> Reply, chunk: seq<MediaItem>)
    requires forall k :: 0 <= k < |kept| ==> kept[k].pos < |chunk| && Keeps(chunk[kept[k].pos], s.limits)
    requires forall k :: 0 <= k < |diverted| ==> diverted[k].pos < |chunk| && Diverts(chunk[diverted[k].pos], s.limits)
    ensures OnlySendable(GroupSend(rule, s, idx, base, kept, diverted, bot).trace, chunk, base, s.limits)
  {
    var c := GroupSend(rule, s, idx, base, kept, diverted, bot);
    var docs := SendDocuments(diverted, base, bot);
    DocumentItems(diverted, base, bot, chunk, s.limits);
    if |kept| > 0 {
      var group := [Call(GroupRequest(rule, s, idx, base, kept, diverted))];
      GroupRequestItems(rule, s, idx, base, kept, diverted, chunk);
      if c.stop.None? {
        assert c.trace == group + docs.trace;
        OnlySendableAppend(group, docs.trace, c.trace, chunk, base, s.limits);
      } else {
        assert c.trace == group;
      }
    }
  }

  /** The media group names only kept items of the chunk. */
  lemma GroupRequestItems(rule: CaptionRule, s: Settings, idx: nat, base: nat, kept: seq<Kept>, diverted: seq<Diverted>,
                          chunk: seq<MediaItem>)
    requires forall k :: 0 <= k < |kept| ==> kept[k].pos < |chunk| && Keeps(chunk[kept[k].pos], s.limits)
    ensures OnlySendable([Call(GroupRequest(rule, s, idx, base, kept, diverted))], chunk, base, s.limits)
  {
    var req := GroupRequest(rule, s, idx, base, kept, diverted);
    forall g: nat | Mentions(req, g)
      ensures base <= g < base + |chunk| && Sendable(chunk[g - base], s.limits)
    {
      var m :| 0 <= m < |req.members| && req.members[m].item == g;
      assert Keeps(chunk[kept[m].pos], s.limits);
    }
  }

  /** The documents name only diverted photos of the chunk. */
  lemma DocumentItems(diverted: seq<Diverted>, base: nat, bot: Request -> Reply, chunk: seq<MediaItem>, limits: Limits)
    requires forall k :: 0 <= k < |diverted| ==> diverted[k].pos < |chunk| && Diverts(chunk[diverted[k].pos], limits)
    ensures OnlySendable(SendDocuments(diverted, base, bot).trace, chunk, base, limits)
  {
    var docs := SendDocuments(diverted, base, bot);
    forall k, g: nat | 0 <= k < |docs.trace| && docs.trace[k].Call? && Mentions(docs.trace[k].request, g)
      ensures base <= g < base + |chunk| && Sendable(chunk[g - base], limits)
    {
      assert Diverts(chunk[diverted[k].pos], limits);
    }
  }

  /** A media-group chunk sends only its own items, and only those that downloaded within the data limit. */
  lemma GroupChunkItems(rule: CaptionRule, s: Settings, chunk: seq<MediaItem>, idx: nat, bot: Request -> Reply)
    requires s.maxGroupSize >= 1
    ensures OnlySendable(GroupChunk(rule, s, chunk, idx, bot).trace, chunk, idx * s.maxGroupSize, s.limits)
  {
    var scan := ScanChunk(chunk, idx, s.caption, s.limits, |chunk|);
    if scan.Scanned? {
      ScanKeptSound(chunk, idx, s.caption, s.limits, |chunk|);
      ScanDivertedSound(chunk, idx, s.caption, s.limits, |chunk|);
      GroupSendItems(rule, s, idx, idx * s.maxGroupSize, scan.kept, scan.diverted, bot, chunk);
    }
  }

  /** Scanning a chunk whose items are all over the data limit keeps and diverts nothing. */
  lemma {:induction false} ScanAllOver(chunk: seq<MediaItem>, idx: nat, caption: string, limits: Limits, j: nat)
    requires j <= |chunk|
    requires AllOverDataSize(chunk, limits)
    ensures ScanChunk(chunk, idx, caption, limits, j) == Scanned([], [], j)
    decreases j
  {
    if j > 0 {
      ScanAllOver(chunk, idx, caption, limits, j - 1);
    }
  }

  /** A media-group chunk whose items are all over the data limit sends nothing and does not stop the relay. */
  lemma GroupChunkAllSkipped(rule: CaptionRule, s: Settings, chunk: seq<MediaItem>, idx: nat, bot: Request -> Reply)
    requires s.maxGroupSize >= 1
    requires AllOverDataSize(chunk, s.limits)
    ensures GroupChunk(rule, s, chunk, idx, bot) == ChunkResult([], [], None)
  {
    ScanAllOver(chunk, idx, s.caption, s.limits, |chunk|);
  }

  /**
   * Chunk `idx`: the pause before every chunk but the first, then the single send or the media
   * group. A one-item chunk that is not sent ends the relay, a skipped item included.
   */
  function ChunkRun(rule: CaptionRule, s: Settings, chunk: seq<MediaItem>, idx: nat, bot: Request -> Reply): (r: ChunkResult)
    requires s.maxGroupSize >= 1
    ensures r.stop.Some? ==> r.stop.value.Failed?
  {
    var pause := Pauses(s, idx);
    if |chunk| == 1 then
      var run := SingleChunk(s, chunk[0], idx, bot);
      if run.response.Sent? then ChunkResult([run.response.messageId], pause + run.trace, None)
      else ChunkResult([], pause + run.trace, Some(Failed(run.response.failure, Some(idx + 1))))
    else
      var c := GroupChunk(rule, s, chunk, idx, bot);
      ChunkResult(c.messageIds, pause + c.trace, c.stop)
  }

  /** A one-item chunk stops the relay exactly when its single send fails, and reports that failure at chunk `idx + 1`. */
  lemma ChunkRunSingle(rule: CaptionRule, s: Settings, chunk: seq<MediaItem>, idx: nat, bot: Request -> Reply)
    requires s.maxGroupSize >= 1
    requires |chunk| == 1
    ensures var r := ChunkRun(rule, s, chunk, idx, bot);
      && (r.stop.Some? <==> SingleChunk(s, chunk[0], idx, bot).response.Failed?)
      && (r.stop.Some? ==> r.stop.value == Failed(SingleChunk(s, chunk[0], idx, bot).response.failure, Some(idx + 1)))
  {
  }

  /**
   * The message ids a chunk that does not stop the relay adds: the single send's id for a
   * one-item chunk, and in general the ids of every call of the chunk the bot accepted.
   */
  lemma ChunkRunIds(rule: CaptionRule, s: Settings, chunk: seq<MediaItem>, idx: nat, bot: Request -> Reply)
    requires s.maxGroupSize >= 1
    ensures var r := ChunkRun(rule, s, chunk, idx, bot);
      && (|chunk| == 1 && r.stop.None? ==> r.messageIds == [SingleChunk(s, chunk[0], idx, bot).response.messageId])
      && (r.stop.None? ==> r.messageIds == TraceIds(r.trace, bot))
  {
    ChunkRunTraceIds(rule, s, chunk, idx, bot);
  }

  lemma ChunkRunTraceIds(rule: CaptionRule, s: Settings, chunk: seq<MediaItem>, idx: nat, bot: Request -> Reply)
    requires s.maxGroupSize >= 1
    ensures AccountsIds(ChunkRun(rule, s, chunk, idx, bot), bot)
  {
    var pause := Pauses(s, idx);
    assert TraceIds(pause, bot) == [];
    if |chunk| == 1 {
      TraceIdsAppend(pause, SingleChunk(s, chunk[0], idx, bot).trace, bot);
    } else {
      TraceIdsAppend(pause, GroupChunk(rule, s, chunk, idx, bot).trace, bot);
    }
  }

  /** A multi-item chunk whose items are all over `max_asset_data_size` is passed over: its pause, and nothing else. */
  lemma ChunkAllSkipped(rule: CaptionRule, s: Settings, chunk: seq<MediaItem>, idx: nat, bot: Request -> Reply)
    requires s.maxGroupSize >= 1
    requires |chunk| != 1 && AllOverDataSize(chunk, s.limits)
    ensures ChunkRun(rule, s, chunk, idx, bot) == ChunkResult([], Pauses(s, idx), None)
  {
    GroupChunkAllSkipped(rule, s, chunk, idx, bot);
  }

  /** After its pause a chunk makes only bot calls, and only the first chunk's calls reply to a message. */
  lemma ChunkCalls(rule: CaptionRule, s: Settings, chunk: seq<MediaItem>, idx: nat, bot: Request -> Reply)
    requires s.maxGroupSize >= 1
    ensures var r := ChunkRun(rule, s, chunk, idx, bot);
      forall k :: |Pauses(s, idx)| <= k < |r.trace| ==> r.trace[k].Call? && (idx > 0 ==> r.trace[k].request.replyTo.None?)
  {
    if |chunk| != 1 {
      GroupChunkCalls(rule, s, chunk, idx, bot);
    }
  }

  /** A chunk sends only its own items, and never one that failed to download or is over the data limit. */
  lemma ChunkSendsOwnItems(rule: CaptionRule, s: Settings, chunk: seq<MediaItem>, idx: nat, bot: Request -> Reply)
    requires s.maxGroupSize >= 1
    ensures OnlySendable(ChunkRun(rule, s, chunk, idx, bot).trace, chunk, idx * s.maxGroupSize, s.limits)
  {
    PausesCarryNothing(s, idx, chunk, idx * s.maxGroupSize);
    if |chunk| == 1 {
      SingleChunkItems(s, chunk, idx, bot);
      OnlySendableAppend(Pauses(s, idx), SingleChunk(s, chunk[0], idx, bot).trace, ChunkRun(rule, s, chunk, idx, bot).trace,
                         chunk, idx * s.maxGroupSize, s.limits);
    } else {
      GroupChunkItems(rule, s, chunk, idx, bot);
      OnlySendableAppend(Pauses(s, idx), GroupChunk(rule, s, chunk, idx, bot).trace, ChunkRun(rule, s, chunk, idx, bot).trace,
                         chunk, idx * s.maxGroupSize, s.limits);
    }
  }

  lemma PausesCarryNothing(s: Settings, idx: nat, chunk: seq<MediaItem>, base: nat)
    ensures OnlySendable(Pauses(s, idx), chunk, base, s.limits)
  {
  }

  /** A one-item chunk sends at most its own item, and only when it can reach the bot. */
  lemma SingleChunkItems(s: Settings, chunk: seq<MediaItem>, idx: nat, bot: Request -> Reply)
    requires s.maxGroupSize >= 1
    requires |chunk| == 1
    ensures OnlySendable(SingleChunk(s, chunk[0], idx, bot).trace, chunk, idx * s.maxGroupSize, s.limits)
  {
  }

  lemma OnlySendableAppend(a: seq<Step>, b: seq<Step>, ab: seq<Step>, chunk: seq<MediaItem>, base: nat, limits: Limits)
    requires OnlySendable(a, chunk, base, limits) && OnlySendable(b, chunk, base, limits)
    requires ab == a + b
    ensures OnlySendable(ab, chunk, base, limits)
  {
    forall k, g: nat | 0 <= k < |ab| && ab[k].Call? && Mentions(ab[k].request, g)
      ensures base <= g < base + |chunk| && Sendable(chunk[g - base], limits)
    {
      if k >= |a| {
        assert ab[k] == b[k - |a|];
      } else {
        assert ab[k] == a[k];
      }
    }
  }

  // ---------------------------------------------------------------------------------------
  // The relay

  datatype Progress =
    | Going(messageIds: seq<Option<int>>, trace: seq<Step>)
    | Stopped(response: Response, trace: seq<Step>)

  /** One chunk's effect: a stopped relay stays as it is; a going one stops at a chunk that stops it and otherwise collects its ids. */
  function Advance(prev: Progress, c: ChunkResult): Progress {
    match prev
    case Stopped(_, _) => prev
    case Going(ids, trace) =>
      match c.stop
      case Some(resp) => Stopped(resp, trace + c.trace)
      case None => Going(ids + c.messageIds, trace + c.trace)
  }

  /** The first `k` chunks, stopping at the first chunk that ends the relay. */
  function GroupProgress(rule: CaptionRule, s: Settings, chunks: seq<seq<MediaItem>>, bot: Request -> Reply, k: nat): (r: Progress)
    requires s.maxGroupSize >= 1
    requires k <= |chunks|
    ensures r.Stopped? ==> r.response.Failed? && r.response.failedAtChunk.Some? ==> r.response.failedAtChunk.value <= k
    ensures r.Stopped? ==> r.response.Failed?
    decreases k
  {
    if k == 0 then Going([], [])
    else Advance(GroupProgress(rule, s, chunks, bot, k - 1), ChunkRun(rule, s, chunks[k - 1], k - 1, bot))
  }

  /** The results of chunks `0 .. k - 1`, each run on its own. */
  function Runs(rule: CaptionRule, s: Settings, chunks: seq<seq<MediaItem>>, bot: Request -> Reply, k: nat): (r: seq<ChunkResult>)
    requires s.maxGroupSize >= 1
    requires k <= |chunks|
    ensures |r| == k
  {
    seq(k, i requires 0 <= i < k => ChunkRun(rule, s, chunks[i], i, bot))
  }

  /** The relay over a list of chunk results. */
  function Fold(runs: seq<ChunkResult>): Progress {
    if |runs| == 0 then Going([], []) else Advance(Fold(runs[..|runs| - 1]), runs[|runs| - 1])
  }

  /** The relay is the fold of its chunks' results. */
  lemma {:induction false} ProgressIsFold(rule: CaptionRule, s: Settings, chunks: seq<seq<MediaItem>>, bot: Request -> Reply, k: nat)
    requires s.maxGroupSize >= 1
    requires k <= |chunks|
    ensures GroupProgress(rule, s, chunks, bot, k) == Fold(Runs(rule, s, chunks, bot, k))
    decreases k
  {
    if k > 0 {
      ProgressIsFold(rule, s, chunks, bot, k - 1);
      assert Runs(rule, s, chunks, bot, k)[..k - 1] == Runs(rule, s, chunks, bot, k - 1);
    }
  }

  /** A chunk that does not stop the relay reports the ids its trace's accepted calls returned. */
  predicate AccountsIds(c: ChunkResult, bot: Request -> Reply) {
    c.stop.None? ==> c.messageIds == TraceIds(c.trace, bot)
  }

  ghost predicate RunsAccountIds(runs: seq<ChunkResult>, bot: Request -> Reply) {
    forall i :: 0 <= i < |runs| ==> AccountsIds(runs[i], bot)
  }

  /** Chunk by chunk, ids accounted for add up to a relay whose ids are those of its trace. */
  lemma {:induction false} FoldIds(runs: seq<ChunkResult>, bot: Request -> Reply)
    requires RunsAccountIds(runs, bot)
    ensures Fold(runs).Going? ==> Fold(runs).messageIds == TraceIds(Fold(runs).trace, bot)
    decreases |runs|
  {
    if |runs| > 0 {
      var init := runs[..|runs| - 1];
      assert RunsAccountIds(init, bot) by {
        forall i | 0 <= i < |init| ensures init[i] == runs[i] { }
      }
      FoldIds(init, bot);
      var prev := Fold(init);
      var c := runs[|runs| - 1];
      if prev.Going? && c.stop.None? {
        TraceIdsAppend(prev.trace, c.trace, bot);
      }
    }
  }

  /**
   * `message_ids` accounting: while the relay is going, the ids it has collected are exactly
   * those of the calls in its trace the bot accepted, in call order.
   */
  lemma ProgressIds(rule: CaptionRule, s: Settings, chunks: seq<seq<MediaItem>>, bot: Request -> Reply, k: nat)
    requires s.maxGroupSize >= 1
    requires k <= |chunks|
    ensures var r := GroupProgress(rule, s, chunks, bot, k);
      r.Going? ==> r.messageIds == TraceIds(r.trace, bot)
  {
    ProgressIsFold(rule, s, chunks, bot, k);
    var runs := Runs(rule, s, chunks, bot, k);
    forall i | 0 <= i < k ensures AccountsIds(runs[i], bot) {
      ChunkRunTraceIds(rule, s, chunks[i], i, bot);
    }
    FoldIds(runs, bot);
  }

  /** The position of the first chunk result that stops the relay. */
  predicate FirstStopAt(runs: seq<ChunkResult>, j: nat) {
    j < |runs| && runs[j].stop.Some? && forall i :: 0 <= i < j ==> runs[i].stop.None?
  }

  /** The fold keeps going exactly as long as no chunk result stops it. */
  lemma {:induction false} FoldGoing(runs: seq<ChunkResult>)
    ensures Fold(runs).Going? <==> forall i :: 0 <= i < |runs| ==> runs[i].stop.None?
    decreases |runs|
  {
    if |runs| > 0 {
      var init := runs[..|runs| - 1];
      FoldGoing(init);
      assert forall i :: 0 <= i < |init| ==> init[i] == runs[i];
    }
  }

  /** The fold ends with the first stopping result: its response, and the trace up to and including that chunk. */
  lemma {:induction false} FoldStopsAt(runs: seq<ChunkResult>, j: nat)
    requires FirstStopAt(runs, j)
    ensures Fold(runs[..j]).Going?
    ensures Fold(runs) == Stopped(runs[j].stop.value, Fold(runs[..j]).trace + runs[j].trace)
    decreases |runs|
  {
    var init := runs[..|runs| - 1];
    assert forall i :: 0 <= i < j ==> runs[..j][i] == runs[i];
    FoldGoing(runs[..j]);
    if j < |runs| - 1 {
      assert forall i :: 0 <= i <= j ==> init[i] == runs[i];
      assert init[..j] == runs[..j];
      FoldStopsAt(init, j);
    } else {
      assert init == runs[..j];
    }
  }

  /**
   * A non-success result stops the loop: the relay reports success exactly when no chunk stops
   * it, and otherwise answers with the first stopping chunk's failure, having made the calls of
   * the chunks before it and of that chunk, and no later call.
   */
  lemma RelayStopsAtFirstFailure(rule: CaptionRule, s: Settings, items: seq<MediaItem>, bot: Request -> Reply)
    requires s.maxGroupSize >= 1
    ensures var chunks := Chunks(items, s.maxGroupSize);
      GroupRelay(rule, s, items, bot).response.GroupSent? <==>
        forall j :: 0 <= j < |chunks| ==> ChunkRun(rule, s, chunks[j], j, bot).stop.None?
  {
    var chunks := Chunks(items, s.maxGroupSize);
    ProgressGoing(rule, s, chunks, bot, |chunks|);
    var p := GroupProgress(rule, s, chunks, bot, |chunks|);
    assert GroupRelay(rule, s, items, bot).response.GroupSent? <==> p.Going?;
  }

  /** The first `k` chunks leave the relay going exactly when none of them stops it. */
  lemma ProgressGoing(rule: CaptionRule, s: Settings, chunks: seq<seq<MediaItem>>, bot: Request -> Reply, k: nat)
    requires s.maxGroupSize >= 1
    requires k <= |chunks|
    ensures GroupProgress(rule, s, chunks, bot, k).Going? <==>
            forall j :: 0 <= j < k ==> ChunkRun(rule, s, chunks[j], j, bot).stop.None?
  {
    ProgressIsFold(rule, s, chunks, bot, k);
    var runs := Runs(rule, s, chunks, bot, k);
    FoldGoing(runs);
    assert forall j :: 0 <= j < k ==> runs[j] == ChunkRun(rule, s, chunks[j], j, bot);
  }

  lemma RelayFailsAtFirstStop(rule: CaptionRule, s: Settings, items: seq<MediaItem>, bot: Request -> Reply, j: nat)
    requires s.maxGroupSize >= 1
    requires j < |Chunks(items, s.maxGroupSize)|
    requires ChunkRun(rule, s, Chunks(items, s.maxGroupSize)[j], j, bot).stop.Some?
    requires forall i :: 0 <= i < j ==> ChunkRun(rule, s, Chunks(items, s.maxGroupSize)[i], i, bot).stop.None?
    ensures var chunks := Chunks(items, s.maxGroupSize);
      var c := ChunkRun(rule, s, chunks[j], j, bot);
      && GroupProgress(rule, s, chunks, bot, j).Going?
      && GroupRelay(rule, s, items, bot) == Run(c.stop.value, GroupProgress(rule, s, chunks, bot, j).trace + c.trace)
  {
    var chunks := Chunks(items, s.maxGroupSize);
    ProgressStopsAt(rule, s, chunks, bot, j);
  }

  /** The progress over all chunks ends with the first stopping chunk's response and the trace up to it. */
  lemma ProgressStopsAt(rule: CaptionRule, s: Settings, chunks: seq<seq<MediaItem>>, bot: Request -> Reply, j: nat)
    requires s.maxGroupSize >= 1
    requires j < |chunks|
    requires ChunkRun(rule, s, chunks[j], j, bot).stop.Some?
    requires forall i :: 0 <= i < j ==> ChunkRun(rule, s, chunks[i], i, bot).stop.None?
    ensures var c := ChunkRun(rule, s, chunks[j], j, bot);
      && GroupProgress(rule, s, chunks, bot, j).Going?
      && GroupProgress(rule, s, chunks, bot, |chunks|) == Stopped(c.stop.value, GroupProgress(rule, s, chunks, bot, j).trace + c.trace)
  {
    var runs := Runs(rule, s, chunks, bot, |chunks|);
    assert FirstStopAt(runs, j) by {
      forall i | 0 <= i < j ensures runs[i].stop.None? {
        assert runs[i] == ChunkRun(rule, s, chunks[i], i, bot);
      }
      assert runs[j] == ChunkRun(rule, s, chunks[j], j, bot);
    }
    FoldStopsAt(runs, j);
    ProgressIsFold(rule, s, chunks, bot, |chunks|);
    ProgressIsFold(rule, s, chunks, bot, j);
    assert runs[..j] == Runs(rule, s, chunks, bot, j);
  }

  /** `_send_telegram_media_group`: success reports every chunk as sent, skipped chunks included. */
  function GroupRelay(rule: CaptionRule, s: Settings, items: seq<MediaItem>, bot: Request -> Reply): (r: Run)
    requires s.maxGroupSize >= 1
    ensures !r.response.Sent?
    ensures r.response.GroupSent? ==> r.response.chunksSent == |Chunks(items, s.maxGroupSize)|
    ensures r.response.GroupSent? ==> r.response.messageIds == TraceIds(r.trace, bot)
  {
    var chunks := Chunks(items, s.maxGroupSize);
    ProgressIds(rule, s, chunks, bot, |chunks|);
    match GroupProgress(rule, s, chunks, bot, |chunks|)
    case Going(ids, trace) => Run(GroupSent(ids, |chunks|), trace)
    case Stopped(resp, trace) => Run(resp, trace)
  }

  /** `_execute_telegram_notification` under a caption rule. */
  function RelayWith(rule: CaptionRule, s: Settings, items: seq<MediaItem>, bot: Request -> Reply): (r: Run)
    requires s.maxGroupSize >= 1
    ensures Token(s) == "" ==> r == Run(Failed(NoToken, None), [])
    ensures Token(s) != "" && |items| == 0 ==> r == SendText(s.caption, s.replyTo, bot)
    ensures Token(s) != "" && |items| == 1 && KindOf(items[0]) == "photo" ==>
              r == SendPhotoItem(items[0], 0, s.caption, s.replyTo, s.limits, bot)
    ensures Token(s) != "" && |items| == 1 && items[0].kind == Given("video") ==>
              r == SendVideoItem(items[0], 0, s.caption, s.replyTo, s.limits, bot)
    ensures Token(s) != "" && (|items| >= 2 || (|items| == 1 && KindOf(items[0]) != "photo" && KindOf(items[0]) != "video")) ==>
              r == GroupRelay(rule, s, items, bot)
  {
    if Token(s) == "" then Run(Failed(NoToken, None), [])
    else if |items| == 0 then SendText(s.caption, s.replyTo, bot)
    else if |items| == 1 && KindOf(items[0]) == "photo" then SendPhotoItem(items[0], 0, s.caption, s.replyTo, s.limits, bot)
    else if |items| == 1 && items[0].kind == Given("video") then SendVideoItem(items[0], 0, s.caption, s.replyTo, s.limits, bot)
    else GroupRelay(rule, s, items, bot)
  }

  /** The relay with the caption rule its comment describes. */
  function Relay(s: Settings, items: seq<MediaItem>, bot: Request -> Reply): Run
    requires s.maxGroupSize >= 1
  {
    RelayWith(Intended, s, items, bot)
  }

  /** The relay with the caption rule as the source tests it. */
  function RelayAsWritten(s: Settings, items: seq<MediaItem>, bot: Request -> Reply): Run
    requires s.maxGroupSize >= 1
  {
    RelayWith(AsWritten, s, items, bot)
  }

  // ---------------------------------------------------------------------------------------
  // What the relay sends

  /** Every call in `trace` carries only positions of `items` whose item can reach the bot. */
  ghost predicate SendsOnlySendable(trace: seq<Step>, items: seq<MediaItem>, limits: Limits) {
    forall k, g: nat {:trigger Mentions(trace[k].request, g)} ::
      0 <= k < |trace| && trace[k].Call? && Mentions(trace[k].request, g) ==>
      g < |items| && Sendable(items[g], limits)
  }

  lemma SendsOnlySendableAppend(a: seq<Step>, b: seq<Step>, ab: seq<Step>, items: seq<MediaItem>, limits: Limits)
    requires SendsOnlySendable(a, items, limits) && SendsOnlySendable(b, items, limits)
    requires ab == a + b
    ensures SendsOnlySendable(ab, items, limits)
  {
    forall k, g: nat | 0 <= k < |ab| && ab[k].Call? && Mentions(ab[k].request, g)
      ensures g < |items| && Sendable(items[g], limits)
    {
      if k >= |a| {
        assert ab[k] == b[k - |a|];
      } else {
        assert ab[k] == a[k];
      }
    }
  }

  /** A chunk's guarantee, read against the whole list. */
  lemma ChunkToItems(trace: seq<Step>, chunk: seq<MediaItem>, base: nat, items: seq<MediaItem>, limits: Limits)
    requires base + |chunk| <= |items| && chunk == items[base .. base + |chunk|]
    requires OnlySendable(trace, chunk, base, limits)
    ensures SendsOnlySendable(trace, items, limits)
  {
    forall k, g: nat | 0 <= k < |trace| && trace[k].Call? && Mentions(trace[k].request, g)
      ensures g < |items| && Sendable(items[g], limits)
    {
      assert chunk[g - base] == items[g];
    }
  }

  /** Chunk `k` as a slice of the list starting at `k * size`. */
  lemma ChunkSlice<T>(s: seq<T>, size: nat, k: nat)
    requires size >= 1
    requires k < |Chunks(s, size)|
    ensures k * size + |Chunks(s, size)[k]| <= |s|
    ensures Chunks(s, size)[k] == s[k * size .. k * size + |Chunks(s, size)[k]|]
  {
    ChunkAt(s, size, k);
  }

  /** Every chunk on its own sends only items of the list that can reach the bot. */
  ghost predicate RunsSendOnlySendable(runs: seq<ChunkResult>, items: seq<MediaItem>, limits: Limits) {
    forall i :: 0 <= i < |runs| ==> SendsOnlySendable(runs[i].trace, items, limits)
  }

  /** When every chunk on its own sends only sendable items, so does the relay over them. */
  lemma {:induction false} FoldSendsOnlySendable(runs: seq<ChunkResult>, items: seq<MediaItem>, limits: Limits)
    requires RunsSendOnlySendable(runs, items, limits)
    ensures SendsOnlySendable(Fold(runs).trace, items, limits)
    decreases |runs|
  {
    if |runs| > 0 {
      var init := runs[..|runs| - 1];
      assert RunsSendOnlySendable(init, items, limits) by {
        forall i | 0 <= i < |init| ensures init[i] == runs[i] { }
      }
      FoldSendsOnlySendable(init, items, limits);
      var prev := Fold(init);
      var c := runs[|runs| - 1];
      if prev.Going? {
        assert SendsOnlySendable(c.trace, items, limits);
        SendsOnlySendableAppend(prev.trace, c.trace, Fold(runs).trace, items, limits);
      }
    }
  }

  /** The first `k` chunks of the list together send only items of the list that can reach the bot. */
  lemma ProgressSendsOnlySendable(rule: CaptionRule, s: Settings, chunks: seq<seq<MediaItem>>, bot: Request -> Reply,
                                  items: seq<MediaItem>, k: nat)
    requires s.maxGroupSize >= 1
    requires k <= |chunks|
    requires chunks == Chunks(items, s.maxGroupSize)
    ensures SendsOnlySendable(GroupProgress(rule, s, chunks, bot, k).trace, items, s.limits)
  {
    ProgressIsFold(rule, s, chunks, bot, k);
    var runs := Runs(rule, s, chunks, bot, k);
    forall i | 0 <= i < k ensures SendsOnlySendable(runs[i].trace, items, s.limits) {
      ChunkOfItems(rule, s, items, bot, i);
    }
    FoldSendsOnlySendable(runs, items, s.limits);
  }

  /** Chunk `k` of the list sends only items of the list that can reach the bot. */
  lemma ChunkOfItems(rule: CaptionRule, s: Settings, items: seq<MediaItem>, bot: Request -> Reply, k: nat)
    requires s.maxGroupSize >= 1
    requires k < |Chunks(items, s.maxGroupSize)|
    ensures SendsOnlySendable(ChunkRun(rule, s, Chunks(items, s.maxGroupSize)[k], k, bot).trace, items, s.limits)
  {
    ChunkSlice(items, s.maxGroupSize, k);
    ChunkInItems(rule, s, items, bot, Chunks(items, s.maxGroupSize)[k], k);
  }

  /** Chunk `k`, a slice of the list, sends only items of the list that can reach the bot. */
  lemma ChunkInItems(rule: CaptionRule, s: Settings, items: seq<MediaItem>, bot: Request -> Reply, chunk: seq<MediaItem>, k: nat)
    requires s.maxGroupSize >= 1
    requires k * s.maxGroupSize + |chunk| <= |items|
    requires chunk == items[k * s.maxGroupSize .. k * s.maxGroupSize + |chunk|]
    ensures SendsOnlySendable(ChunkRun(rule, s, chunk, k, bot).trace, items, s.limits)
  {
    var trace := ChunkRun(rule, s, chunk, k, bot).trace;
    assert OnlySendable(trace, chunk, k * s.maxGroupSize, s.limits) by {
      ChunkSendsOwnItems(rule, s, chunk, k, bot);
    }
    ChunkToItems(trace, chunk, k * s.maxGroupSize, items, s.limits);
  }

  /** A single photo or video send carries at most the item at position 0, and only when it can reach the bot. */
  lemma SingleSendsOnlySendable(s: Settings, items: seq<MediaItem>, bot: Request -> Reply)
    requires |items| == 1
    ensures SendsOnlySendable(SendPhotoItem(items[0], 0, s.caption, s.replyTo, s.limits, bot).trace, items, s.limits)
    ensures SendsOnlySendable(SendVideoItem(items[0], 0, s.caption, s.replyTo, s.limits, bot).trace, items, s.limits)
  {
  }

  /**
   * Whatever the bot answers, the relay never hands it an item without a URL, one whose
   * download failed, or one over `max_asset_data_size`.
   */
  lemma RelaySendsOnlySendable(rule: CaptionRule, s: Settings, items: seq<MediaItem>, bot: Request -> Reply)
    requires s.maxGroupSize >= 1
    ensures SendsOnlySendable(RelayWith(rule, s, items, bot).trace, items, s.limits)
  {
    if Token(s) == "" {
    } else if |items| == 0 {
      assert RelayWith(rule, s, items, bot).trace == SendText(s.caption, s.replyTo, bot).trace;
    } else if |items| == 1 && (KindOf(items[0]) == "photo" || items[0].kind == Given("video")) {
      SingleSendsOnlySendable(s, items, bot);
    } else {
      var chunks := Chunks(items, s.maxGroupSize);
      ProgressSendsOnlySendable(rule, s, chunks, bot, items, |chunks|);
    }
  }

  // ---------------------------------------------------------------------------------------
  // Skipped items and chunks

  /** The last chunk of the list, when it holds one item, is that list's last item. */
  lemma LastSingleChunk(items: seq<MediaItem>, size: nat)
    requires size >= 1
    requires |Chunks(items, size)| >= 1 && |Chunks(items, size)[|Chunks(items, size)| - 1]| == 1
    ensures Chunks(items, size)[|Chunks(items, size)| - 1] == [items[|items| - 1]]
  {
    var chunks := Chunks(items, size);
    var n := |chunks|;
    ChunkAt(items, size, n - 1);
    ChunksCount(items, size);
    assert n * size >= |items|;
  }

  /**
   * A one-item last chunk whose item is over `max_asset_data_size` fails the whole relay at
   * that chunk, after every earlier chunk was already sent: the skip is reported as the
   * relay's failure.
   */
  lemma SkippedLastItemFailsRelay(rule: CaptionRule, s: Settings, items: seq<MediaItem>, bot: Request -> Reply)
    requires s.maxGroupSize >= 1
    requires |Chunks(items, s.maxGroupSize)| >= 1
    requires |Chunks(items, s.maxGroupSize)[|Chunks(items, s.maxGroupSize)| - 1]| == 1
    requires GroupProgress(rule, s, Chunks(items, s.maxGroupSize), bot, |Chunks(items, s.maxGroupSize)| - 1).Going?
    requires items[|items| - 1].url != "" && items[|items| - 1].download.Body?
    requires OverDataSize(items[|items| - 1].download.size, s.limits.maxAssetDataSize)
    ensures GroupRelay(rule, s, items, bot).response ==
            Failed(OverDataLimit(items[|items| - 1].download.size, s.limits.maxAssetDataSize.value), Some(|Chunks(items, s.maxGroupSize)|))
    ensures var before := GroupProgress(rule, s, Chunks(items, s.maxGroupSize), bot, |Chunks(items, s.maxGroupSize)| - 1).trace;
      before <= GroupRelay(rule, s, items, bot).trace
  {
    LastSingleChunk(items, s.maxGroupSize);
    LastSingleChunkFails(rule, s, Chunks(items, s.maxGroupSize), bot, items[|items| - 1]);
  }

  lemma LastSingleChunkFails(rule: CaptionRule, s: Settings, chunks: seq<seq<MediaItem>>, bot: Request -> Reply, item: MediaItem)
    requires s.maxGroupSize >= 1 && |chunks| >= 1 && chunks[|chunks| - 1] == [item]
    requires item.url != "" && item.download.Body? && OverDataSize(item.download.size, s.limits.maxAssetDataSize)
    ensures var before := GroupProgress(rule, s, chunks, bot, |chunks| - 1);
      before.Going? ==> GroupProgress(rule, s, chunks, bot, |chunks|) ==
                        Stopped(Failed(OverDataLimit(item.download.size, s.limits.maxAssetDataSize.value), Some(|chunks|)),
                                before.trace + Pauses(s, |chunks| - 1))
  {
    var n := |chunks|;
    var run := SingleChunk(s, item, n - 1, bot);
    assert run == Run(Failed(OverDataLimit(item.download.size, s.limits.maxAssetDataSize.value), None), []);
    ChunkRunSingle(rule, s, chunks[n - 1], n - 1, bot);
    assert ChunkRun(rule, s, chunks[n - 1], n - 1, bot).trace == Pauses(s, n - 1) + [];
    LastChunkStops(rule, s, chunks, bot);
  }

  /** A last chunk that stops the relay ends it with that chunk's failure, after the earlier chunks' steps and its own. */
  lemma LastChunkStops(rule: CaptionRule, s: Settings, chunks: seq<seq<MediaItem>>, bot: Request -> Reply)
    requires s.maxGroupSize >= 1 && |chunks| >= 1
    ensures var before := GroupProgress(rule, s, chunks, bot, |chunks| - 1);
      var c := ChunkRun(rule, s, chunks[|chunks| - 1], |chunks| - 1, bot);
      before.Going? && c.stop.Some? ==> GroupProgress(rule, s, chunks, bot, |chunks|) == Stopped(c.stop.value, before.trace + c.trace)
  {
  }

  /**
   * A last chunk of several items, all over `max_asset_data_size`, is passed over: the relay
   * still succeeds and counts that chunk as sent.
   */
  lemma SkippedLastGroupStillSucceeds(rule: CaptionRule, s: Settings, items: seq<MediaItem>, bot: Request -> Reply)
    requires s.maxGroupSize >= 1
    requires |Chunks(items, s.maxGroupSize)| >= 1
    requires |Chunks(items, s.maxGroupSize)[|Chunks(items, s.maxGroupSize)| - 1]| != 1
    requires AllOverDataSize(Chunks(items, s.maxGroupSize)[|Chunks(items, s.maxGroupSize)| - 1], s.limits)
    ensures var before := GroupProgress(rule, s, Chunks(items, s.maxGroupSize), bot, |Chunks(items, s.maxGroupSize)| - 1);
      before.Going? ==>
      GroupRelay(rule, s, items, bot) ==
      Run(GroupSent(before.messageIds, |Chunks(items, s.maxGroupSize)|),
          before.trace + Pauses(s, |Chunks(items, s.maxGroupSize)| - 1))
  {
    LastChunkPassedOver(rule, s, Chunks(items, s.maxGroupSize), bot);
  }

  /** A last chunk of several items all over the data limit leaves the relay going, with only its pause added. */
  lemma LastChunkPassedOver(rule: CaptionRule, s: Settings, chunks: seq<seq<MediaItem>>, bot: Request -> Reply)
    requires s.maxGroupSize >= 1 && |chunks| >= 1
    requires |chunks[|chunks| - 1]| != 1 && AllOverDataSize(chunks[|chunks| - 1], s.limits)
    ensures var before := GroupProgress(rule, s, chunks, bot, |chunks| - 1);
      before.Going? ==> GroupProgress(rule, s, chunks, bot, |chunks|) == Going(before.messageIds, before.trace + Pauses(s, |chunks| - 1))
  {
    ChunkAllSkipped(rule, s, chunks[|chunks| - 1], |chunks| - 1, bot);
    LastChunkAddsPause(rule, s, chunks, bot);
  }

  lemma LastChunkAddsPause(rule: CaptionRule, s: Settings, chunks: seq<seq<MediaItem>>, bot: Request -> Reply)
    requires s.maxGroupSize >= 1 && |chunks| >= 1
    requires ChunkRun(rule, s, chunks[|chunks| - 1], |chunks| - 1, bot) == ChunkResult([], Pauses(s, |chunks| - 1), None)
    ensures var before := GroupProgress(rule, s, chunks, bot, |chunks| - 1);
      before.Going? ==> GroupProgress(rule, s, chunks, bot, |chunks|) == Going(before.messageIds, before.trace + Pauses(s, |chunks| - 1))
  {
    var before := GroupProgress(rule, s, chunks, bot, |chunks| - 1);
    if before.Going? {
      AdvancePassOver(before, ChunkRun(rule, s, chunks[|chunks| - 1], |chunks| - 1, bot));
    }
  }

  lemma AdvancePassOver(prev: Progress, c: ChunkResult)
    requires prev.Going? && c.messageIds == [] && c.stop.None?
    ensures Advance(prev, c) == Going(prev.messageIds, prev.trace + c.trace)
  {
    assert prev.messageIds + [] == prev.messageIds;
  }

  // ---------------------------------------------------------------------------------------
  // Relays that fit in one chunk

  /** Up to `max_group_size` items (two or more) make one chunk: the relay is that chunk's media group. */
  lemma OneChunkRelay(rule: CaptionRule, s: Settings, items: seq<MediaItem>, bot: Request -> Reply)
    requires s.maxGroupSize >= 1
    requires Token(s) != "" && 2 <= |items| <= s.maxGroupSize
    ensures RelayWith(rule, s, items, bot).trace == GroupChunk(rule, s, items, 0, bot).trace
    ensures GroupChunk(rule, s, items, 0, bot).stop.None? ==>
              RelayWith(rule, s, items, bot).response == GroupSent(GroupChunk(rule, s, items, 0, bot).messageIds, 1)
  {
    assert Chunks(items, s.maxGroupSize) == [items];
    assert Pauses(s, 0) == [];
    var c := GroupChunk(rule, s, items, 0, bot);
    assert ChunkRun(rule, s, items, 0, bot) == ChunkResult(c.messageIds, [] + c.trace, c.stop);
    assert [] + c.trace == c.trace;
    assert [] + c.messageIds == c.messageIds;
  }

  /**
   * One item whose type is neither photo nor video is routed to the media-group path, where
   * a one-item chunk takes the video send: it goes out as a video.
   */
  lemma UnknownTypeSentAsVideo(rule: CaptionRule, s: Settings, item: MediaItem, bot: Request -> Reply)
    requires s.maxGroupSize >= 1
    requires Token(s) != "" && KindOf(item) != "photo" && KindOf(item) != "video" && Sendable(item, s.limits)
    ensures RelayWith(rule, s, [item], bot).trace == [Call(SendVideo(0, CaptionField(s.caption), ReplyField(s.replyTo)))]
  {
    assert Chunks([item], s.maxGroupSize) == [[item]];
    assert Pauses(s, 0) == [];
  }

  /** The same item among several in a chunk stops the relay before anything is sent. */
  lemma UnknownTypeInGroupFails(rule: CaptionRule, s: Settings, items: seq<MediaItem>, bot: Request -> Reply)
    requires s.maxGroupSize >= 1
    requires Token(s) != "" && 2 <= |items| <= s.maxGroupSize
    requires items[0].url != "" && KindOf(items[0]) != "photo" && KindOf(items[0]) != "video"
    ensures RelayWith(rule, s, items, bot) == Run(Failed(InvalidType(KindOf(items[0])), None), [])
  {
    OneChunkRelay(rule, s, items, bot);
    ScanStopsAtFirstAbort(items, 0, s.caption, s.limits, |items|);
    assert Chunks(items, s.maxGroupSize) == [items];
  }
  /**
   * An item whose `type` is JSON `null` passes neither single-item test, so alone it reaches
   * the media-group path and goes out as a video.
   */
  lemma NullTypeSentAsVideo(rule: CaptionRule, s: Settings, item: MediaItem, bot: Request -> Reply)
    requires s.maxGroupSize >= 1
    requires Token(s) != "" && item.kind.Null? && Sendable(item, s.limits)
    ensures RelayWith(rule, s, [item], bot).trace == [Call(SendVideo(0, CaptionField(s.caption), ReplyField(s.replyTo)))]
  {
    UnknownTypeSentAsVideo(rule, s, item, bot);
  }

  /** Leading a multi-item chunk, the same item fails the relay with "Invalid type 'None'". */
  lemma NullTypeInGroupFails(rule: CaptionRule, s: Settings, items: seq<MediaItem>, bot: Request -> Reply)
    requires s.maxGroupSize >= 1
    requires Token(s) != "" && 2 <= |items| <= s.maxGroupSize
    requires items[0].url != "" && items[0].kind.Null?
    ensures RelayWith(rule, s, items, bot) == Run(Failed(InvalidType("None"), None), [])
  {
    UnknownTypeInGroupFails(rule, s, items, bot);
  }


  // ---------------------------------------------------------------------------------------
  // The caption

  /** How many of the calls in `trace` carry `caption`. */
  function CaptionCount(trace: seq<Step>, caption: string): (r: nat)
    ensures r <= |trace|
  {
    if |trace| == 0 then 0
    else (if trace[0].Call? && CarriesCaption(trace[0].request, caption) then 1 else 0) + CaptionCount(trace[1..], caption)
  }

  lemma {:induction false} CaptionCountAppend(a: seq<Step>, b: seq<Step>, caption: string)
    ensures CaptionCount(a + b, caption) == CaptionCount(a, caption) + CaptionCount(b, caption)
    decreases |a|
  {
    if |a| > 0 {
      CaptionCountAppend(a[1..], b, caption);
      assert (a + b)[1..] == a[1..] + b;
    } else {
      assert a + b == b;
    }
  }

  /** Documents without a caption carry none. */
  lemma {:induction false} UncaptionedDocuments(diverted: seq<Diverted>, base: nat, bot: Request -> Reply, caption: string)
    requires caption != ""
    requires forall k :: 0 <= k < |diverted| ==> diverted[k].caption == ""
    ensures CaptionCount(SendDocuments(diverted, base, bot).trace, caption) == 0
    decreases |diverted|
  {
    if |diverted| > 0 {
      UncaptionedDocuments(diverted[1..], base, bot, caption);
      assert SendDocuments(diverted, base, bot).trace[1..] == SendDocuments(diverted[1..], base, bot).trace;
    }
  }

  /** Only the first diverted photo can carry the caption, and then exactly one document does. */
  lemma DocumentCaptions(diverted: seq<Diverted>, base: nat, bot: Request -> Reply, caption: string)
    requires caption != ""
    requires forall k :: 0 <= k < |diverted| && diverted[k].caption != "" ==> k == 0 && diverted[k].caption == caption
    ensures CaptionCount(SendDocuments(diverted, base, bot).trace, caption) ==
            if |diverted| > 0 && diverted[0].caption != "" then 1 else 0
  {
    if |diverted| > 0 {
      UncaptionedDocuments(diverted[1..], base, bot, caption);
      assert SendDocuments(diverted, base, bot).trace[1..] == SendDocuments(diverted[1..], base, bot).trace;
    }
  }

  /** The media group carries the caption exactly when the caption rule puts it on its first item. */
  lemma GroupRequestCaption(rule: CaptionRule, s: Settings, idx: nat, base: nat, kept: seq<Kept>, diverted: seq<Diverted>)
    requires s.caption != "" && |kept| > 0
    ensures CarriesCaption(GroupRequest(rule, s, idx, base, kept, diverted), s.caption) <==> GroupCaption(rule, s.caption, idx, diverted)
  {
    var req := GroupRequest(rule, s, idx, base, kept, diverted);
    if GroupCaption(rule, s.caption, idx, diverted) {
      assert req.members[0].caption == Some(s.caption);
    }
  }

  /** Calls carrying the caption in a delivered media-group chunk: the group's, plus the first document's. */
  lemma GroupSendCaptions(rule: CaptionRule, s: Settings, idx: nat, base: nat, kept: seq<Kept>, diverted: seq<Diverted>,
                          bot: Request -> Reply)
    requires s.caption != "" && |kept| > 0
    requires forall k :: 0 <= k < |diverted| && diverted[k].caption != "" ==> k == 0 && diverted[k].caption == s.caption
    requires GroupSend(rule, s, idx, base, kept, diverted, bot).stop.None?
    ensures CaptionCount(GroupSend(rule, s, idx, base, kept, diverted, bot).trace, s.caption) ==
            (if GroupCaption(rule, s.caption, idx, diverted) then 1 else 0) +
            (if |diverted| > 0 && diverted[0].caption != "" then 1 else 0)
  {
    var c := GroupSend(rule, s, idx, base, kept, diverted, bot);
    var req := GroupRequest(rule, s, idx, base, kept, diverted);
    var docs := SendDocuments(diverted, base, bot);
    assert c.trace == [Call(req)] + docs.trace;
    CaptionCountAppend([Call(req)], docs.trace, s.caption);
    GroupRequestCaption(rule, s, idx, base, kept, diverted);
    DocumentCaptions(diverted, base, bot, s.caption);
  }

  /** The facts of a first-chunk scan the caption lemmas rest on. */
  lemma FirstChunkScan(s: Settings, chunk: seq<MediaItem>)
    requires ScanChunk(chunk, 0, s.caption, s.limits, |chunk|).Scanned?
    ensures var scan := ScanChunk(chunk, 0, s.caption, s.limits, |chunk|);
      forall k :: 0 <= k < |scan.diverted| && scan.diverted[k].caption != "" ==>
        k == 0 && scan.diverted[k].caption == s.caption && scan.diverted[k].pos == 0
  {
    ScanDiverted(chunk, 0, s.caption, s.limits, |chunk|);
  }

  /**
   * With the intended rule, a delivered first media-group chunk carries a non-empty caption
   * in exactly one request: on the group, or on the first document when that photo was item 0.
   */
  lemma CaptionSentOnce(s: Settings, chunk: seq<MediaItem>, bot: Request -> Reply)
    requires s.maxGroupSize >= 1 && s.caption != ""
    ensures var scan := ScanChunk(chunk, 0, s.caption, s.limits, |chunk|);
      scan.Scanned? && |scan.kept| > 0 && GroupChunk(Intended, s, chunk, 0, bot).stop.None? ==>
      CaptionCount(GroupChunk(Intended, s, chunk, 0, bot).trace, s.caption) == 1
  {
    var scan := ScanChunk(chunk, 0, s.caption, s.limits, |chunk|);
    if scan.Scanned? && |scan.kept| > 0 && GroupChunk(Intended, s, chunk, 0, bot).stop.None? {
      FirstChunkScan(s, chunk);
      GroupSendCaptions(Intended, s, 0, 0, scan.kept, scan.diverted, bot);
    }
  }

  /** A first chunk whose item 0 is kept and some later photo diverted: the scan's shape. */
  lemma KeptFirstDivertedLater(s: Settings, chunk: seq<MediaItem>, i: nat)
    requires forall e :: 0 <= e < |chunk| ==> !Aborts(chunk[e])
    requires 0 < i < |chunk| && Keeps(chunk[0], s.limits) && Diverts(chunk[i], s.limits)
    ensures var scan := ScanChunk(chunk, 0, s.caption, s.limits, |chunk|);
      scan.Scanned? && |scan.kept| > 0 && |scan.diverted| > 0 &&
      forall k :: 0 <= k < |scan.diverted| ==> scan.diverted[k].caption == ""
  {
    var scan := ScanChunk(chunk, 0, s.caption, s.limits, |chunk|);
    ScanKeptComplete(chunk, 0, s.caption, s.limits, |chunk|);
    ScanDiverted(chunk, 0, s.caption, s.limits, |chunk|);
    var k :| 0 <= k < |scan.kept| && scan.kept[k].pos == 0;
    var d :| 0 <= d < |scan.diverted| && scan.diverted[d].pos == i;
  }

  /**
   * As written, when the first item goes into the group and a later photo of the first chunk
   * is diverted to a document, no request carries the caption: the group drops it because a
   * photo was diverted, and the document never had it.
   */
  lemma CaptionLostAsWritten(s: Settings, chunk: seq<MediaItem>, bot: Request -> Reply, i: nat)
    requires s.maxGroupSize >= 1 && s.caption != ""
    requires forall e :: 0 <= e < |chunk| ==> !Aborts(chunk[e])
    requires 0 < i < |chunk| && Keeps(chunk[0], s.limits) && Diverts(chunk[i], s.limits)
    requires GroupChunk(AsWritten, s, chunk, 0, bot).stop.None?
    ensures CaptionCount(GroupChunk(AsWritten, s, chunk, 0, bot).trace, s.caption) == 0
  {
    var scan := ScanChunk(chunk, 0, s.caption, s.limits, |chunk|);
    KeptFirstDivertedLater(s, chunk, i);
    FirstChunkScan(s, chunk);
    GroupSendCaptions(AsWritten, s, 0, 0, scan.kept, scan.diverted, bot);
  }

  /** The same chunk under the intended rule: the group carries the caption. */
  lemma CaptionKeptIntended(s: Settings, chunk: seq<MediaItem>, bot: Request -> Reply, i: nat)
    requires s.maxGroupSize >= 1 && s.caption != ""
    requires forall e :: 0 <= e < |chunk| ==> !Aborts(chunk[e])
    requires 0 < i < |chunk| && Keeps(chunk[0], s.limits) && Diverts(chunk[i], s.limits)
    requires GroupChunk(Intended, s, chunk, 0, bot).stop.None?
    ensures var c := GroupChunk(Intended, s, chunk, 0, bot);
      |c.trace| > 0 && c.trace[0].Call? && c.trace[0].request.SendMediaGroup? &&
      |c.trace[0].request.members| > 0 && c.trace[0].request.members[0].caption == Some(s.caption)
    ensures CaptionCount(GroupChunk(Intended, s, chunk, 0, bot).trace, s.caption) == 1
  {
    var scan := ScanChunk(chunk, 0, s.caption, s.limits, |chunk|);
    KeptFirstDivertedLater(s, chunk, i);
    CaptionSentOnce(s, chunk, bot);
    assert GroupCaption(Intended, s.caption, 0, scan.diverted);
    var req := GroupRequest(Intended, s, 0, 0, scan.kept, scan.diverted);
    assert req.members[0].caption == Some(s.caption);
  }

  /**
   * A concrete relay showing the difference: a small photo followed by a photo over 10 MB,
   * caption "hi", oversized photos sent as documents, and a bot that accepts every request.
   * As written no request carries "hi"; under the intended rule the media group does.
   */
  lemma CaptionLostExample()
    ensures var s := Settings("token", "", "hi", None, 10, 0, Limits(None, true));
      var items := [MediaItem("a", Missing, Body(1, None)), MediaItem("b", Given("photo"), Body(MaxPhotoSize + 1, None))];
      var bot := (req: Request) => Accepted([]);
      CaptionCount(RelayAsWritten(s, items, bot).trace, "hi") == 0 &&
      CaptionCount(Relay(s, items, bot).trace, "hi") == 1
  {
    var s := Settings("token", "", "hi", None, 10, 0, Limits(None, true));
    var items := [MediaItem("a", Missing, Body(1, None)), MediaItem("b", Given("photo"), Body(MaxPhotoSize + 1, None))];
    var bot := (req: Request) => Accepted([]);
    assert Keeps(items[0], s.limits);
    assert Diverts(items[1], s.limits);
    KeptFirstDivertedLater(s, items, 1);
    OneChunkRelay(AsWritten, s, items, bot);
    OneChunkRelay(Intended, s, items, bot);
    CaptionLostAsWritten(s, items, bot, 1);
    CaptionKeptIntended(s, items, bot, 1);
  }
}

=== FILE: telegram_send.dfy ===
/**
 * The single-message side of the Telegram relay of `send_telegram_notification`: the bot API
 * requests, how a reply is read, Telegram's photo limits, and the single photo, video, document
 * and text sends. The bot and every media download are inputs: each media item carries the
 * outcome of downloading it, and the bot is a function from request to reply.
 */
module TelegramSend {
  import opened Wrappers

  /** 10 MB: the largest file Telegram accepts as a photo. */
  const MaxPhotoSize: nat := 10 * 1024 * 1024
  /** The largest width + height Telegram accepts for a photo. */
  const MaxDimensionSum: nat := 10000

  const DefaultText: string := "Notification from Home Assistant"
  const UnknownError: string := "Unknown Telegram error"

  /**
   * Downloading a media URL: a 200 body (its length, and the image size when it can be read
   * as an image), another status, or a transport error.
   */
  datatype Download =
    | Body(size: nat, dimensions: Option<(nat, nat)>)
    | HttpStatus(status: int)
    | ConnectionFailed

  /**
   * The `type` key of one `urls` entry. The service schema accepts any list, so the key may be
   * missing, hold JSON `null`, or hold any string.
   */
  datatype TypeField = Missing | Null | Given(name: string)

  /** One entry of `urls`: `url` is `""` when missing or empty. */
  datatype MediaItem = MediaItem(url: string, kind: TypeField, download: Download)

  /**
   * `item.get("type", "photo")`, as the error message renders it: a missing key reads as
   * "photo" and a `null` as Python's `None`, which equals neither "photo" nor "video".
   */
  function KindOf(item: MediaItem): string {
    match item.kind
    case Missing => "photo"
    case Null => "None"
    case Given(name) => name
  }

  datatype MediaKind = Photo | Video

  /** One entry of a media group's `media` JSON. */
  datatype Member = Member(item: nat, kind: MediaKind, caption: Option<string>)

  /** A bot API call; `item` is the position of the media in `urls`. */
  datatype Request =
    | SendMessage(text: string, replyTo: Option<int>)
    | SendPhoto(item: nat, caption: Option<string>, replyTo: Option<int>)
    | SendVideo(item: nat, caption: Option<string>, replyTo: Option<int>)
    | SendDocument(item: nat, caption: Option<string>, replyTo: Option<int>)
    | SendMediaGroup(members: seq<Member>, replyTo: Option<int>)

  /** A request that sends one media item. */
  predicate SingleMedia(req: Request) {
    req.SendPhoto? || req.SendVideo? || req.SendDocument?
  }

  /** The request carries media item `g`. */
  predicate Mentions(req: Request, g: nat) {
    match req
    case SendMessage(_, _) => false
    case SendPhoto(i, _, _) => i == g
    case SendVideo(i, _, _) => i == g
    case SendDocument(i, _, _) => i == g
    case SendMediaGroup(ms, _) => exists k :: 0 <= k < |ms| && ms[k].item == g
  }

  /** The request carries the caption text somewhere. */
  predicate CarriesCaption(req: Request, caption: string) {
    match req
    case SendMessage(text, _) => text == caption
    case SendPhoto(_, c, _) => c == Some(caption)
    case SendVideo(_, c, _) => c == Some(caption)
    case SendDocument(_, c, _) => c == Some(caption)
    case SendMediaGroup(ms, _) => exists k :: 0 <= k < |ms| && ms[k].caption == Some(caption)
  }

  /**
   * The bot's answer: accepted (200 and `ok`) with the `message_id` of each message in
   * `result` (one for a single send), refused with the reply's `error_code` and
   * `description`, or a transport error.
   */
  datatype Reply =
    | Accepted(messageIds: seq<Option<int>>)
    | Refused(errorCode: Option<int>, description: Option<string>)
    | ConnectionError

  /** Why a photo cannot go as a photo. */
  datatype PhotoLimit = TooLarge(size: nat) | TooWide(width: nat, height: nat)

  datatype Failure =
    | NoToken
    | MissingUrl
    | InvalidType(kind: string)
    | DownloadStatus(status: int)
    | DownloadError
    | OverDataLimit(size: nat, limit: nat)
    | OverPhotoLimit(reason: PhotoLimit)
    | Rejected(errorCode: Option<int>, description: string)
    | SendError

  /** The failures the response marks `"skipped": true`. */
  predicate Skipped(f: Failure) {
    f.OverDataLimit? || f.OverPhotoLimit?
  }

  /** The service response. */
  datatype Response =
    | Sent(messageId: Option<int>)
    | GroupSent(messageIds: seq<Option<int>>, chunksSent: nat)
    | Failed(failure: Failure, failedAtChunk: Option<nat>)

  /** What one relay call did: its response and the bot calls and pauses, in order. */
  datatype Step = Pause(milliseconds: int) | Call(request: Request)

  datatype Run = Run(response: Response, trace: seq<Step>)

  /**
   * The message ids an accepted reply contributes to `message_ids`: every message of an
   * accepted media group, the one message of an accepted single send; nothing otherwise.
   */
  function ReplyIds(req: Request, reply: Reply): seq<Option<int>> {
    match reply
    case Accepted(ids) => if req.SendMediaGroup? then ids else [if |ids| > 0 then ids[0] else None]
    case _ => []
  }

  /** The message ids of every call in `trace` the bot accepted, in call order; a pause adds none. */
  function TraceIds(trace: seq<Step>, bot: Request -> Reply): seq<Option<int>> {
    if |trace| == 0 then []
    else (if trace[0].Call? then ReplyIds(trace[0].request, bot(trace[0].request)) else []) + TraceIds(trace[1..], bot)
  }

  lemma {:induction false} TraceIdsAppend(a: seq<Step>, b: seq<Step>, bot: Request -> Reply)
    ensures TraceIds(a + b, bot) == TraceIds(a, bot) + TraceIds(b, bot)
    decreases |a|
  {
    if |a| == 0 {
      assert a + b == b;
    } else {
      var head := if a[0].Call? then ReplyIds(a[0].request, bot(a[0].request)) else [];
      assert (a + b)[0] == a[0] && (a + b)[1..] == a[1..] + b;
      calc {
        TraceIds(a + b, bot);
        head + TraceIds(a[1..] + b, bot);
        { TraceIdsAppend(a[1..], b, bot); }
        head + (TraceIds(a[1..], bot) + TraceIds(b, bot));
        (head + TraceIds(a[1..], bot)) + TraceIds(b, bot);
        TraceIds(a, bot) + TraceIds(b, bot);
      }
    }
  }

  /** A caption field is attached only when the caption is non-empty. */
  function CaptionField(caption: string): (r: Option<string>)
    ensures r.Some? <==> caption != ""
    ensures r.Some? ==> r.value == caption
  {
    if caption != "" then Some(caption) else None
  }

  /** `reply_to_message_id` is attached only when it is set and non-zero. */
  function ReplyField(replyTo: Option<int>): (r: Option<int>)
    ensures r.Some? <==> replyTo.Some? && replyTo.value != 0
    ensures r.Some? ==> r == replyTo
  {
    if replyTo.Some? && replyTo.value != 0 then replyTo else None
  }

  /** `_check_telegram_photo_limits`: the size first; then the dimensions, when the image could be read. */
  function PhotoLimitExceeded(size: nat, dimensions: Option<(nat, nat)>): (r: Option<PhotoLimit>)
    ensures r.None? <==> size <= MaxPhotoSize && (dimensions.None? || dimensions.value.0 + dimensions.value.1 <= MaxDimensionSum)
    ensures size > MaxPhotoSize ==> r == Some(TooLarge(size))
    ensures r.Some? && r.value.TooWide? ==> dimensions == Some((r.value.width, r.value.height))
  {
    if size > MaxPhotoSize then Some(TooLarge(size))
    else match dimensions
      case Some((w, h)) => if w + h > MaxDimensionSum then Some(TooWide(w, h)) else None
      case None => None
  }

  /** `max_asset_data_size`: a set limit smaller than the body. */
  predicate OverDataSize(size: nat, limit: Option<nat>) {
    limit.Some? && size > limit.value
  }

  /** A single send's reply read as the service response. */
  function ReadReply(reply: Reply): (r: Response)
    ensures reply.Accepted? <==> r.Sent?
    ensures reply.Refused? ==> r == Failed(Rejected(reply.errorCode, reply.description.GetOr(UnknownError)), None)
    ensures reply.ConnectionError? ==> r == Failed(SendError, None)
  {
    match reply
    case Accepted(ids) => Sent(if |ids| > 0 then ids[0] else None)
    case Refused(code, desc) => Failed(Rejected(code, desc.GetOr(UnknownError)), None)
    case ConnectionError => Failed(SendError, None)
  }

  /** One bot call and its reply. */
  function CallBot(req: Request, bot: Request -> Reply): (r: Run)
    ensures r.trace == [Call(req)]
    ensures r.response == ReadReply(bot(req))
  {
    Run(ReadReply(bot(req)), [Call(req)])
  }

  /** `_send_telegram_message`: the caption, or the default text when there is none. */
  function SendText(caption: string, replyTo: Option<int>, bot: Request -> Reply): (r: Run)
    ensures |r.trace| == 1 && r.trace[0].Call? && r.trace[0].request.SendMessage?
    ensures r.trace[0].request.text == (if caption != "" then caption else DefaultText)
    ensures r.trace[0].request.replyTo == ReplyField(replyTo)
    ensures r.response == ReadReply(bot(r.trace[0].request))
  {
    CallBot(SendMessage(if caption != "" then caption else DefaultText, ReplyField(replyTo)), bot)
  }

  /** The download step shared by the single sends: a failed download ends the send. */
  function DownloadFailure(d: Download): (r: Option<Failure>)
    ensures r.None? <==> d.Body?
    ensures d.HttpStatus? ==> r == Some(DownloadStatus(d.status))
    ensures d.ConnectionFailed? ==> r == Some(DownloadError)
  {
    match d
    case Body(_, _) => None
    case HttpStatus(s) => Some(DownloadStatus(s))
    case ConnectionFailed => Some(DownloadError)
  }

  /** The settings a send uses. */
  datatype Limits = Limits(maxAssetDataSize: Option<nat>, largePhotosAsDocuments: bool)

  /** The item can reach the bot: it has a URL, downloaded, and is within `max_asset_data_size`. */
  predicate Sendable(item: MediaItem, limits: Limits) {
    item.url != "" && item.download.Body? && !OverDataSize(item.download.size, limits.maxAssetDataSize)
  }

  /**
   * `_send_telegram_photo` for the item at position `g`: missing URL, failed download, over the
   * data limit, and over Telegram's photo limits (sent as a document, with the same caption and
   * reply, when enabled; skipped otherwise) each end the send before a photo is sent.
   */
  function SendPhotoItem(item: MediaItem, g: nat, caption: string, replyTo: Option<int>, limits: Limits,
                         bot: Request -> Reply): (r: Run)
    ensures item.url == "" ==> r == Run(Failed(MissingUrl, None), [])
    ensures item.url != "" && !item.download.Body? ==> r == Run(Failed(DownloadFailure(item.download).value, None), [])
    ensures item.url != "" && item.download.Body? && OverDataSize(item.download.size, limits.maxAssetDataSize) ==>
              r == Run(Failed(OverDataLimit(item.download.size, limits.maxAssetDataSize.value), None), [])
    ensures |r.trace| <= 1
    ensures r.trace != [] ==> r.trace[0].Call? && (r.trace[0].request.SendPhoto? || r.trace[0].request.SendDocument?)
    ensures r.trace != [] ==> r.trace[0].request.item == g
    ensures r.trace != [] ==> item.url != "" && item.download.Body? && !OverDataSize(item.download.size, limits.maxAssetDataSize)
    ensures r.trace != [] ==> r.trace[0].request.caption == CaptionField(caption) && r.trace[0].request.replyTo == ReplyField(replyTo)
    ensures r.trace != [] && r.trace[0].request.SendDocument? ==>
              PhotoLimitExceeded(item.download.size, item.download.dimensions).Some? && limits.largePhotosAsDocuments
    ensures r.trace == [] <==> r.response.Failed? && !r.response.failure.Rejected? && !r.response.failure.SendError?
    ensures r.trace != [] ==> r.response == ReadReply(bot(r.trace[0].request))
    ensures item.url != "" && item.download.Body? && !OverDataSize(item.download.size, limits.maxAssetDataSize) ==>
              var over := PhotoLimitExceeded(item.download.size, item.download.dimensions);
              && (over.None? ==> r == CallBot(SendPhoto(g, CaptionField(caption), ReplyField(replyTo)), bot))
              && (over.Some? && limits.largePhotosAsDocuments ==>
                    r == CallBot(SendDocument(g, CaptionField(caption), ReplyField(replyTo)), bot))
              && (over.Some? && !limits.largePhotosAsDocuments ==> r == Run(Failed(OverPhotoLimit(over.value), None), []))
    ensures r.trace != [] && r.trace[0].request.SendPhoto? ==>
              item.download.Body? && PhotoLimitExceeded(item.download.size, item.download.dimensions).None?
    ensures r.response.Sent? ==> [r.response.messageId] == TraceIds(r.trace, bot)
    ensures r.response.Failed? ==> r.response.failedAtChunk.None?
    ensures !r.response.GroupSent?
  {
    if item.url == "" then Run(Failed(MissingUrl, None), [])
    else match item.download
      case HttpStatus(s) => Run(Failed(DownloadStatus(s), None), [])
      case ConnectionFailed => Run(Failed(DownloadError, None), [])
      case Body(size, dims) =>
        if OverDataSize(size, limits.maxAssetDataSize) then
          Run(Failed(OverDataLimit(size, limits.maxAssetDataSize.value), None), [])
        else match PhotoLimitExceeded(size, dims)
          case Some(reason) =>
            if limits.largePhotosAsDocuments then CallBot(SendDocument(g, CaptionField(caption), ReplyField(replyTo)), bot)
            else Run(Failed(OverPhotoLimit(reason), None), [])
          case None => CallBot(SendPhoto(g, CaptionField(caption), ReplyField(replyTo)), bot)
  }

  /** `_send_telegram_video` for the item at position `g`: as the photo send, without Telegram's photo limits. */
  function SendVideoItem(item: MediaItem, g: nat, caption: string, replyTo: Option<int>, limits: Limits,
                         bot: Request -> Reply): (r: Run)
    ensures item.url == "" ==> r == Run(Failed(MissingUrl, None), [])
    ensures item.url != "" && !item.download.Body? ==> r == Run(Failed(DownloadFailure(item.download).value, None), [])
    ensures item.url != "" && item.download.Body? && OverDataSize(item.download.size, limits.maxAssetDataSize) ==>
              r == Run(Failed(OverDataLimit(item.download.size, limits.maxAssetDataSize.value), None), [])
    ensures item.url != "" && item.download.Body? && !OverDataSize(item.download.size, limits.maxAssetDataSize) ==>
              r == CallBot(SendVideo(g, CaptionField(caption), ReplyField(replyTo)), bot)
    ensures r.response.Sent? ==> [r.response.messageId] == TraceIds(r.trace, bot)
    ensures r.response.Failed? ==> r.response.failedAtChunk.None?
    ensures !r.response.GroupSent?
  {
    if item.url == "" then Run(Failed(MissingUrl, None), [])
    else match item.download
      case HttpStatus(s) => Run(Failed(DownloadStatus(s), None), [])
      case ConnectionFailed => Run(Failed(DownloadError, None), [])
      case Body(size, _) =>
        if OverDataSize(size, limits.maxAssetDataSize) then
          Run(Failed(OverDataLimit(size, limits.maxAssetDataSize.value), None), [])
        else CallBot(SendVideo(g, CaptionField(caption), ReplyField(replyTo)), bot)
  }

  /**
   * An over-limit photo never goes out with `sendPhoto`: it goes as a document when that is
   * enabled, and otherwise fails as skipped without any call.
   */
  lemma LargePhotoNeverSentAsPhoto(item: MediaItem, g: nat, caption: string, replyTo: Option<int>, limits: Limits,
                                   bot: Request -> Reply)
    requires item.download.Body? && PhotoLimitExceeded(item.download.size, item.download.dimensions).Some?
    ensures var r := SendPhotoItem(item, g, caption, replyTo, limits, bot);
      && (forall k :: 0 <= k < |r.trace| ==> !(r.trace[k].Call? && r.trace[k].request.SendPhoto?))
      && (r.trace == [] <==> !Sendable(item, limits) || !limits.largePhotosAsDocuments)
      && (Sendable(item, limits) && !limits.largePhotosAsDocuments ==> r.response.Failed? && Skipped(r.response.failure))
  {
  }

  /** A photo within every limit is sent as a photo, never as a document, whatever the document setting. */
  lemma SmallPhotoGoesAsPhoto(item: MediaItem, g: nat, caption: string, replyTo: Option<int>, limits: Limits,
                              bot: Request -> Reply)
    requires item.url != "" && item.download.Body?
    requires !OverDataSize(item.download.size, limits.maxAssetDataSize)
    requires item.download.size <= MaxPhotoSize
    requires item.download.dimensions.None? || item.download.dimensions.value.0 + item.download.dimensions.value.1 <= MaxDimensionSum
    ensures SendPhotoItem(item, g, caption, replyTo, limits, bot).trace ==
            [Call(SendPhoto(g, CaptionField(caption), ReplyField(replyTo)))]
  {
  }
}

=== FILE: wrappers.dfy ===
/** Optional values: the model's stand-in for Python's `X | None`. */
module Wrappers {

  datatype Option<+T> = None | Some(value: T) {

    /** The wrapped value, or `default` when there is none (Python's `x or default` / `.get(k, default)`). */
    function GetOr(default: T): T {
      match this
      case Some(v) => v
      case None => default
    }
  }
}
